=== FILE: README.md ===
# HR dashboard core in Dafny

This project models the client-side business logic of an HR dashboard written in TypeScript
and Svelte, and proves properties of that logic. The model covers:

- **Attendance rules.** Working time, late minutes, early-leave minutes, the status classifier
  and the duration and month formats.
- **Attendance store.** Check-in, check-out, HR overrides, manual records, configuration
  updates, and the derived views: daily lists, an employee's history, the monthly summary,
  today's statistics and the 42-cell month calendar.
- **Employees store.** The staged filter, pagination, the filter setters, soft and permanent
  deletion, documents and statistics.
- **Departments store.** Department and position CRUD with the copy of each department's
  positions, filtering and statistics.
- **Authentication store.** Mock users, login, logout and clearing the error.
- **Legacy stores.** The older employees and departments stores with their filters and
  statistics.

Every store is a value and every action is a pure function from the old state to the new one.
The result of an action is returned next to the new state. Things the source reads from its
environment are explicit parameters:

- the clock (`now`, `today`);
- generated ids (`freshId`, with a freshness precondition);
- the signed-in user.

Modules and files:

| file | module | models |
|---|---|---|
| `wrappers.dfy` | `Wrappers` | `Option` with `GetOr` / `OrElse` (the `??` / `\|\|` fallbacks) |
| `text.dfy` | `Text` | `toLowerCase`, `includes`, `trim`, `startsWith`, `String(n)`, `padStart`, `indexOf` |
| `seqs.dfy` | `Seqs` | `filter`, `find`, `findIndex`, `map`-replace, `reduce` sums, and the fusion lemmas |
| `order.dfy` | `Order` | string order, sorted de-duplication, stable descending sort by a key |
| `calendar.dfy` | `Calendar` | Gregorian dates, weekdays, the 42-day month grid |
| `attendance_rules.dfy` | `AttendanceRules` | `src/lib/types/attendance.ts` |
| `attendance_store.dfy` | `AttendanceStore` | the actions of `src/lib/stores/attendanceStore.ts` |
| `attendance_views.dfy` | `AttendanceViews` | the derived stores of `src/lib/stores/attendanceStore.ts` |
| `employees_store.dfy` | `EmployeesStore` | `src/lib/stores/employeesStore.ts` |
| `departments_store.dfy` | `DepartmentsStore` | `src/lib/stores/departmentsStore.ts`, `src/lib/types/department.ts` |
| `auth.dfy` | `Auth` | `src/lib/stores/auth.ts` |
| `legacy_employees.dfy` | `LegacyEmployees` | `src/lib/stores/employees.ts` |
| `legacy_departments.dfy` | `LegacyDepartments` | `src/lib/stores/departments.ts` |

Modelling conventions:

- **Time.** An instant is an integer of milliseconds since the epoch, read in UTC. Clock times
  in the configuration are minutes after midnight: 540 is 09:00.
- **Working time.** `workingHours` is a whole number of minutes, as the source computes it.
  The minimum working time is compared in minutes.
- **Late and early boundaries.** The source floors the difference in milliseconds to whole
  minutes. A check-in therefore counts as late only once it is a full minute past
  start + grace. The contracts state this as an exact if-and-only-if.
- **Truthiness.** A JavaScript truthiness test on an optional string (`notes || …`,
  `if (!selectedEmployeeId)`) is `Truthy`: present and non-empty.
- **String order.** `sort()` and `localeCompare` are modelled as code-unit order.
- **Check-out status order.** Check-out ranks early leave above half day, while the classifier
  ranks half day first. `AttendanceStore.CheckInThenCheckOut` proves the two agree except
  exactly in that case. `AttendanceStore.CheckOutOrderDivergesExample` shows the case with
  09:00 to 11:00.

## Model

| member | source | states |
|---|---|---|
| AttendanceRules.WorkingMinutes | src/lib/types/attendance.ts:204-211 | 0 when either time is missing; otherwise never negative, and positive only when the elapsed whole minutes exceed the break, of which it is then the excess |
| AttendanceRules.WorkingMinutesMonotone | src/lib/types/attendance.ts:204-211 | a later check-out never yields less working time |
| AttendanceRules.LateMinutes | src/lib/types/attendance.ts:219-234 | never negative; 0 exactly when the check-in is less than one minute past start plus grace; otherwise the check-in is at least that many whole minutes past the boundary |
| AttendanceRules.LateMinutesMonotone | src/lib/types/attendance.ts:219-234 | within one day, a later check-in is never less late |
| AttendanceRules.LateMinutesExamples | src/lib/types/attendance.ts:219-234 | with the default 09:00 start and 15-minute grace, 09:14 is on time, 09:16 is 1 minute late and 09:20 is 5 minutes late |
| AttendanceRules.EarlyLeaveMinutes | src/lib/types/attendance.ts:242-257 | never negative; 0 exactly when the check-out is less than one minute before end minus tolerance; otherwise bounds the check-out from below by that many minutes |
| AttendanceRules.EarlyLeaveMinutesMonotone | src/lib/types/attendance.ts:242-257 | within one day, leaving later never counts more early-leave minutes |
| AttendanceRules.Classify | src/lib/types/attendance.ts:262-278 | absent exactly when both times are missing; half day with one time; with both, half day when under the minimum, else early leave, else late, else present, each as an if-and-only-if |
| AttendanceRules.PresentMeansClean | src/lib/types/attendance.ts:262-278 | a present day has both times, no late or early-leave minutes and at least the minimum working time |
| AttendanceRules.ClassifyExamples | src/lib/types/attendance.ts:262-278 | at the default configuration, 09:00 to 17:00 is 420 minutes and present, 09:20 to 17:00 is late, and a check-out alone is half day with no working time |
| AttendanceRules.HalfDayOutranksEarlyAndLate | src/lib/types/attendance.ts:272-277 | a day that is late, leaves early and is short is half day |
| AttendanceRules.FormatDuration | src/lib/types/attendance.ts:192-199 | non-negative minutes render as "0m", as "Nm" under an hour, as "Nh" on whole hours and as "Nh Mm" otherwise |
| AttendanceRules.FormatDurationRoundTrip | src/lib/types/attendance.ts:192-199 | the rendered text parses back to the same number of minutes, so no two durations share a text |
| AttendanceStore.RecordOn | src/lib/stores/attendanceStore.ts:445-448 | the first record, in store order, of that employee on that date, or none when the list has no such record |
| AttendanceStore.FindAfterReplace | src/lib/stores/attendanceStore.ts:206-212 | after a record is replaced by id, the day lookup finds the replacement |
| AttendanceStore.ReplaceByUniqueId | src/lib/stores/attendanceStore.ts:208 | with unique ids, replacing by id changes exactly one position of the list |
| AttendanceStore.CheckIn | src/lib/stores/attendanceStore.ts:151-215 | refused, leaving the state as it was, exactly when today's record already has a check-in; otherwise records the check-in with late minutes and late or present status, on a new record or on the existing one |
| AttendanceStore.CheckInTwiceRefused | src/lib/stores/attendanceStore.ts:159-167 | a second check-in on the same day is refused |
| AttendanceStore.CheckInPreservesInvariants | src/lib/stores/attendanceStore.ts:159-212 | check-in keeps record ids unique and at most one record per employee and day |
| AttendanceStore.CheckOut | src/lib/stores/attendanceStore.ts:221-272 | refused exactly without a check-in today or after a check-out; otherwise records the check-out with working time, early-leave minutes and the early-leave / half-day / unchanged status |
| AttendanceStore.CheckOutTwiceRefused | src/lib/stores/attendanceStore.ts:239-242 | a second check-out on the same day is refused |
| AttendanceStore.CheckOutPreservesInvariants | src/lib/stores/attendanceStore.ts:265-269 | check-out keeps record ids unique and one record per employee and day |
| AttendanceStore.CheckInThenCheckOut | src/lib/stores/attendanceStore.ts:244-253 | check-in then check-out gives the classifier's status, except that a short early departure is early leave where the classifier says half day |
| AttendanceStore.CheckOutOrderDivergesExample | src/lib/stores/attendanceStore.ts:248-253 | 09:00 to 11:00 at the default configuration is recorded as early leave with 60 working minutes, and the classifier calls it half day |
| AttendanceStore.CheckOutNotesJoin | src/lib/stores/attendanceStore.ts:262 | a check-out note is appended to the previous note with one space between them |
| AttendanceStore.CheckOutNoteAlone | src/lib/stores/attendanceStore.ts:262 | with no previous note, the check-out note stands alone |
| AttendanceStore.Override | src/lib/stores/attendanceStore.ts:281-336 | refused exactly for an unknown id; otherwise replaces that record, marked overridden, with times taken from the request or kept, values recomputed when both times exist, and the requested status winning over the computed one |
| AttendanceStore.OverrideIsConsistent | src/lib/stores/attendanceStore.ts:297-311 | an override with both times and no explicit status leaves a record whose figures and status agree with the rules |
| AttendanceStore.OverridePreservesInvariants | src/lib/stores/attendanceStore.ts:313-333 | an override keeps record ids unique and one record per employee and day |
| AttendanceStore.CreateManualRecord | src/lib/stores/attendanceStore.ts:341-400 | always appends one overridden correction record carrying the given employee, name, date, times and notes and the fresh id and timestamps; absent unless a status is given or both times are, with values computed only from both times |
| AttendanceStore.ManualRecordIsConsistent | src/lib/stores/attendanceStore.ts:357-370 | a manual record with both times and no status agrees with the rules |
| AttendanceStore.ManualRecordCanDuplicateDay | src/lib/stores/attendanceStore.ts:393-397 | a manual record can give an employee a second record on a day they already checked in |
| AttendanceStore.UpdateConfig | src/lib/stores/attendanceStore.ts:409-420 | each configuration field takes the patch's value when given and keeps the old one otherwise; nothing else in the state changes |
| AttendanceStore.UpdateConfigIdempotent | src/lib/stores/attendanceStore.ts:409-420 | applying the same patch twice is the same as applying it once |
| AttendanceStore.UpdateConfigNotRetroactive | src/lib/stores/attendanceStore.ts:409-420 | changing the configuration does not change any stored record |
| AttendanceViews.RecordsOn | src/lib/stores/attendanceStore.ts:513-523 | exactly the records of the date, each as often as it occurs, in list order |
| AttendanceViews.SelectedEmployeeAttendance | src/lib/stores/attendanceStore.ts:528-533 | empty with no selected employee; otherwise exactly that employee's records, newest date first |
| AttendanceViews.SortedHistoryMembers | src/lib/stores/attendanceStore.ts:530-532 | sorting the employee's records keeps every one of them and adds none |
| AttendanceViews.SelectedMonthAttendance | src/lib/stores/attendanceStore.ts:538-543 | empty with no selected employee; otherwise exactly that employee's records whose date starts with the selected month, each as often as it occurs, in list order |
| AttendanceViews.StatusPartition | src/lib/stores/attendanceStore.ts:564-568 | the five status counts add up to the number of records |
| AttendanceViews.NotAbsentCount | src/lib/stores/attendanceStore.ts:576 | the non-absent records are all records but the absent ones |
| AttendanceViews.MeanTimesCount | src/lib/stores/attendanceStore.ts:572-574 | the average times the number of days gives back the total, and a non-negative total has a non-negative average |
| AttendanceViews.PercentOf | src/lib/stores/attendanceStore.ts:575-577 | the attendance percentage lies in 0..100 and is the share of non-absent days |
| AttendanceViews.Summarize | src/lib/stores/attendanceStore.ts:557-578 | the summary's day counts add up to the total, the average and percentage agree with the totals, and the name falls back to "Unknown" |
| AttendanceViews.SummarizeOne | src/lib/stores/attendanceStore.ts:563-571 | a one-record summary counts one day under that record's status and none under the others, and its totals are the record's hours and minutes |
| AttendanceViews.SummarizeAppendCounts | src/lib/stores/attendanceStore.ts:557-568 | one more record adds one day to the total and to its own status's count only, and keeps the name of the first record |
| AttendanceViews.SummarizeAppendTotals | src/lib/stores/attendanceStore.ts:569-571 | one more record adds its working hours, late minutes and early-leave minutes to the three totals |
| AttendanceViews.ShapeRatios | src/lib/stores/attendanceStore.ts:572-577 | any summary of that shape has the average times days equal to the total and a percentage in 0..100 |
| AttendanceViews.SummaryRatios | src/lib/stores/attendanceStore.ts:572-577 | every computed summary satisfies those ratios |
| AttendanceViews.Summary | src/lib/stores/attendanceStore.ts:548-579 | absent exactly with no selected employee or no record in the month; otherwise it is the summary of exactly the selected employee's records of the selected month |
| AttendanceViews.SummaryTotalsNonNegative | src/lib/stores/attendanceStore.ts:569-571 | with non-negative record figures, the totals and the average are non-negative |
| AttendanceViews.TodayStats | src/lib/stores/attendanceStore.ts:584-595 | the total is the number of today's records, the status counts add up to it, and checked-in plus checked-out is the number of records with a check-in |
| AttendanceViews.TodayStatsAppend | src/lib/stores/attendanceStore.ts:584-595 | no records give all zeros; a new record of another date changes nothing, and one of today adds one to the total, to its own status and to still-checked-in (check-in, no check-out) or checked-out (both) as its times say |
| AttendanceViews.CheckInSplit | src/lib/stores/attendanceStore.ts:592-593 | records with a check-in are split into those still in and those done |
| AttendanceViews.ParseMonth | src/lib/stores/attendanceStore.ts:601 | a parsed month has a non-negative year and month |
| AttendanceViews.ParseMonthRoundTrip | src/lib/types/attendance.ts:290-292 | parsing a month string written by `getMonthString` gives back its year and month |
| AttendanceViews.MonthGrid | src/lib/stores/attendanceStore.ts:600-670 | the page has 42 cells |
| AttendanceViews.CalendarDays | src/lib/stores/attendanceStore.ts:600-670 | a page exists exactly when the selected month parses, and it has 42 cells |
| AttendanceViews.CalendarOfMonthString | src/lib/stores/attendanceStore.ts:600-603 | a month written by `getMonthString` is shown as that month's page |
| AttendanceViews.CalendarLayout | src/lib/stores/attendanceStore.ts:611-667 | each cell carries its grid date as text; the leading cells are the last days of the previous month, numbered up to its length, then day 1, 2, … of the month, then day 1, 2, … of the next; only current-month cells can be today |
| AttendanceViews.CalendarWeekends | src/lib/stores/attendanceStore.ts:617-624 | a cell is a weekend exactly in the Sunday and Saturday columns |
| AttendanceViews.CalendarAttendance | src/lib/stores/attendanceStore.ts:625-627 | a cell shows a record only for a selected employee, and then exactly the record that lookup finds for that employee on the cell's date |
| AttendanceViews.CalendarTodayCount | src/lib/stores/attendanceStore.ts:636 | exactly one cell is today when today falls in the shown month, and none otherwise |
| Calendar.DaysInMonth | src/lib/stores/attendanceStore.ts:603 | a month has 28 to 31 days |
| Calendar.DaysBeforeMonthAccumulates | src/lib/stores/attendanceStore.ts:603 | the months of a year tile it: each starts where the last ended, and the twelve fill the year |
| Calendar.DaysBeforeYearStep | src/lib/stores/attendanceStore.ts:602 | consecutive years are one year length apart in the day count |
| Calendar.DayOfWeek | src/lib/stores/attendanceStore.ts:609 | a weekday is 0 (Sunday) to 6 |
| Calendar.DayOfWeekExamples | src/lib/stores/attendanceStore.ts:609 | 1 January 1970 was a Thursday and 15 January 2024 a Monday |
| Calendar.NextDayNumber | src/lib/stores/attendanceStore.ts:632-633 | the next calendar day is a valid date one day later |
| Calendar.PrevMonth | src/lib/stores/attendanceStore.ts:612-615 | the month before is a month 1..12 |
| Calendar.NextMonth | src/lib/stores/attendanceStore.ts:652-653 | the month after is a month 1..12 |
| Calendar.MonthBoundaries | src/lib/stores/attendanceStore.ts:612-653 | the first of a month directly follows the last day of the previous month, and the next month's first follows its last |
| Calendar.LeadingDays | src/lib/stores/attendanceStore.ts:609-613 | 0 to 6 cells of the previous month precede the first |
| Calendar.GridDates | src/lib/stores/attendanceStore.ts:611-667 | 42 consecutive dates with the month's first day after the leading cells |
| Calendar.GridSegments | src/lib/stores/attendanceStore.ts:611-667 | the page's dates are the last days of the previous month, the whole month, then the first days of the next month |
| Calendar.GridWeekdays | src/lib/stores/attendanceStore.ts:609-624 | the date in cell i falls on weekday i mod 7 |
| EmployeesStore.Filtered | src/lib/stores/employeesStore.ts:112-147 | exactly the employees that pass every active filter, in list order |
| EmployeesStore.FilteredIsOneFilter | src/lib/stores/employeesStore.ts:115-145 | the four staged filters select the same list as one combined test |
| EmployeesStore.DeletedHidden | src/lib/stores/employeesStore.ts:118-120 | without show-deleted, no deleted employee is listed |
| EmployeesStore.Slice | src/lib/stores/employeesStore.ts:157 | `slice` within bounds is the sub-sequence, and never longer than the range |
| EmployeesStore.SliceIndex | src/lib/stores/employeesStore.ts:157 | `slice` clamps an index to the list |
| EmployeesStore.SliceLength | src/lib/stores/employeesStore.ts:157 | a slice is never longer than its range |
| EmployeesStore.SliceAt | src/lib/stores/employeesStore.ts:157 | an element inside both the range and the list is in the slice at its offset |
| EmployeesStore.SliceNonEmpty | src/lib/stores/employeesStore.ts:157 | a slice that starts inside the list is not empty |
| EmployeesStore.Page | src/lib/stores/employeesStore.ts:152-159 | a page holds at most page-size employees; from page 1 on it is exactly the positions from (page - 1) * size up to page * size that the list has |
| EmployeesStore.PageStart | src/lib/stores/employeesStore.ts:155 | from page 1 on the first position of a page is non-negative and one page-size short of page * size |
| EmployeesStore.SliceFrom | src/lib/stores/employeesStore.ts:157 | slicing from a non-negative start takes the part of the window that the list has |
| EmployeesStore.PageCount | src/lib/stores/employeesStore.ts:581 | the page count is the least number of pages that holds all items |
| EmployeesStore.PageCountPositive | src/lib/stores/employeesStore.ts:581 | a non-empty list has at least one page |
| EmployeesStore.PagesCover | src/lib/stores/employeesStore.ts:152-159 | every filtered employee appears on the page numbered by its index |
| EmployeesStore.PageInRangeNotEmpty | src/lib/stores/employeesStore.ts:152-159 | a page number within the page count shows at least one employee |
| EmployeesStore.UpdatePagination | src/lib/stores/employeesStore.ts:576-590 | the item and page counts are those of the filtered list, and the current page only moves down, to the last page |
| EmployeesStore.UpdatePaginationIdempotent | src/lib/stores/employeesStore.ts:576-590 | recomputing the pagination twice changes nothing more |
| EmployeesStore.UpdatePaginationShowsItems | src/lib/stores/employeesStore.ts:576-590 | with a non-empty filtered list, the current page after recomputation is non-empty |
| EmployeesStore.SetPage | src/lib/stores/employeesStore.ts:598-603 | only the page changes; an in-range page is taken as is, one past the end gives the last page (or 1 when there are no pages), one below 1 gives 1 |
| EmployeesStore.PrevPage | src/lib/stores/employeesStore.ts:621-626 | only the page changes; it moves one page back from above page 1 and is 1 otherwise |
| EmployeesStore.NextPage | src/lib/stores/employeesStore.ts:614-619 | only the page changes; it moves one page on before the last page and is the page count otherwise, never more |
| EmployeesStore.NextPageLeavesRange | src/lib/stores/employeesStore.ts:614-619 | on an empty list, next page goes to page 0; once an employee is added and the pages are recounted, the list has one employee but the page shown is empty |
| EmployeesStore.NextPageClamped | src/lib/stores/employeesStore.ts:614-619 | the corrected next page always stays in 1..max(totalPages, 1) |
| EmployeesStore.NextPageClampedAgrees | src/lib/stores/employeesStore.ts:614-619 | the corrected next page equals the original whenever there is at least one page |
| EmployeesStore.WithFilters | src/lib/stores/employeesStore.ts:540-590 | the new filters are stored, the page goes back to 1 and the pagination is recounted for them: the items the new filters list, the least page count that holds them, the page size kept |
| EmployeesStore.SetSearchQuery | src/lib/stores/employeesStore.ts:540-544 | only the search query changes among the filters, the employees stay, and the view goes back to page 1 with the pagination recounted |
| EmployeesStore.SetDepartment | src/lib/stores/employeesStore.ts:546-550 | only the department filter changes among the filters, the employees stay, and the view goes back to page 1 with the pagination recounted |
| EmployeesStore.SetStatus | src/lib/stores/employeesStore.ts:552-556 | only the status filter changes among the filters, the employees stay, and the view goes back to page 1 with the pagination recounted |
| EmployeesStore.ToggleShowDeleted | src/lib/stores/employeesStore.ts:558-562 | only show-deleted flips among the filters, the employees stay, and the view goes back to page 1 with the pagination recounted |
| EmployeesStore.ToggleTwice | src/lib/stores/employeesStore.ts:558-562 | toggling twice restores the filters |
| EmployeesStore.ResetFilters | src/lib/stores/employeesStore.ts:564-568 | the initial filters are back, the employees stay, and the view goes back to page 1 with the pagination recounted |
| EmployeesStore.ResetListsAllLive | src/lib/stores/employeesStore.ts:564-568 | after a reset, exactly the non-deleted employees are listed |
| EmployeesStore.SoftDelete | src/lib/stores/employeesStore.ts:294-320 | succeeds exactly for a known id; marks that employee deleted, leaves the others alone and recomputes the pagination |
| EmployeesStore.Restore | src/lib/stores/employeesStore.ts:325-351 | succeeds exactly for a known id; clears the deleted mark and recomputes the pagination |
| EmployeesStore.SoftDeleteThenRestore | src/lib/stores/employeesStore.ts:294-351 | deleting and then restoring a live employee gives back the same list, apart from the update time |
| EmployeesStore.SoftDeletedNotListed | src/lib/stores/employeesStore.ts:305-310 | a soft-deleted employee disappears from the list while show-deleted is off |
| EmployeesStore.PermanentDelete | src/lib/stores/employeesStore.ts:356-369 | removes every employee with the id and keeps every other one, as often as it occurs and in order, then recounts the pagination |
| EmployeesStore.PermanentDeleteAbsent | src/lib/stores/employeesStore.ts:361 | deleting an unknown id leaves the list as it was |
| EmployeesStore.PermanentDeleteRemovesOne | src/lib/stores/employeesStore.ts:361 | with unique ids, the list becomes one shorter |
| EmployeesStore.AddDocument | src/lib/stores/employeesStore.ts:374-405 | fails, leaving the state alone, exactly for an unknown employee; otherwise appends to that employee only a document with the fresh id, the employee's id, the given name, type, url, size and MIME type, uploaded now |
| EmployeesStore.RemoveDocument | src/lib/stores/employeesStore.ts:410-434 | succeeds exactly for a known employee and removes the document with that id from that employee only |
| EmployeesStore.AddThenRemoveDocument | src/lib/stores/employeesStore.ts:374-434 | adding a document with a fresh id and then removing it gives back the employee's documents |
| EmployeesStore.EmployeeStatusPartition | src/lib/stores/employeesStore.ts:172-177 | every employee has exactly one of the three statuses |
| EmployeesStore.Stats | src/lib/stores/employeesStore.ts:171-180 | total counts the non-deleted employees and deleted the deleted ones; the status counts add up to the total, and total plus deleted is everyone |
| EmployeesStore.StatsAppend | src/lib/stores/employeesStore.ts:171-180 | an empty list has all counts zero; one more employee adds one to deleted if it is deleted, and otherwise to the total and to its own status's count only |
| EmployeesStore.UniqueDepartments | src/lib/stores/employeesStore.ts:185-188 | sorted; each entry is the department of a live employee, and every live employee's department is listed |
| EmployeesStore.UniqueDepartmentsDistinct | src/lib/stores/employeesStore.ts:185-188 | no department is listed twice |
| DepartmentsStore.PositionsOf | src/lib/stores/departmentsStore.ts:337-340 | exactly the positions of the department, each as often as it occurs, in order |
| DepartmentsStore.CreateDepartment | src/lib/stores/departmentsStore.ts:138-159 | appends a department built from the form, with no positions, no employees and no manager name, created and updated now |
| DepartmentsStore.CreateDepartmentKeepsValid | src/lib/stores/departmentsStore.ts:138-159 | with a fresh id, creation keeps ids unique and every department's position list in step |
| DepartmentsStore.MergeDepartment | src/lib/stores/departmentsStore.ts:174-178 | each field present in the patch replaces the old value and each absent one keeps it; the id, positions, employee count, creation time and manager name never change, and the update time is stamped |
| DepartmentsStore.UpdateDepartment | src/lib/stores/departmentsStore.ts:164-188 | fails, leaving the state alone, exactly for an unknown id; otherwise replaces that department by its merged version |
| DepartmentsStore.UpdateDepartmentKeepsValid | src/lib/stores/departmentsStore.ts:164-188 | an update keeps the departments valid |
| DepartmentsStore.DeleteDepartment | src/lib/stores/departmentsStore.ts:193-206 | removes the department and all its positions, and nothing else |
| DepartmentsStore.DeleteDepartmentCascade | src/lib/stores/departmentsStore.ts:197-202 | afterwards no department has the id and no position belongs to it |
| DepartmentsStore.DeleteDepartmentKeepsValid | src/lib/stores/departmentsStore.ts:193-206 | deletion keeps the departments valid |
| DepartmentsStore.Resync | src/lib/stores/departmentsStore.ts:240-247 | refreshes only the named department's copy of its positions |
| DepartmentsStore.CreatePosition | src/lib/stores/departmentsStore.ts:223-256 | as written: appends a position carrying the form's title, level, salary and description, created and updated now, and the refreshed departments only go to storage, when the department exists |
| DepartmentsStore.CreatePositionSynced | src/lib/stores/departmentsStore.ts:236-252 | corrected: the same positions list, with the refreshed departments kept in the state |
| DepartmentsStore.ResyncRestoresSync | src/lib/stores/departmentsStore.ts:240-247 | when only the named department's copy is stale, refreshing it brings every copy in step |
| DepartmentsStore.AppendOtherDepartment | src/lib/stores/departmentsStore.ts:237 | a new position does not change the positions of other departments |
| DepartmentsStore.CreatePositionSyncedKeepsValid | src/lib/stores/departmentsStore.ts:236-252 | the corrected creation keeps the departments valid |
| DepartmentsStore.CreatePositionLeavesStaleCopy | src/lib/stores/departmentsStore.ts:236-252 | as written, creating a position leaves the department's copy without it |
| DepartmentsStore.MergePosition | src/lib/stores/departmentsStore.ts:272-276 | each field present in the patch replaces the old value and each absent one keeps it; the id, department and creation time never change, and the update time is stamped |
| DepartmentsStore.UpdatePosition | src/lib/stores/departmentsStore.ts:261-299 | as written: fails exactly for an unknown id; otherwise replaces the position, with the refreshed departments only persisted |
| DepartmentsStore.UpdatePositionSynced | src/lib/stores/departmentsStore.ts:267-296 | corrected: the same update, with the refreshed departments kept in the state |
| DepartmentsStore.UpdatePositionSyncedKeepsValid | src/lib/stores/departmentsStore.ts:267-296 | the corrected update keeps the departments valid |
| DepartmentsStore.UpdatePositionLeavesStaleCopy | src/lib/stores/departmentsStore.ts:267-296 | as written, renaming a position leaves the old title on the department's copy |
| DepartmentsStore.DeletePosition | src/lib/stores/departmentsStore.ts:304-332 | removes the position and refreshes its department's copy in the state |
| DepartmentsStore.DeletePositionKeepsValid | src/lib/stores/departmentsStore.ts:308-329 | deleting a position keeps the departments valid |
| DepartmentsStore.CopyMatchesLookup | src/lib/stores/departmentsStore.ts:337-340 | in a valid state, a department's own copy is its positions lookup |
| DepartmentsStore.FilteredDepartments | src/lib/stores/departmentsStore.ts:409-430 | exactly the departments passing the status and search filters, in order |
| DepartmentsStore.FilteredIsOneFilter | src/lib/stores/departmentsStore.ts:409-430 | the two staged filters select the same list as one combined test |
| DepartmentsStore.SetSearchQuery | src/lib/stores/departmentsStore.ts:346-348 | only the search query changes |
| DepartmentsStore.SetStatusFilter | src/lib/stores/departmentsStore.ts:350-352 | only the status filter changes |
| DepartmentsStore.ClearFilters | src/lib/stores/departmentsStore.ts:354-356 | the search becomes empty and the status filter "all", nothing else changes, and then every department is listed |
| DepartmentsStore.ViewSettingsKeepStats | src/lib/stores/departmentsStore.ts:346-356 | the view settings never change the statistics, and the filtered list stays a sub-list of the departments |
| DepartmentsStore.Stats | src/lib/stores/departmentsStore.ts:442-453 | active and inactive count the departments of each status and add up to the total; the position total is the size of the positions list; the employee and budget totals are sums over the departments |
| DepartmentsStore.StatsAppend | src/lib/stores/departmentsStore.ts:442-453 | no departments give zero totals; one more department adds one to the total and to its own status's count, its head count to the employees and its budget, or nothing without one, to the budget |
| DepartmentsStore.BudgetOfNewDepartment | src/lib/stores/departmentsStore.ts:442-453 | a new department adds its budget, or nothing without one, to the total budget |
| Auth.MockUser | src/lib/stores/auth.ts:34-57 | exactly the two known e-mail addresses have an account, each under its own address |
| Auth.Login | src/lib/stores/auth.ts:106-137 | succeeds exactly for a known address, in any letter case, with its password; success signs in exactly that account's user and clears the error; failure keeps the session and sets the error message |
| Auth.Logout | src/lib/stores/auth.ts:142-152 | signs out: no user, not authenticated, no error |
| Auth.ClearError | src/lib/stores/auth.ts:157-159 | removes the error and nothing else |
| Auth.ActionsKeepSessionConsistent | src/lib/stores/auth.ts:106-159 | every action keeps "authenticated exactly when a user is present" |
| Auth.LoginIgnoresEmailCase | src/lib/stores/auth.ts:112 | addresses differing only in letter case log in alike |
| Auth.LoginReplacesSession | src/lib/stores/auth.ts:114-128 | a successful login does not depend on the previous session, and repeating it changes nothing |
| Auth.LogoutUndoesLogin | src/lib/stores/auth.ts:142-152 | logging out after any login gives the signed-out state |
| Auth.ClearErrorAfterFailure | src/lib/stores/auth.ts:129-135 | clearing the error after a failed login restores the previous session |
| Auth.AdminLogin | src/lib/stores/auth.ts:34-57 | the admin logs in with the address in any case, but the password must match exactly |
| LegacyEmployees.Filtered | src/lib/stores/employees.ts:123-149 | exactly the employees passing the search, department and status filters, in order |
| LegacyEmployees.FilteredIsOneFilter | src/lib/stores/employees.ts:123-149 | the staged filters select the same list as one combined test |
| LegacyEmployees.SetSearchQuery | src/lib/stores/employees.ts:56-61 | only the search query changes |
| LegacyEmployees.SetDepartmentFilter | src/lib/stores/employees.ts:67-72 | only the department filter changes |
| LegacyEmployees.SetStatusFilter | src/lib/stores/employees.ts:78-83 | only the status filter changes |
| LegacyEmployees.ResetFilters | src/lib/stores/employees.ts:88-93 | the filters are back to their initial values, the employees are untouched, and every employee is listed |
| LegacyEmployees.SettersCommute | src/lib/stores/employees.ts:56-83 | the three setters can be applied in any order |
| LegacyEmployees.DepartmentFilterNarrows | src/lib/stores/employees.ts:139-141 | choosing a department lists exactly that department's share of the list shown for all departments |
| LegacyEmployees.StatusPartition | src/lib/stores/employees.ts:154-163 | every employee has exactly one of the three statuses |
| LegacyEmployees.Stats | src/lib/stores/employees.ts:154-163 | each status count is the number of employees with that status, and together they add up to the number of employees |
| LegacyEmployees.StatsAppend | src/lib/stores/employees.ts:154-163 | no employees give zero counts; one more employee adds one to the total and to its own status's count only |
| LegacyEmployees.UniqueDepartments | src/lib/stores/employees.ts:168-170 | sorted; exactly the departments that occur |
| LegacyEmployees.UniqueDepartmentsDistinct | src/lib/stores/employees.ts:168-170 | no department is listed twice |
| LegacyDepartments.Filtered | src/lib/stores/departments.ts:86-98 | a blank query lists everything; otherwise exactly the departments matching the query, in order |
| LegacyDepartments.SetSearchQuery | src/lib/stores/departments.ts:43-48 | only the search query changes |
| LegacyDepartments.ClearSearch | src/lib/stores/departments.ts:53-58 | after clearing, every department is listed |
| LegacyDepartments.WhitespaceQueryShowsAll | src/lib/stores/departments.ts:86-98 | a query of whitespace lists the same as no query |
| LegacyDepartments.Stats | src/lib/stores/departments.ts:103-111 | the total is the number of departments, and the employee and budget totals are sums over them |
| LegacyDepartments.StatsNonNegative | src/lib/stores/departments.ts:103-111 | non-negative budgets and head counts give non-negative totals |
| LegacyDepartments.StatsOfAppend | src/lib/stores/departments.ts:103-111 | no departments give zero statistics; adding a department adds one to the total and its figures to the sums |
| LegacyDepartments.StatsIgnoreSearch | src/lib/stores/departments.ts:103-111 | the statistics do not depend on the search query |

## Left out

- **Environment.** The network delays (`simulateDelay`), `isLoading` flags, `localStorage`
  persistence and its parse errors, and the seeding of mock data are not modelled.
  The stores' writes to storage appear only as the `persisted` part of the position results.
- **Clock and ids.** The clock and id generators are parameters.
- **Time zones and `toISOString` day shifts.** Dates are UTC. `getDateString` of an instant
  is not modelled as a function; the caller passes `today`.
- **Check-in times written as `HH:mm` text.** The configuration holds minutes, and parsing the
  text is not modelled. `minWorkingHours` is a whole number of hours; fractional hours are
  not modelled.
- **JavaScript `Number` leniency in the selected month.** Signs, spaces and exponents in the
  month text are not modelled, and neither is the roll-over of months outside 1..12 in
  `new Date`. A month that does not parse, or lies outside 1..12, gives no page.
- AttendanceViews.MonthGrid: years outside 100..9998 are not modelled, because JavaScript
  maps two-digit years to 19xx.
- AttendanceViews.ParseMonth: the contract states only that a parsed year and month are
  non-negative. Its partner `ParseMonthRoundTrip` carries the round trip.
- AttendanceRules.FormatDuration: the contract covers non-negative minutes only. Negative
  input renders with JavaScript's truncating remainder, and no property is stated for it.
- **Patch fields.** A patch field that is present but `undefined` overwrites the old value
  in JavaScript. Here an absent patch field always keeps the old value.
- **Sort order.** `localeCompare` and the default `sort()` are modelled as code-unit order.
- **Case mapping.** Only ASCII letters are case-folded by `toLowerCase`; the Unicode case
  mapping is not modelled.
- EmployeesStore.Page: page size 0 is excluded by the page-size type, and `setPageSize` is
  not modelled. Below page 1 the contract states only the size bound; the body follows
  `slice`'s counting from the end for negative positions.
- **Employee operations not modelled.** Employee creation, update, bulk import, profile
  picture upload, lookup by id, refresh and reset of the employees store.
- **Departments operations not modelled.** `setSelectedDepartment`, `selectedDepartment`,
  `activeDepartments`, the name lookups and the legacy CRUD helpers.
- **Session restore.** `checkSession` and its storage restore in the authentication store are
  not modelled.
- **Attendance selection setters.** The setters for the selected date, employee and month are
  plain field assignments and are not modelled. The views take the selection as state.
- **Numbers.** JavaScript `number` fields (budgets, salaries, head counts, file sizes, working
  hours and minutes) are unbounded integers. Fractions, `NaN`, infinities and double rounding
  are not modelled.
- EmployeesStore.SetPage: the requested page is an integer. A fractional or `NaN` page, which
  `Math.min` and `Math.max` would pass through, is not modelled.
- AttendanceViews.Summarize: the average and the attendance percentage are exact rationals,
  not IEEE doubles, so their rounding is not modelled.
- AttendanceViews.MeanTimesCount: holds for exact rationals; with doubles it holds only up to
  rounding.
- AttendanceViews.PercentOf: holds for exact rationals; with doubles it holds only up to
  rounding.
- Auth.MockUser: only the two listed accounts are looked up. A key inherited from the
  JavaScript object prototype is not modelled.

## Findings

| source | as written | input that shows it | evidently intended | confidence | as-written member | corrected member |
|---|---|---|---|---|---|---|
| src/lib/stores/departmentsStore.ts:236-252 | `createPosition` computes the department with its refreshed positions list and saves it to storage, but returns a state with the old departments list | department `d1` with no positions; create position `p1` in it | the state's department copy lists `p1`, as the stored copy does | high, not executed | DepartmentsStore.CreatePositionLeavesStaleCopy | DepartmentsStore.CreatePositionSyncedKeepsValid |
| src/lib/stores/departmentsStore.ts:267-296 | `updatePosition` refreshes the department's copy only in storage, and the returned state keeps the old copy | position `p1` "Clerk" in `d1`; rename it to "Senior Clerk" | the state's department copy carries the new title | high, not executed | DepartmentsStore.UpdatePositionLeavesStaleCopy | DepartmentsStore.UpdatePositionSyncedKeepsValid |
| src/lib/stores/employeesStore.ts:614-619 | `nextPage` clamps with `Math.min(currentPage + 1, totalPages)`, which gives page 0 when there are no pages | empty list, page 1 of 0 pages; next page, then add an employee | the page stays at 1 and the new employee is shown | medium, not executed | EmployeesStore.NextPageLeavesRange | EmployeesStore.NextPageClampedAgrees |

=== FILE: attendance_rules.dfy ===
/** The attendance rules engine of `src/lib/types/attendance.ts`: working, late and early-leave
    minutes computed from check-in / check-out instants, the status classifier, and the
    duration and month formats. Instants are integer milliseconds since the Unix epoch, read in UTC. */
module AttendanceRules {
  import opened Wrappers
  import opened Text

  /** Milliseconds since 1970-01-01T00:00:00Z. */
  type Instant = int

  const MsPerMinute: int := 60_000
  const MsPerDay: int := 86_400_000

  datatype Status = Present | Late | Absent | EarlyLeave | HalfDay

  datatype OverrideReason = Correction | Emergency | ApprovedLeave | SystemError | Other

  /** Work schedule settings. `workStart` and `workEnd` are the "HH:mm" settings as minutes after midnight. */
  datatype Config = Config(
    workStart: int,
    workEnd: int,
    lateThreshold: int,
    earlyLeaveThreshold: int,
    minWorkingHours: int,
    breakMinutes: int)

  /** 09:00 to 17:00, 15 minutes grace, 30 minutes early-leave threshold, 4 hours minimum, 60 minutes break. */
  const DefaultConfig: Config := Config(9 * 60, 17 * 60, 15, 30, 4, 60)

  /** Midnight (UTC) of the day containing `t`. */
  function DayStart(t: Instant): Instant {
    t - t % MsPerDay
  }

  // ---------------------------------------------------------------------------
  // Time arithmetic
  // ---------------------------------------------------------------------------

  /** Worked minutes between check-in and check-out, minus the break, never negative;
      0 while either instant is missing. Minutes are whole, rounded down. */
  function WorkingMinutes(checkIn: Option<Instant>, checkOut: Option<Instant>, breakMinutes: int): (r: int)
    ensures r >= 0
    ensures checkIn.None? || checkOut.None? ==> r == 0
    ensures checkIn.Some? && checkOut.Some? && r > 0 ==>
              (r + breakMinutes) * MsPerMinute <= checkOut.value - checkIn.value < (r + breakMinutes + 1) * MsPerMinute
    ensures checkIn.Some? && checkOut.Some? && r == 0 ==>
              checkOut.value - checkIn.value < (breakMinutes + 1) * MsPerMinute
  {
    if checkIn.None? || checkOut.None? then 0
    else
      var diffMinutes := (checkOut.value - checkIn.value) / MsPerMinute;
      if diffMinutes - breakMinutes > 0 then diffMinutes - breakMinutes else 0
  }

  /** The instant after which a check-in counts as late: the day's start time plus the grace period. */
  function LateBoundary(checkIn: Instant, config: Config): Instant {
    DayStart(checkIn) + (config.workStart + config.lateThreshold) * MsPerMinute
  }

  /** Whole minutes by which `checkIn` passes the late boundary; 0 if it is less than a minute past it. */
  function LateMinutes(checkIn: Instant, config: Config): (r: int)
    ensures r >= 0
    ensures r == 0 <==> checkIn < LateBoundary(checkIn, config) + MsPerMinute
    ensures r > 0 ==> LateBoundary(checkIn, config) + r * MsPerMinute <= checkIn
                      < LateBoundary(checkIn, config) + (r + 1) * MsPerMinute
  {
    var boundary := LateBoundary(checkIn, config);
    if checkIn > boundary then (checkIn - boundary) / MsPerMinute else 0
  }

  /** The instant before which a check-out counts as early: the day's end time minus the threshold. */
  function EarlyBoundary(checkOut: Instant, config: Config): Instant {
    DayStart(checkOut) + (config.workEnd - config.earlyLeaveThreshold) * MsPerMinute
  }

  /** Whole minutes by which `checkOut` precedes the early-leave boundary; 0 if less than a minute before it. */
  function EarlyLeaveMinutes(checkOut: Instant, config: Config): (r: int)
    ensures r >= 0
    ensures r == 0 <==> checkOut > EarlyBoundary(checkOut, config) - MsPerMinute
    ensures r > 0 ==> EarlyBoundary(checkOut, config) - (r + 1) * MsPerMinute < checkOut
                      <= EarlyBoundary(checkOut, config) - r * MsPerMinute
  {
    var boundary := EarlyBoundary(checkOut, config);
    if checkOut < boundary then (boundary - checkOut) / MsPerMinute else 0
  }

  /** Within one day, a later check-in is never less late. */
  lemma LateMinutesMonotone(a: Instant, b: Instant, config: Config)
    requires a <= b && DayStart(a) == DayStart(b)
    ensures LateMinutes(a, config) <= LateMinutes(b, config)
  {
  }

  /** Within one day, a later check-out never leaves earlier. */
  lemma EarlyLeaveMinutesMonotone(a: Instant, b: Instant, config: Config)
    requires a <= b && DayStart(a) == DayStart(b)
    ensures EarlyLeaveMinutes(b, config) <= EarlyLeaveMinutes(a, config)
  {
  }

  /** A later check-out never yields fewer working minutes. */
  lemma WorkingMinutesMonotone(checkIn: Instant, a: Instant, b: Instant, breakMinutes: int)
    requires a <= b
    ensures WorkingMinutes(Some(checkIn), Some(a), breakMinutes) <= WorkingMinutes(Some(checkIn), Some(b), breakMinutes)
  {
  }

  // ---------------------------------------------------------------------------
  // Status classifier
  // ---------------------------------------------------------------------------

  /** Minimum working time, in minutes, below which a day counts as a half day. */
  function MinWorkingMinutes(config: Config): int {
    config.minWorkingHours * 60
  }

  /** The status of a day from its check-in and check-out: absent with neither, half-day with only
      one; with both, half-day when too short, else early-leave, else late, else present. */
  function Classify(checkIn: Option<Instant>, checkOut: Option<Instant>, config: Config): (r: Status)
    ensures r == Absent <==> checkIn.None? && checkOut.None?
    ensures checkIn.None? != checkOut.None? ==> r == HalfDay
    ensures checkIn.Some? && checkOut.Some? ==>
              var worked := WorkingMinutes(checkIn, checkOut, config.breakMinutes);
              var early := EarlyLeaveMinutes(checkOut.value, config);
              var late := LateMinutes(checkIn.value, config);
              && (r == HalfDay <==> worked < MinWorkingMinutes(config))
              && (r == EarlyLeave <==> worked >= MinWorkingMinutes(config) && early > 0)
              && (r == Late <==> worked >= MinWorkingMinutes(config) && early == 0 && late > 0)
              && (r == Present <==> worked >= MinWorkingMinutes(config) && early == 0 && late == 0)
  {
    if checkIn.None? && checkOut.None? then Absent
    else if checkIn.None? || checkOut.None? then HalfDay
    else if WorkingMinutes(checkIn, checkOut, config.breakMinutes) < MinWorkingMinutes(config) then HalfDay
    else if EarlyLeaveMinutes(checkOut.value, config) > 0 then EarlyLeave
    else if LateMinutes(checkIn.value, config) > 0 then Late
    else Present
  }

  /** Present is awarded only to a full, punctual day. */
  lemma PresentMeansClean(checkIn: Option<Instant>, checkOut: Option<Instant>, config: Config)
    requires Classify(checkIn, checkOut, config) == Present
    ensures checkIn.Some? && checkOut.Some?
    ensures LateMinutes(checkIn.value, config) == 0 && EarlyLeaveMinutes(checkOut.value, config) == 0
    ensures WorkingMinutes(checkIn, checkOut, config.breakMinutes) >= MinWorkingMinutes(config)
  {
  }

  /** 2024-01-15T00:00:00Z. */
  const SampleDay: Instant := 1_705_276_800_000

  function At(hours: int, minutes: int): Instant {
    SampleDay + (hours * 60 + minutes) * MsPerMinute
  }

  /** With the default schedule: 09:14 is within the grace period, 09:16 is one minute late,
      09:20 is five minutes late. */
  lemma LateMinutesExamples()
    ensures LateMinutes(At(9, 14), DefaultConfig) == 0
    ensures LateMinutes(At(9, 16), DefaultConfig) == 1
    ensures LateMinutes(At(9, 20), DefaultConfig) == 5
  {
  }

  /** With the default schedule: 09:00 to 17:00 is 420 worked minutes and present; 09:20 to 17:00
      is late; a check-out alone is a half day with no worked minutes. */
  lemma ClassifyExamples()
    ensures WorkingMinutes(Some(At(9, 0)), Some(At(17, 0)), DefaultConfig.breakMinutes) == 420
    ensures EarlyLeaveMinutes(At(17, 0), DefaultConfig) == 0
    ensures Classify(Some(At(9, 0)), Some(At(17, 0)), DefaultConfig) == Present
    ensures Classify(Some(At(9, 20)), Some(At(17, 0)), DefaultConfig) == Late
    ensures Classify(None, Some(At(17, 0)), DefaultConfig) == HalfDay
    ensures WorkingMinutes(None, Some(At(17, 0)), DefaultConfig.breakMinutes) == 0
  {
  }

  /** A 09:30 to 12:00 day is both early and late, yet too short, so it is a half day. */
  lemma HalfDayOutranksEarlyAndLate()
    ensures LateMinutes(At(9, 30), DefaultConfig) > 0
    ensures EarlyLeaveMinutes(At(12, 0), DefaultConfig) > 0
    ensures Classify(Some(At(9, 30)), Some(At(12, 0)), DefaultConfig) == HalfDay
  {
  }

  // ---------------------------------------------------------------------------
  // Duration format
  // ---------------------------------------------------------------------------

  /** JavaScript's `%`, whose remainder takes the sign of the dividend. */
  function JsRem(a: int, b: int): int
    requires b > 0
  {
    if a >= 0 then a % b else -((-a) % b)
  }

  /** `formatDuration`: "0m", "Ym", "Xh" or "Xh Ym" for X hours and Y minutes. */
  function FormatDuration(minutes: int): (r: string)
    ensures minutes == 0 ==> r == "0m"
    ensures 0 < minutes < 60 ==> r == NatToString(minutes) + "m"
    ensures minutes >= 60 && minutes % 60 == 0 ==> r == NatToString(minutes / 60) + "h"
    ensures minutes >= 60 && minutes % 60 != 0 ==>
              r == NatToString(minutes / 60) + "h " + NatToString(minutes % 60) + "m"
  {
    if minutes == 0 then "0m"
    else
      var hours := minutes / 60;
      var mins := JsRem(minutes, 60);
      if hours == 0 then IntToString(mins) + "m"
      else if mins == 0 then IntToString(hours) + "h"
      else IntToString(hours) + "h " + IntToString(mins) + "m"
  }

  /** A non-empty decimal numeral's value. */
  function ParseNumeral(s: string): Option<nat> {
    if |s| > 0 && AllDigits(s) then Some(ParseDigits(s)) else None
  }

  /** Reads back a duration in the format `FormatDuration` writes for non-negative minutes. */
  function ParseDuration(s: string): Option<nat>
  {
    if |s| == 0 then None
    else if s[|s| - 1] == 'h' then
      match ParseNumeral(s[..|s| - 1])
      case None => None
      case Some(h) => Some(60 * h)
    else if s[|s| - 1] == 'm' then ParseMinutesText(s[..|s| - 1])
    else None
  }

  /** The text before a final "m": "Y" or "Xh Y". */
  function ParseMinutesText(body: string): Option<nat>
  {
    match IndexOf(body, 'h')
    case None => ParseNumeral(body)
    case Some(i) => ParseHoursThenMinutes(body[..i], body[i + 1..])
  }

  /** "X" and " Y" on either side of the "h" of "Xh Ym". */
  function ParseHoursThenMinutes(hours: string, rest: string): Option<nat>
  {
    if |rest| == 0 || rest[0] != ' ' then None
    else
      match (ParseNumeral(hours), ParseNumeral(rest[1..]))
      case (Some(h), Some(m)) => Some(60 * h + m)
      case _ => None
  }

  lemma ParseMinutesOnly(d: string)
    requires |d| > 0 && AllDigits(d)
    ensures ParseDuration(d + "m") == Some(ParseDigits(d))
  {
    var s := d + "m";
    assert s[..|s| - 1] == d;
    assert IndexOf(d, 'h') == None;
  }

  lemma ParseHoursOnly(d: string)
    requires |d| > 0 && AllDigits(d)
    ensures ParseDuration(d + "h") == Some(60 * ParseDigits(d))
  {
    var s := d + "h";
    assert s[..|s| - 1] == d;
  }

  lemma ParseHoursThenMinutesDigits(a: string, b: string)
    requires |a| > 0 && AllDigits(a) && |b| > 0 && AllDigits(b)
    ensures ParseHoursThenMinutes(a, " " + b) == Some(60 * ParseDigits(a) + ParseDigits(b))
  {
    assert (" " + b)[1..] == b;
  }

  lemma ParseHoursAndMinutesBody(a: string, b: string)
    requires |a| > 0 && AllDigits(a) && |b| > 0 && AllDigits(b)
    ensures ParseMinutesText(a + ['h'] + (" " + b)) == Some(60 * ParseDigits(a) + ParseDigits(b))
  {
    var rest := " " + b;
    var body := a + ['h'] + rest;
    IndexAfterDigits(a, 'h', rest);
    assert body[..|a|] == a && body[|a| + 1..] == rest;
    ParseHoursThenMinutesDigits(a, b);
  }

  lemma ParseHoursAndMinutes(a: string, b: string)
    requires |a| > 0 && AllDigits(a) && |b| > 0 && AllDigits(b)
    ensures ParseDuration(a + "h " + b + "m") == Some(60 * ParseDigits(a) + ParseDigits(b))
  {
    var s := a + "h " + b + "m";
    var body := a + ['h'] + (" " + b);
    assert s == body + "m";
    assert s[..|s| - 1] == body;
    assert s[|s| - 1] == 'm';
    ParseHoursAndMinutesBody(a, b);
  }

  /** Every non-negative duration is rendered unambiguously: parsing its text gives it back. */
  lemma FormatDurationRoundTrip(minutes: nat)
    ensures ParseDuration(FormatDuration(minutes)) == Some(minutes)
  {
    var h := minutes / 60;
    var m := minutes % 60;
    var s := FormatDuration(minutes);
    if minutes == 0 {
      NatToStringRoundTrip(0);
      assert s == NatToString(0) + "m";
      ParseMinutesOnly(NatToString(0));
    } else if minutes < 60 {
      NatToStringRoundTrip(minutes);
      assert s == NatToString(minutes) + "m";
      ParseMinutesOnly(NatToString(minutes));
    } else if m == 0 {
      NatToStringRoundTrip(h);
      assert s == NatToString(h) + "h";
      ParseHoursOnly(NatToString(h));
    } else {
      NatToStringRoundTrip(h);
      NatToStringRoundTrip(m);
      assert s == NatToString(h) + "h " + NatToString(m) + "m";
      ParseHoursAndMinutes(NatToString(h), NatToString(m));
    }
  }

  // ---------------------------------------------------------------------------
  // Month key
  // ---------------------------------------------------------------------------

  /** `getMonthString`: "YYYY-MM" from a date's calendar year and month (1-based),
      the month zero-padded to two digits and the year written as is. */
  function MonthString(year: int, month: nat): string {
    IntToString(year) + "-" + ZeroPad(month, 2)
  }
}

=== FILE: attendance_store.dfy ===
/** The attendance store of `src/lib/stores/attendanceStore.ts`: the record lifecycle (check-in,
    check-out, override, manual entry), configuration updates, lookups and the derived views
    (per-employee history, monthly summary, today's statistics, calendar grid). Each action is a
    pure transition; the clock (`now`, `today`) and fresh record ids are parameters. */
module AttendanceStore {
  import opened Wrappers
  import opened Text
  import opened Seqs
  import opened Order
  import opened AttendanceRules
  import Calendar

  datatype AttendanceRecord = AttendanceRecord(
    id: string,
    employeeId: string,
    employeeName: Option<string>,
    date: string,                 // "YYYY-MM-DD"
    checkIn: Option<Instant>,
    checkOut: Option<Instant>,
    status: Status,
    workingHours: int,            // minutes
    lateMinutes: int,
    earlyLeaveMinutes: int,
    notes: Option<string>,
    isOverridden: bool,
    overrideBy: Option<string>,
    overrideReason: Option<OverrideReason>,
    overrideNotes: Option<string>,
    overrideAt: Option<Instant>,
    createdAt: Instant,
    updatedAt: Instant)

  datatype AttendanceState = AttendanceState(
    records: seq<AttendanceRecord>,
    config: Config,
    selectedDate: string,
    selectedEmployeeId: Option<string>,
    selectedMonth: string)

  /** The state after an action, and the record it returns (`None` for the source's `null`). */
  datatype Outcome = Outcome(state: AttendanceState, record: Option<AttendanceRecord>)

  /** A JavaScript-truthy optional string: present and non-empty. */
  predicate Truthy(s: Option<string>) {
    s.Some? && s.value != ""
  }

  function OnDay(employeeId: string, date: string): AttendanceRecord -> bool {
    (r: AttendanceRecord) => r.employeeId == employeeId && r.date == date
  }

  function HasId(id: string): AttendanceRecord -> bool {
    (r: AttendanceRecord) => r.id == id
  }

  /** No record carries the id `id`. */
  predicate FreshId(records: seq<AttendanceRecord>, id: string) {
    forall j :: 0 <= j < |records| ==> records[j].id != id
  }

  /** Record ids are unique. */
  ghost predicate UniqueIds(records: seq<AttendanceRecord>) {
    forall i, j :: 0 <= i < j < |records| ==> records[i].id != records[j].id
  }

  /** At most one record per employee and date. */
  ghost predicate OnePerDay(records: seq<AttendanceRecord>) {
    forall i, j :: 0 <= i < j < |records| ==>
      !(records[i].employeeId == records[j].employeeId && records[i].date == records[j].date)
  }

  /** `records.map(r => r.id === rec.id ? rec : r)` turned `before` into `after`. */
  ghost predicate ReplacedById(before: seq<AttendanceRecord>, after: seq<AttendanceRecord>, rec: AttendanceRecord) {
    |after| == |before|
    && forall j :: 0 <= j < |before| ==> after[j] == if before[j].id == rec.id then rec else before[j]
  }

  /** Everything but the record list is unchanged. */
  ghost predicate OnlyRecordsChange(before: AttendanceState, after: AttendanceState) {
    after.(records := before.records) == before
  }

  /** The derived fields of a record are what the rules compute from its times under `config`. */
  ghost predicate Consistent(r: AttendanceRecord, config: Config) {
    && r.workingHours == WorkingMinutes(r.checkIn, r.checkOut, config.breakMinutes)
    && (r.checkIn.Some? ==> r.lateMinutes == LateMinutes(r.checkIn.value, config))
    && (r.checkOut.Some? ==> r.earlyLeaveMinutes == EarlyLeaveMinutes(r.checkOut.value, config))
    && r.status == Classify(r.checkIn, r.checkOut, config)
  }

  // ---------------------------------------------------------------------------
  // Lookups
  // ---------------------------------------------------------------------------

  /** `getRecordByEmployeeAndDate`: the first record of that employee on that date. */
  function RecordOn(s: AttendanceState, employeeId: string, date: string): (r: Option<AttendanceRecord>)
    ensures r.Some? ==> r.value in s.records && r.value.employeeId == employeeId && r.value.date == date
    ensures r.None? ==> forall j :: 0 <= j < |s.records| ==> !(s.records[j].employeeId == employeeId && s.records[j].date == date)
    ensures r.Some? ==>
              exists i :: 0 <= i < |s.records| && s.records[i] == r.value
                && forall j :: 0 <= j < i ==> !(s.records[j].employeeId == employeeId && s.records[j].date == date)
  {
    Find(s.records, OnDay(employeeId, date))
  }

  /** `isCheckedIn`: today's record exists and has a check-in. */
  predicate IsCheckedIn(s: AttendanceState, employeeId: string, today: string) {
    var r := RecordOn(s, employeeId, today);
    r.Some? && r.value.checkIn.Some?
  }

  /** `isCheckedOut`: today's record exists and has a check-out. */
  predicate IsCheckedOut(s: AttendanceState, employeeId: string, today: string) {
    var r := RecordOn(s, employeeId, today);
    r.Some? && r.value.checkOut.Some?
  }

  /** After `records.map(r => r.id === rec.id ? rec : r)` on the first record of a day, with `rec`
      keeping that day, the day's first record is `rec`. */
  lemma FindAfterReplace(records: seq<AttendanceRecord>, e: string, d: string, i: nat, rec: AttendanceRecord)
    requires FindIndex(records, OnDay(e, d)) == Some(i)
    requires rec.id == records[i].id && rec.employeeId == e && rec.date == d
    ensures Find(ReplaceWhere(records, HasId(rec.id), rec), OnDay(e, d)) == Some(rec)
  {
    var after := ReplaceWhere(records, HasId(rec.id), rec);
    assert OnDay(e, d)(after[i]);
  }

  /** With unique ids, replacing by id changes exactly one position. */
  lemma ReplaceByUniqueId(records: seq<AttendanceRecord>, i: nat, rec: AttendanceRecord)
    requires UniqueIds(records) && i < |records| && rec.id == records[i].id
    ensures ReplaceWhere(records, HasId(rec.id), rec) == records[i := rec]
  {
  }

  // ---------------------------------------------------------------------------
  // Check-in / check-out
  // ---------------------------------------------------------------------------

  /** `checkIn`: refuses when today's record already has a check-in; otherwise stamps `now`
      on today's record, creating it if there is none. */
  function CheckIn(s: AttendanceState, employeeId: string, employeeName: string, notes: Option<string>,
                   now: Instant, today: string, freshId: string): (o: Outcome)
    requires FreshId(s.records, freshId)
    ensures o.record.None? <==> IsCheckedIn(s, employeeId, today)
    ensures o.record.None? ==> o.state == s
    ensures OnlyRecordsChange(s, o.state)
    ensures o.record.Some? ==>
              var r := o.record.value;
              && r.employeeId == employeeId && r.date == today
              && r.checkIn == Some(now) && r.updatedAt == now
              && r.lateMinutes == LateMinutes(now, s.config)
              && (r.status == Late <==> r.lateMinutes > 0)
              && (r.status == Present <==> r.lateMinutes == 0)
              && IsCheckedIn(o.state, employeeId, today)
              && RecordOn(o.state, employeeId, today) == Some(r)
    ensures o.record.Some? && RecordOn(s, employeeId, today).None? ==>
              var r := o.record.value;
              && o.state.records == s.records + [r]
              && r.id == freshId && r.employeeName == Some(employeeName) && r.notes == notes
              && r.checkOut.None? && r.workingHours == 0 && r.earlyLeaveMinutes == 0
              && !r.isOverridden && r.createdAt == now
    ensures o.record.Some? && RecordOn(s, employeeId, today).Some? ==>
              var prev := RecordOn(s, employeeId, today).value;
              var r := o.record.value;
              && ReplacedById(s.records, o.state.records, r)
              && r == prev.(checkIn := r.checkIn, status := r.status, lateMinutes := r.lateMinutes,
                           updatedAt := now, notes := r.notes)
              && r.notes == (if Truthy(notes) then notes else prev.notes)
  {
    var late := LateMinutes(now, s.config);
    var status := if late > 0 then Late else Present;
    match FindIndex(s.records, OnDay(employeeId, today))
    case Some(i) =>
      var existing := s.records[i];
      if existing.checkIn.Some? then Outcome(s, None)
      else
        var rec := existing.(checkIn := Some(now), status := status, lateMinutes := late, updatedAt := now,
                             notes := if Truthy(notes) then notes else existing.notes);
        FindAfterReplace(s.records, employeeId, today, i, rec);
        Outcome(s.(records := ReplaceWhere(s.records, HasId(existing.id), rec)), Some(rec))
    case None =>
      var rec := AttendanceRecord(freshId, employeeId, Some(employeeName), today, Some(now), None, status,
                                  0, late, 0, notes, false, None, None, None, None, now, now);
      var records := s.records + [rec];
      assert OnDay(employeeId, today)(records[|s.records|]);
      Outcome(s.(records := records), Some(rec))
  }

  /** `checkOut`: refuses unless today's record exists, has a check-in and has no check-out;
      otherwise stamps `now`, computes worked and early-leave minutes and settles the status:
      early-leave first, then half-day, otherwise the status set at check-in. */
  function CheckOut(s: AttendanceState, employeeId: string, notes: Option<string>, now: Instant, today: string): (o: Outcome)
    ensures o.record.None? <==> !IsCheckedIn(s, employeeId, today) || IsCheckedOut(s, employeeId, today)
    ensures o.record.None? ==> o.state == s
    ensures OnlyRecordsChange(s, o.state)
    ensures o.record.Some? ==>
              var prev := RecordOn(s, employeeId, today).value;
              var r := o.record.value;
              var worked := WorkingMinutes(prev.checkIn, Some(now), s.config.breakMinutes);
              var early := EarlyLeaveMinutes(now, s.config);
              && ReplacedById(s.records, o.state.records, r)
              && r == prev.(checkOut := Some(now), status := r.status, workingHours := worked,
                           earlyLeaveMinutes := early, updatedAt := now, notes := r.notes)
              && (early > 0 ==> r.status == EarlyLeave)
              && (early == 0 && worked < MinWorkingMinutes(s.config) ==> r.status == HalfDay)
              && (early == 0 && worked >= MinWorkingMinutes(s.config) ==> r.status == prev.status)
              && r.notes == (if Truthy(notes) then Some(Trim(prev.notes.GetOr("") + " " + notes.value)) else prev.notes)
              && IsCheckedOut(o.state, employeeId, today)
  {
    match FindIndex(s.records, OnDay(employeeId, today))
    case None => Outcome(s, None)
    case Some(i) =>
      var existing := s.records[i];
      if existing.checkIn.None? || existing.checkOut.Some? then Outcome(s, None)
      else
        var early := EarlyLeaveMinutes(now, s.config);
        var worked := WorkingMinutes(existing.checkIn, Some(now), s.config.breakMinutes);
        var status :=
          if early > 0 then EarlyLeave
          else if worked < MinWorkingMinutes(s.config) then HalfDay
          else existing.status;
        var rec := existing.(checkOut := Some(now), status := status, workingHours := worked,
                             earlyLeaveMinutes := early, updatedAt := now,
                             notes := if Truthy(notes) then Some(Trim(existing.notes.GetOr("") + " " + notes.value))
                                      else existing.notes);
        FindAfterReplace(s.records, employeeId, today, i, rec);
        Outcome(s.(records := ReplaceWhere(s.records, HasId(existing.id), rec)), Some(rec))
  }

  // ---------------------------------------------------------------------------
  // Overrides and manual entries
  // ---------------------------------------------------------------------------

  /** An HR override request; absent times and status keep the record's own. */
  datatype OverrideRequest = OverrideRequest(
    attendanceId: string,
    checkIn: Option<Instant>,
    checkOut: Option<Instant>,
    status: Option<Status>,
    reason: OverrideReason,
    notes: string,
    overrideBy: string)

  /** `overrideAttendance`: refuses an unknown id; otherwise merges the requested times over the
      record's, recomputes the minutes when both times are then present, takes the requested
      status or else reclassifies, and stamps the override metadata. */
  function Override(s: AttendanceState, data: OverrideRequest, now: Instant): (o: Outcome)
    ensures o.record.None? <==> FreshId(s.records, data.attendanceId)
    ensures o.record.None? ==> o.state == s
    ensures OnlyRecordsChange(s, o.state)
    ensures o.record.Some? ==>
              var prev := Find(s.records, HasId(data.attendanceId)).value;
              var r := o.record.value;
              && ReplacedById(s.records, o.state.records, r)
              && r.id == data.attendanceId
              && r.employeeId == prev.employeeId && r.date == prev.date && r.createdAt == prev.createdAt
              && r.notes == prev.notes && r.employeeName == prev.employeeName
              && r.checkIn == data.checkIn.OrElse(prev.checkIn)
              && r.checkOut == data.checkOut.OrElse(prev.checkOut)
              && r.isOverridden && r.overrideBy == Some(data.overrideBy) && r.overrideReason == Some(data.reason)
              && r.overrideNotes == Some(data.notes) && r.overrideAt == Some(now) && r.updatedAt == now
              && (data.status.Some? ==> r.status == data.status.value)
              && (r.checkIn.Some? && r.checkOut.Some? ==>
                    && r.workingHours == WorkingMinutes(r.checkIn, r.checkOut, s.config.breakMinutes)
                    && r.lateMinutes == LateMinutes(r.checkIn.value, s.config)
                    && r.earlyLeaveMinutes == EarlyLeaveMinutes(r.checkOut.value, s.config)
                    && (data.status.None? ==> r.status == Classify(r.checkIn, r.checkOut, s.config)))
              && (r.checkIn.None? || r.checkOut.None? ==>
                    && r.workingHours == prev.workingHours && r.lateMinutes == prev.lateMinutes
                    && r.earlyLeaveMinutes == prev.earlyLeaveMinutes
                    && (data.status.None? ==> r.status == prev.status))
  {
    match FindIndex(s.records, HasId(data.attendanceId))
    case None => Outcome(s, None)
    case Some(i) =>
      var existing := s.records[i];
      var checkIn := data.checkIn.OrElse(existing.checkIn);
      var checkOut := data.checkOut.OrElse(existing.checkOut);
      var both := checkIn.Some? && checkOut.Some?;
      var status :=
        if data.status.Some? then data.status.value
        else if both then Classify(checkIn, checkOut, s.config)
        else existing.status;
      var rec := existing.(
        checkIn := checkIn,
        checkOut := checkOut,
        status := status,
        workingHours := if both then WorkingMinutes(checkIn, checkOut, s.config.breakMinutes) else existing.workingHours,
        lateMinutes := if both then LateMinutes(checkIn.value, s.config) else existing.lateMinutes,
        earlyLeaveMinutes := if both then EarlyLeaveMinutes(checkOut.value, s.config) else existing.earlyLeaveMinutes,
        isOverridden := true,
        overrideBy := Some(data.overrideBy),
        overrideReason := Some(data.reason),
        overrideNotes := Some(data.notes),
        overrideAt := Some(now),
        updatedAt := now);
      Outcome(s.(records := ReplaceWhere(s.records, HasId(data.attendanceId), rec)), Some(rec))
  }

  /** The fixed override note of a manual entry. */
  const ManualEntryNote: string := "Manual entry by HR"

  /** `createManualRecord`: always appends one overridden record (no same-day check); the status
      is the given one, else classified when both times are given, else absent. */
  function CreateManualRecord(s: AttendanceState, employeeId: string, employeeName: string, date: string,
                              checkIn: Option<Instant>, checkOut: Option<Instant>, status: Option<Status>,
                              notes: Option<string>, overrideBy: Option<string>,
                              now: Instant, freshId: string): (o: Outcome)
    requires FreshId(s.records, freshId)
    ensures o.record.Some?
    ensures OnlyRecordsChange(s, o.state)
    ensures o.state.records == s.records + [o.record.value]
    ensures var r := o.record.value;
              && r.id == freshId && r.employeeId == employeeId && r.employeeName == Some(employeeName)
              && r.date == date && r.createdAt == now && r.updatedAt == now
              && r.checkIn == checkIn && r.checkOut == checkOut && r.notes == notes
              && r.isOverridden && r.overrideReason == Some(Correction) && r.overrideNotes == Some(ManualEntryNote)
              && r.overrideBy == overrideBy && r.overrideAt == Some(now)
              && (status.Some? ==> r.status == status.value)
              && (checkIn.Some? && checkOut.Some? ==>
                    && r.workingHours == WorkingMinutes(checkIn, checkOut, s.config.breakMinutes)
                    && r.lateMinutes == LateMinutes(checkIn.value, s.config)
                    && r.earlyLeaveMinutes == EarlyLeaveMinutes(checkOut.value, s.config)
                    && (status.None? ==> r.status == Classify(checkIn, checkOut, s.config)))
              && (checkIn.None? || checkOut.None? ==>
                    r.workingHours == 0 && r.lateMinutes == 0 && r.earlyLeaveMinutes == 0
                    && (status.None? ==> r.status == Absent))
  {
    var both := checkIn.Some? && checkOut.Some?;
    var finalStatus :=
      if status.Some? then status.value
      else if both then Classify(checkIn, checkOut, s.config)
      else Absent;
    var rec := AttendanceRecord(
      freshId, employeeId, Some(employeeName), date, checkIn, checkOut, finalStatus,
      if both then WorkingMinutes(checkIn, checkOut, s.config.breakMinutes) else 0,
      if both then LateMinutes(checkIn.value, s.config) else 0,
      if both then EarlyLeaveMinutes(checkOut.value, s.config) else 0,
      notes, true, overrideBy, Some(Correction), Some(ManualEntryNote), Some(now), now, now);
    Outcome(s.(records := s.records + [rec]), Some(rec))
  }

  // ---------------------------------------------------------------------------
  // Configuration
  // ---------------------------------------------------------------------------

  /** A partial configuration: only the present fields change. */
  datatype ConfigPatch = ConfigPatch(
    workStart: Option<int>,
    workEnd: Option<int>,
    lateThreshold: Option<int>,
    earlyLeaveThreshold: Option<int>,
    minWorkingHours: Option<int>,
    breakMinutes: Option<int>)

  /** `updateConfig`: merges the patch into the configuration; records are not recomputed. */
  function UpdateConfig(s: AttendanceState, patch: ConfigPatch): (r: (AttendanceState, Config))
    ensures r.0 == s.(config := r.1)
    ensures r.1.workStart == patch.workStart.GetOr(s.config.workStart)
    ensures r.1.workEnd == patch.workEnd.GetOr(s.config.workEnd)
    ensures r.1.lateThreshold == patch.lateThreshold.GetOr(s.config.lateThreshold)
    ensures r.1.earlyLeaveThreshold == patch.earlyLeaveThreshold.GetOr(s.config.earlyLeaveThreshold)
    ensures r.1.minWorkingHours == patch.minWorkingHours.GetOr(s.config.minWorkingHours)
    ensures r.1.breakMinutes == patch.breakMinutes.GetOr(s.config.breakMinutes)
  {
    var c := s.config;
    var merged := Config(
      patch.workStart.GetOr(c.workStart),
      patch.workEnd.GetOr(c.workEnd),
      patch.lateThreshold.GetOr(c.lateThreshold),
      patch.earlyLeaveThreshold.GetOr(c.earlyLeaveThreshold),
      patch.minWorkingHours.GetOr(c.minWorkingHours),
      patch.breakMinutes.GetOr(c.breakMinutes));
    (s.(config := merged), merged)
  }

  /** Applying the same patch twice is applying it once. */
  lemma UpdateConfigIdempotent(s: AttendanceState, patch: ConfigPatch)
    ensures UpdateConfig(UpdateConfig(s, patch).0, patch) == UpdateConfig(s, patch)
  {
  }

  /** A configuration change leaves every stored record as it was: derived minutes and statuses
      are never recomputed retroactively. */
  lemma UpdateConfigNotRetroactive(s: AttendanceState, patch: ConfigPatch, employeeId: string, date: string)
    ensures RecordOn(UpdateConfig(s, patch).0, employeeId, date) == RecordOn(s, employeeId, date)
  {
  }

  // ---------------------------------------------------------------------------
  // Properties of the lifecycle
  // ---------------------------------------------------------------------------

  /** A second check-in on the same day is refused and changes nothing. */
  lemma CheckInTwiceRefused(s: AttendanceState, employeeId: string, name: string, notes1: Option<string>,
                            notes2: Option<string>, t1: Instant, t2: Instant, today: string, id1: string, id2: string)
    requires FreshId(s.records, id1)
    requires CheckIn(s, employeeId, name, notes1, t1, today, id1).record.Some?
    requires FreshId(CheckIn(s, employeeId, name, notes1, t1, today, id1).state.records, id2)
    ensures var s1 := CheckIn(s, employeeId, name, notes1, t1, today, id1).state;
            CheckIn(s1, employeeId, name, notes2, t2, today, id2) == Outcome(s1, None)
  {
  }

  /** A second check-out on the same day is refused and changes nothing. */
  lemma CheckOutTwiceRefused(s: AttendanceState, employeeId: string, notes1: Option<string>, notes2: Option<string>,
                             t1: Instant, t2: Instant, today: string)
    requires CheckOut(s, employeeId, notes1, t1, today).record.Some?
    ensures var s1 := CheckOut(s, employeeId, notes1, t1, today).state;
            CheckOut(s1, employeeId, notes2, t2, today) == Outcome(s1, None)
  {
  }

  /** Check-in with a fresh id keeps record ids unique and at most one record per employee and day. */
  lemma CheckInPreservesInvariants(s: AttendanceState, employeeId: string, name: string, notes: Option<string>,
                                   now: Instant, today: string, freshId: string)
    requires FreshId(s.records, freshId) && UniqueIds(s.records) && OnePerDay(s.records)
    ensures var o := CheckIn(s, employeeId, name, notes, now, today, freshId);
            UniqueIds(o.state.records) && OnePerDay(o.state.records)
  {
    var o := CheckIn(s, employeeId, name, notes, now, today, freshId);
    if o.record.Some? {
      var r := o.record.value;
      match FindIndex(s.records, OnDay(employeeId, today))
      case Some(i) =>
        ReplaceByUniqueId(s.records, i, r);
      case None =>
        assert o.state.records == s.records + [r];
    }
  }

  /** Check-out replaces today's record by one with the same id, employee and date. */
  lemma CheckOutPreservesInvariants(s: AttendanceState, employeeId: string, notes: Option<string>, now: Instant, today: string)
    requires UniqueIds(s.records) && OnePerDay(s.records)
    ensures var o := CheckOut(s, employeeId, notes, now, today);
            UniqueIds(o.state.records) && OnePerDay(o.state.records)
  {
    var o := CheckOut(s, employeeId, notes, now, today);
    if o.record.Some? {
      var i := FindIndex(s.records, OnDay(employeeId, today)).value;
      ReplaceByUniqueId(s.records, i, o.record.value);
    }
  }

  /** An override keeps the record's id, employee and date, so the invariants survive it. */
  lemma OverridePreservesInvariants(s: AttendanceState, data: OverrideRequest, now: Instant)
    requires UniqueIds(s.records) && OnePerDay(s.records)
    ensures var o := Override(s, data, now);
            UniqueIds(o.state.records) && OnePerDay(o.state.records)
  {
    var o := Override(s, data, now);
    if o.record.Some? {
      var i := FindIndex(s.records, HasId(data.attendanceId)).value;
      ReplaceByUniqueId(s.records, i, o.record.value);
    }
  }

  /** Without an explicit status, an override that leaves both times present yields a record
      whose minutes and status agree with the rules. */
  lemma OverrideIsConsistent(s: AttendanceState, data: OverrideRequest, now: Instant)
    requires data.status.None? && data.checkIn.Some? && data.checkOut.Some?
    requires !FreshId(s.records, data.attendanceId)
    ensures Consistent(Override(s, data, now).record.value, s.config)
  {
  }

  /** Likewise for a manual entry with both times and no status. */
  lemma ManualRecordIsConsistent(s: AttendanceState, employeeId: string, name: string, date: string,
                                 checkIn: Instant, checkOut: Instant, notes: Option<string>,
                                 overrideBy: Option<string>, now: Instant, freshId: string)
    requires FreshId(s.records, freshId)
    ensures Consistent(CreateManualRecord(s, employeeId, name, date, Some(checkIn), Some(checkOut), None,
                                          notes, overrideBy, now, freshId).record.value, s.config)
  {
  }

  /** A manual entry does not look for an existing record: it can give an employee two records
      on one day, which check-in alone never does. */
  lemma ManualRecordCanDuplicateDay()
    ensures var s := AttendanceState([], DefaultConfig, "2024-01-15", None, "2024-01");
            var s1 := CheckIn(s, "1", "Ann", None, At(9, 0), "2024-01-15", "a").state;
            var s2 := CreateManualRecord(s1, "1", "Ann", "2024-01-15", None, None, None, None, None, At(12, 0), "b").state;
            OnePerDay(s1.records) && !OnePerDay(s2.records)
  {
    var s := AttendanceState([], DefaultConfig, "2024-01-15", None, "2024-01");
    var s1 := CheckIn(s, "1", "Ann", None, At(9, 0), "2024-01-15", "a").state;
    assert |s1.records| == 1;
    var s2 := CreateManualRecord(s1, "1", "Ann", "2024-01-15", None, None, None, None, None, At(12, 0), "b").state;
    assert s2.records[0].employeeId == s2.records[1].employeeId && s2.records[0].date == s2.records[1].date;
  }

  /** Check-out followed the "early leave wins over half day" order, while the classifier puts
      half day first: they disagree exactly when both conditions hold. */
  predicate CheckOutOrderDiverges(checkIn: Instant, checkOut: Instant, config: Config) {
    EarlyLeaveMinutes(checkOut, config) > 0
    && WorkingMinutes(Some(checkIn), Some(checkOut), config.breakMinutes) < MinWorkingMinutes(config)
  }

  /** A check-in followed by a check-out on the same day leaves the status the classifier gives
      for the two times, except in the diverging case, where check-out says early leave and the
      classifier says half day. */
  lemma CheckInThenCheckOut(s: AttendanceState, employeeId: string, name: string, notes1: Option<string>,
                            notes2: Option<string>, t1: Instant, t2: Instant, today: string, freshId: string)
    requires FreshId(s.records, freshId)
    requires !IsCheckedIn(s, employeeId, today) && !IsCheckedOut(s, employeeId, today)
    ensures var s1 := CheckIn(s, employeeId, name, notes1, t1, today, freshId).state;
            var o := CheckOut(s1, employeeId, notes2, t2, today);
            && o.record.Some?
            && o.record.value.checkIn == Some(t1) && o.record.value.checkOut == Some(t2)
            && (if CheckOutOrderDiverges(t1, t2, s.config)
                then o.record.value.status == EarlyLeave && Classify(Some(t1), Some(t2), s.config) == HalfDay
                else Consistent(o.record.value, s.config))
  {
    var o1 := CheckIn(s, employeeId, name, notes1, t1, today, freshId);
    var r1 := o1.record.value;
    assert r1.checkOut.None? by {
      match FindIndex(s.records, OnDay(employeeId, today))
      case Some(i) =>
      case None =>
    }
  }

  /** The diverging case at the default configuration: 09:00 to 11:00 is two hours minus the
      break, well under four, and leaves five and a half hours early. */
  lemma CheckOutOrderDivergesExample()
    ensures CheckOutOrderDiverges(At(9, 0), At(11, 0), DefaultConfig)
    ensures var s := AttendanceState([], DefaultConfig, "2024-01-15", None, "2024-01");
            var s1 := CheckIn(s, "1", "Ann", None, At(9, 0), "2024-01-15", "a").state;
            var r := CheckOut(s1, "1", None, At(11, 0), "2024-01-15").record;
            r.Some? && r.value.status == EarlyLeave && r.value.workingHours == 60
            && Classify(Some(At(9, 0)), Some(At(11, 0)), DefaultConfig) == HalfDay
  {
    var s := AttendanceState([], DefaultConfig, "2024-01-15", None, "2024-01");
    CheckInThenCheckOut(s, "1", "Ann", None, None, At(9, 0), At(11, 0), "2024-01-15", "a");
  }

  /** Check-out appends its note to the existing one with a single separating space. */
  lemma CheckOutNotesJoin(prior: string, added: string)
    requires prior != "" && !IsSpace(prior[0]) && !IsSpace(prior[|prior| - 1])
    requires added != "" && !IsSpace(added[0]) && !IsSpace(added[|added| - 1])
    ensures Trim(prior + " " + added) == prior + " " + added
  {
    var joined := prior + " " + added;
    assert joined[0] == prior[0] && joined[|joined| - 1] == added[|added| - 1];
    TrimUnpadded(joined);
  }

  /** With no previous note, the added note stands alone. */
  lemma CheckOutNoteAlone(added: string)
    requires added != "" && !IsSpace(added[0]) && !IsSpace(added[|added| - 1])
    ensures Trim("" + " " + added) == added
  {
  }
}

=== FILE: attendance_views.dfy ===
/** The derived stores of `src/lib/stores/attendanceStore.ts`: the records of a date, the
    selected employee's history and month, the monthly summary, today's statistics and the
    42-cell calendar page. */
module AttendanceViews {
  import opened Wrappers
  import opened Text
  import opened Seqs
  import opened Order
  import opened AttendanceRules
  import opened AttendanceStore
  import Calendar

  function OnDate(date: string): AttendanceRecord -> bool {
    (r: AttendanceRecord) => r.date == date
  }

  function OfEmployee(employeeId: string): AttendanceRecord -> bool {
    (r: AttendanceRecord) => r.employeeId == employeeId
  }

  function InMonth(employeeId: string, month: string): AttendanceRecord -> bool {
    (r: AttendanceRecord) => r.employeeId == employeeId && StartsWith(r.date, month)
  }

  function WithStatus(status: Status): AttendanceRecord -> bool {
    (r: AttendanceRecord) => r.status == status
  }

  function NotWithStatus(status: Status): AttendanceRecord -> bool {
    (r: AttendanceRecord) => r.status != status
  }

  function DateKey(r: AttendanceRecord): string {
    r.date
  }

  // ---------------------------------------------------------------------------
  // Record lists
  // ---------------------------------------------------------------------------

  /** `todayAttendance` and `selectedDateAttendance`: the records of one date, in store order. */
  function RecordsOn(s: AttendanceState, date: string): (r: seq<AttendanceRecord>)
    ensures Subsequence(r, s.records)
    ensures forall i :: 0 <= i < |r| ==> r[i].date == date
    ensures forall j :: 0 <= j < |s.records| && s.records[j].date == date ==> s.records[j] in r
    ensures r == Filter(s.records, OnDate(date))
  {
    FilterIsSubsequence(s.records, OnDate(date));
    Filter(s.records, OnDate(date))
  }

  /** `selectedEmployeeAttendance`: nothing without a selected employee; otherwise all of that
      employee's records, newest date first. */
  function SelectedEmployeeAttendance(s: AttendanceState): (r: seq<AttendanceRecord>)
    ensures !Truthy(s.selectedEmployeeId) ==> r == []
    ensures Truthy(s.selectedEmployeeId) ==>
              && SortedDescBy(r, DateKey)
              && multiset(r) == multiset(Filter(s.records, OfEmployee(s.selectedEmployeeId.value)))
              && (forall i :: 0 <= i < |r| ==> r[i].employeeId == s.selectedEmployeeId.value)
              && (forall j :: 0 <= j < |s.records| && s.records[j].employeeId == s.selectedEmployeeId.value
                    ==> s.records[j] in r)
  {
    if !Truthy(s.selectedEmployeeId) then []
    else
      var mine := Filter(s.records, OfEmployee(s.selectedEmployeeId.value));
      SortedHistoryMembers(s.records, s.selectedEmployeeId.value);
      SortDescBy(mine, DateKey)
  }

  /** Sorting an employee's records keeps exactly that employee's records. */
  lemma SortedHistoryMembers(records: seq<AttendanceRecord>, employeeId: string)
    ensures var r := SortDescBy(Filter(records, OfEmployee(employeeId)), DateKey);
            && (forall i :: 0 <= i < |r| ==> r[i].employeeId == employeeId)
            && (forall j :: 0 <= j < |records| && records[j].employeeId == employeeId ==> records[j] in r)
  {
    var mine := Filter(records, OfEmployee(employeeId));
    var r := SortDescBy(mine, DateKey);
    PermutationMembers(r, mine);
    forall i | 0 <= i < |r|
      ensures r[i].employeeId == employeeId
    {
      assert r[i] in mine;
      var k :| 0 <= k < |mine| && mine[k] == r[i];
    }
  }

  /** `selectedMonthAttendance`: the selected employee's records whose date starts with the
      selected month. */
  function SelectedMonthAttendance(s: AttendanceState): (r: seq<AttendanceRecord>)
    ensures !Truthy(s.selectedEmployeeId) ==> r == []
    ensures Truthy(s.selectedEmployeeId) ==>
              && Subsequence(r, s.records)
              && (forall i :: 0 <= i < |r| ==>
                    r[i].employeeId == s.selectedEmployeeId.value && StartsWith(r[i].date, s.selectedMonth))
              && (forall j :: 0 <= j < |s.records| && InMonth(s.selectedEmployeeId.value, s.selectedMonth)(s.records[j])
                    ==> s.records[j] in r)
              && r == Filter(s.records, InMonth(s.selectedEmployeeId.value, s.selectedMonth))
  {
    if !Truthy(s.selectedEmployeeId) then []
    else
      FilterIsSubsequence(s.records, InMonth(s.selectedEmployeeId.value, s.selectedMonth));
      Filter(s.records, InMonth(s.selectedEmployeeId.value, s.selectedMonth))
  }

  // ---------------------------------------------------------------------------
  // Counting by status
  // ---------------------------------------------------------------------------

  function CountStatus(rs: seq<AttendanceRecord>, status: Status): nat {
    |Filter(rs, WithStatus(status))|
  }

  /** Every record has exactly one of the five statuses, so the five counts add up to the total. */
  lemma {:induction false} StatusPartition(rs: seq<AttendanceRecord>)
    ensures CountStatus(rs, Present) + CountStatus(rs, Late) + CountStatus(rs, Absent)
            + CountStatus(rs, EarlyLeave) + CountStatus(rs, HalfDay) == |rs|
  {
    if |rs| > 0 {
      StatusPartition(rs[1..]);
    }
  }

  /** The records that are not absent are the total minus the absent ones. */
  lemma NotAbsentCount(rs: seq<AttendanceRecord>)
    ensures |Filter(rs, NotWithStatus(Absent))| == |rs| - CountStatus(rs, Absent)
  {
    FilterComplement(rs, WithStatus(Absent), NotWithStatus(Absent));
  }

  // ---------------------------------------------------------------------------
  // Monthly summary
  // ---------------------------------------------------------------------------

  datatype MonthlySummary = MonthlySummary(
    employeeId: string,
    employeeName: string,
    month: string,
    totalDays: nat,
    presentDays: nat,
    lateDays: nat,
    absentDays: nat,
    earlyLeaveDays: nat,
    halfDays: nat,
    totalWorkingHours: int,
    totalLateMinutes: int,
    totalEarlyLeaveMinutes: int,
    averageWorkingHours: real,
    attendancePercentage: real)

  function WorkedOf(r: AttendanceRecord): int { r.workingHours }
  function LateOf(r: AttendanceRecord): int { r.lateMinutes }
  function EarlyOf(r: AttendanceRecord): int { r.earlyLeaveMinutes }

  /** The mean of `total` over `count` items. */
  function Mean(total: int, count: nat): real
    requires count > 0
  {
    total as real / count as real
  }

  lemma MeanTimesCount(total: int, count: nat)
    requires count > 0
    ensures Mean(total, count) * count as real == total as real
    ensures total >= 0 ==> Mean(total, count) >= 0.0
  {
  }

  /** `k / n * 100`: the percentage that `k` of `n` items make. */
  function Percent(k: nat, n: nat): real
    requires 0 < n
  {
    (k as real / n as real) * 100.0
  }

  lemma PercentOf(k: nat, n: nat)
    requires 0 < n && k <= n
    ensures 0.0 <= Percent(k, n) <= 100.0
    ensures Percent(k, n) * n as real == 100.0 * k as real
  {
    var q := k as real / n as real;
    assert q * n as real == k as real;
  }

  /** The summary of a non-empty month of records. */
  function Summarize(employeeId: string, month: string, rs: seq<AttendanceRecord>): (m: MonthlySummary)
    requires |rs| > 0
    ensures m.employeeId == employeeId && m.month == month && m.totalDays == |rs|
    ensures m.presentDays + m.lateDays + m.absentDays + m.earlyLeaveDays + m.halfDays == m.totalDays
    ensures m.averageWorkingHours == Mean(m.totalWorkingHours, m.totalDays)
    ensures m.totalDays - m.absentDays >= 0
    ensures m.attendancePercentage == Percent(m.totalDays - m.absentDays, m.totalDays)
    ensures m.employeeName == (if Truthy(rs[0].employeeName) then rs[0].employeeName.value else "Unknown")
  {
    StatusPartition(rs);
    NotAbsentCount(rs);
    var total := |rs|;
    var worked := Sum(rs, WorkedOf);
    var attended := |Filter(rs, NotWithStatus(Absent))|;
    assert attended == total - CountStatus(rs, Absent);
    MonthlySummary(
      employeeId,
      if Truthy(rs[0].employeeName) then rs[0].employeeName.value else "Unknown",
      month,
      total,
      CountStatus(rs, Present),
      CountStatus(rs, Late),
      CountStatus(rs, Absent),
      CountStatus(rs, EarlyLeave),
      CountStatus(rs, HalfDay),
      worked,
      Sum(rs, LateOf),
      Sum(rs, EarlyOf),
      Mean(worked, total),
      Percent(attended, total))
  }

  /** One record makes a one-day summary: its status is the one day counted, and its figures are
      the totals. */
  lemma SummarizeOne(employeeId: string, month: string, x: AttendanceRecord)
    ensures var m := Summarize(employeeId, month, [x]);
            && m.totalDays == 1
            && m.presentDays == (if x.status == Present then 1 else 0)
            && m.lateDays == (if x.status == Late then 1 else 0)
            && m.absentDays == (if x.status == Absent then 1 else 0)
            && m.earlyLeaveDays == (if x.status == EarlyLeave then 1 else 0)
            && m.halfDays == (if x.status == HalfDay then 1 else 0)
            && m.totalWorkingHours == x.workingHours
            && m.totalLateMinutes == x.lateMinutes
            && m.totalEarlyLeaveMinutes == x.earlyLeaveMinutes
            && m.employeeName == (if Truthy(x.employeeName) then x.employeeName.value else "Unknown")
  {
    SumAppend([], x, WorkedOf);
    SumAppend([], x, LateOf);
    SumAppend([], x, EarlyOf);
    assert [] + [x] == [x];
    FilterOne(x, WithStatus(Present));
    FilterOne(x, WithStatus(Late));
    FilterOne(x, WithStatus(Absent));
    FilterOne(x, WithStatus(EarlyLeave));
    FilterOne(x, WithStatus(HalfDay));
  }

  /** One more record adds a day to the total and to its own status's count only, and leaves the
      name taken from the first record. With `SummarizeOne` this fixes every count. */
  lemma SummarizeAppendCounts(employeeId: string, month: string, rs: seq<AttendanceRecord>, x: AttendanceRecord)
    requires |rs| > 0
    ensures var a := Summarize(employeeId, month, rs);
            var b := Summarize(employeeId, month, rs + [x]);
            && b.totalDays == a.totalDays + 1
            && b.presentDays == a.presentDays + (if x.status == Present then 1 else 0)
            && b.lateDays == a.lateDays + (if x.status == Late then 1 else 0)
            && b.absentDays == a.absentDays + (if x.status == Absent then 1 else 0)
            && b.earlyLeaveDays == a.earlyLeaveDays + (if x.status == EarlyLeave then 1 else 0)
            && b.halfDays == a.halfDays + (if x.status == HalfDay then 1 else 0)
            && b.employeeName == a.employeeName
  {
    FilterAppendOne(rs, x, WithStatus(Present));
    FilterAppendOne(rs, x, WithStatus(Late));
    FilterAppendOne(rs, x, WithStatus(Absent));
    FilterAppendOne(rs, x, WithStatus(EarlyLeave));
    FilterAppendOne(rs, x, WithStatus(HalfDay));
    assert (rs + [x])[0] == rs[0];
  }

  /** One more record adds its hours and minutes to the three totals. With `SummarizeOne` this
      makes each total the sum over the records. */
  lemma SummarizeAppendTotals(employeeId: string, month: string, rs: seq<AttendanceRecord>, x: AttendanceRecord)
    requires |rs| > 0
    ensures var a := Summarize(employeeId, month, rs);
            var b := Summarize(employeeId, month, rs + [x]);
            && b.totalWorkingHours == a.totalWorkingHours + x.workingHours
            && b.totalLateMinutes == a.totalLateMinutes + x.lateMinutes
            && b.totalEarlyLeaveMinutes == a.totalEarlyLeaveMinutes + x.earlyLeaveMinutes
  {
    SumAppend(rs, x, WorkedOf);
    SumAppend(rs, x, LateOf);
    SumAppend(rs, x, EarlyOf);
  }

  /** A summary whose average and percentage are computed from its own counts. */
  ghost predicate SummaryShape(m: MonthlySummary) {
    && m.totalDays > 0 && m.absentDays <= m.totalDays
    && m.averageWorkingHours == Mean(m.totalWorkingHours, m.totalDays)
    && m.attendancePercentage == Percent(m.totalDays - m.absentDays, m.totalDays)
  }

  /** The average times the number of days is the total worked, and the attendance
      percentage is the share of days not absent, between 0 and 100. */
  ghost predicate RatiosHold(m: MonthlySummary) {
    && m.averageWorkingHours * m.totalDays as real == m.totalWorkingHours as real
    && m.attendancePercentage * m.totalDays as real == 100.0 * (m.totalDays - m.absentDays) as real
    && 0.0 <= m.attendancePercentage <= 100.0
  }

  lemma ShapeRatios(m: MonthlySummary)
    requires SummaryShape(m)
    ensures RatiosHold(m)
  {
    MeanTimesCount(m.totalWorkingHours, m.totalDays);
    PercentOf(m.totalDays - m.absentDays, m.totalDays);
  }

  /** Every summary's average and percentage satisfy their defining ratios. */
  lemma SummaryRatios(employeeId: string, month: string, rs: seq<AttendanceRecord>)
    requires |rs| > 0
    ensures RatiosHold(Summarize(employeeId, month, rs))
  {
    var m := Summarize(employeeId, month, rs);
    assert SummaryShape(m);
    ShapeRatios(m);
  }

  /** `monthlyAttendanceSummary`: no summary without a selected employee or without records in
      the selected month; otherwise the summary of those records. */
  function Summary(s: AttendanceState): (r: Option<MonthlySummary>)
    ensures r.None? <==> !Truthy(s.selectedEmployeeId) || |SelectedMonthAttendance(s)| == 0
    ensures r.Some? ==>
              && r.value.employeeId == s.selectedEmployeeId.value && r.value.month == s.selectedMonth
              && r.value.totalDays == |SelectedMonthAttendance(s)| > 0
              && r.value == Summarize(s.selectedEmployeeId.value, s.selectedMonth, SelectedMonthAttendance(s))
  {
    if !Truthy(s.selectedEmployeeId) then None
    else
      var rs := SelectedMonthAttendance(s);
      if |rs| == 0 then None
      else Some(Summarize(s.selectedEmployeeId.value, s.selectedMonth, rs))
  }

  /** Every minute total is non-negative when the records' minutes are. */
  lemma SummaryTotalsNonNegative(employeeId: string, month: string, rs: seq<AttendanceRecord>)
    requires |rs| > 0
    requires forall i :: 0 <= i < |rs| ==> rs[i].workingHours >= 0 && rs[i].lateMinutes >= 0 && rs[i].earlyLeaveMinutes >= 0
    ensures var m := Summarize(employeeId, month, rs);
            m.totalWorkingHours >= 0 && m.totalLateMinutes >= 0 && m.totalEarlyLeaveMinutes >= 0
            && m.averageWorkingHours >= 0.0
  {
    SumNonNegative(rs, WorkedOf);
    SumNonNegative(rs, LateOf);
    SumNonNegative(rs, EarlyOf);
    var m := Summarize(employeeId, month, rs);
    MeanTimesCount(m.totalWorkingHours, m.totalDays);
  }

  // ---------------------------------------------------------------------------
  // Today's statistics
  // ---------------------------------------------------------------------------

  datatype DayStats = DayStats(
    total: nat, present: nat, late: nat, absent: nat, earlyLeave: nat, halfDay: nat,
    checkedIn: nat, checkedOut: nat)

  function HasCheckIn(r: AttendanceRecord): bool { r.checkIn.Some? }
  function StillIn(r: AttendanceRecord): bool { r.checkIn.Some? && r.checkOut.None? }
  function Done(r: AttendanceRecord): bool { r.checkIn.Some? && r.checkOut.Some? }

  /** `todayStats`: counts over today's records. The five status counts partition the total, and
      "still checked in" and "checked out" partition the records that have a check-in. */
  function TodayStats(s: AttendanceState, today: string): (r: DayStats)
    ensures r.total == |RecordsOn(s, today)|
    ensures r.present + r.late + r.absent + r.earlyLeave + r.halfDay == r.total
    ensures r.checkedIn + r.checkedOut == |Filter(RecordsOn(s, today), HasCheckIn)| <= r.total
  {
    var rs := RecordsOn(s, today);
    StatusPartition(rs);
    CheckInSplit(rs);
    DayStats(|rs|, CountStatus(rs, Present), CountStatus(rs, Late), CountStatus(rs, Absent),
             CountStatus(rs, EarlyLeave), CountStatus(rs, HalfDay),
             |Filter(rs, StillIn)|, |Filter(rs, Done)|)
  }

  /** No records give all-zero counts, and one more record counts, when it is of that date,
      towards the total, its own status, and "still checked in" or "checked out" as its times
      say. Together these fix every counter of `TodayStats`. */
  lemma TodayStatsAppend(s: AttendanceState, x: AttendanceRecord, today: string)
    ensures s.records == [] ==> TodayStats(s, today) == DayStats(0, 0, 0, 0, 0, 0, 0, 0)
    ensures var a := TodayStats(s, today);
            var b := TodayStats(s.(records := s.records + [x]), today);
            var on := x.date == today;
            && b.total == a.total + (if on then 1 else 0)
            && b.present == a.present + (if on && x.status == Present then 1 else 0)
            && b.late == a.late + (if on && x.status == Late then 1 else 0)
            && b.absent == a.absent + (if on && x.status == Absent then 1 else 0)
            && b.earlyLeave == a.earlyLeave + (if on && x.status == EarlyLeave then 1 else 0)
            && b.halfDay == a.halfDay + (if on && x.status == HalfDay then 1 else 0)
            && b.checkedIn == a.checkedIn + (if on && StillIn(x) then 1 else 0)
            && b.checkedOut == a.checkedOut + (if on && Done(x) then 1 else 0)
  {
    var s' := s.(records := s.records + [x]);
    var rs := RecordsOn(s, today);
    FilterAppend(s.records, [x], OnDate(today));
    FilterOne(x, OnDate(today));
    if x.date == today {
      assert RecordsOn(s', today) == rs + [x];
      FilterAppendOne(rs, x, WithStatus(Present));
      FilterAppendOne(rs, x, WithStatus(Late));
      FilterAppendOne(rs, x, WithStatus(Absent));
      FilterAppendOne(rs, x, WithStatus(EarlyLeave));
      FilterAppendOne(rs, x, WithStatus(HalfDay));
      FilterAppendOne(rs, x, StillIn);
      FilterAppendOne(rs, x, Done);
    } else {
      assert RecordsOn(s', today) == rs + [] == rs;
    }
  }

  lemma CheckInSplit(rs: seq<AttendanceRecord>)
    ensures |Filter(rs, StillIn)| + |Filter(rs, Done)| == |Filter(rs, HasCheckIn)|
  {
    var stillOut := (r: AttendanceRecord) => r.checkOut.None?;
    var out := (r: AttendanceRecord) => r.checkOut.Some?;
    FilterFusion(rs, HasCheckIn, stillOut, StillIn);
    FilterFusion(rs, HasCheckIn, out, Done);
    FilterComplement(Filter(rs, HasCheckIn), stillOut, out);
  }

  // ---------------------------------------------------------------------------
  // Calendar page
  // ---------------------------------------------------------------------------

  datatype CalendarDay = CalendarDay(
    date: string,
    dayOfMonth: int,
    isCurrentMonth: bool,
    isToday: bool,
    isWeekend: bool,
    attendance: Option<AttendanceRecord>)

  /** `selectedMonth.split('-').map(Number)` read as a year and a month: the text before the
      first '-' and the text between it and the next '-', each a non-empty decimal numeral. */
  function ParseMonth(text: string): (r: Option<(int, int)>)
    ensures r.Some? ==> r.value.0 >= 0 && r.value.1 >= 0
  {
    match IndexOf(text, '-')
    case None => None
    case Some(i) =>
      var yearPart := text[..i];
      var rest := text[i + 1..];
      var monthPart := match IndexOf(rest, '-') case None => rest case Some(j) => rest[..j];
      if yearPart == "" || monthPart == "" || !AllDigits(yearPart) || !AllDigits(monthPart) then None
      else Some((ParseDigits(yearPart), ParseDigits(monthPart)))
  }

  /** A numeral has no '-' in it. */
  lemma DigitsHaveNoDash(s: string)
    requires AllDigits(s)
    ensures IndexOf(s, '-') == None
  {
  }

  /** Parsing reads back the year and month `getMonthString` wrote. */
  lemma ParseMonthRoundTrip(year: nat, month: nat)
    ensures ParseMonth(MonthString(year, month)) == Some((year, month))
  {
    var y := NatToString(year);
    var m := ZeroPad(month, 2);
    NatToStringRoundTrip(year);
    ZeroPadRoundTrip(month, 2);
    assert MonthString(year, month) == y + ['-'] + m;
    IndexAfterDigits(y, '-', m);
    var text := y + ['-'] + m;
    assert text[..|y|] == y && text[|y| + 1..] == m;
    DigitsHaveNoDash(m);
  }

  /** One cell of the page. Only cells of the shown month can be today; a cell carries the
      selected employee's record of its date, if any. */
  function DayCell(s: AttendanceState, d: Calendar.Date, current: bool, today: Calendar.Date): CalendarDay
    requires 1 <= d.month <= 12 && d.year >= 0 && d.day >= 0
  {
    var date := Calendar.DateString(d);
    var weekday := Calendar.DayOfWeek(d);
    CalendarDay(
      date, d.day, current, current && d == today, weekday == 0 || weekday == 6,
      if Truthy(s.selectedEmployeeId) then RecordOn(s, s.selectedEmployeeId.value, date) else None)
  }

  /** The years for which the page is modelled: `new Date(y, …)` maps years 0 to 99 onto the
      1900s, and ISO date strings have four-digit years only up to 9999. */
  predicate GridYear(year: int) {
    100 <= year <= 9998
  }

  /** The 42 cells of the page for `month` of `year`. */
  function MonthGrid(s: AttendanceState, year: int, month: int, today: Calendar.Date): (r: seq<CalendarDay>)
    requires 1 <= month <= 12 && GridYear(year)
    ensures |r| == 42
  {
    var dates := Calendar.GridDates(year, month);
    var lead := Calendar.LeadingDays(year, month);
    var dim := Calendar.DaysInMonth(year, month);
    Calendar.GridSegments(year, month);
    seq(42, i requires 0 <= i < 42 => DayCell(s, dates[i], lead <= i < lead + dim, today))
  }

  /** `calendarDays`: the page for the selected month, when it names a month of a modelled year. */
  function CalendarDays(s: AttendanceState, today: Calendar.Date): (r: Option<seq<CalendarDay>>)
    ensures r.Some? ==> |r.value| == 42
    ensures r.Some? <==> ParseMonth(s.selectedMonth).Some?
                         && 1 <= ParseMonth(s.selectedMonth).value.1 <= 12
                         && GridYear(ParseMonth(s.selectedMonth).value.0)
  {
    match ParseMonth(s.selectedMonth)
    case None => None
    case Some(ym) =>
      if 1 <= ym.1 <= 12 && GridYear(ym.0) then Some(MonthGrid(s, ym.0, ym.1, today)) else None
  }

  /** A month written by `getMonthString` is shown as that month's page. */
  lemma CalendarOfMonthString(s: AttendanceState, year: nat, month: nat, today: Calendar.Date)
    requires 1 <= month <= 12 && GridYear(year)
    ensures CalendarDays(s.(selectedMonth := MonthString(year, month)), today)
              == Some(MonthGrid(s.(selectedMonth := MonthString(year, month)), year, month, today))
  {
    ParseMonthRoundTrip(year, month);
  }

  /** The page's layout: each cell shows its grid date; the leading cells are the last days of
      the previous month, the month's days follow numbered from 1, and the trailing cells are
      numbered from 1 again. */
  lemma CalendarLayout(s: AttendanceState, year: int, month: int, today: Calendar.Date, i: nat)
    requires 1 <= month <= 12 && GridYear(year) && i < 42
    ensures var r := MonthGrid(s, year, month, today);
            var lead := Calendar.LeadingDays(year, month);
            var dim := Calendar.DaysInMonth(year, month);
            var prev := Calendar.PrevMonth(year, month);
            var pdim := Calendar.DaysInMonth(prev.year, prev.month);
            var d := Calendar.GridDates(year, month)[i];
            && d.year >= 0 && d.month >= 0 && d.day >= 0
            && r[i].date == Calendar.DateString(d)
            && (i < lead ==> d.year == prev.year && d.month == prev.month && r[i].dayOfMonth == pdim - lead + i + 1)
            && (r[i].isCurrentMonth <==> lead <= i < lead + dim)
            && (lead <= i < lead + dim ==> r[i].dayOfMonth == i - lead + 1)
            && (lead + dim <= i ==> r[i].dayOfMonth == i - lead - dim + 1)
            && (r[i].isToday ==> r[i].isCurrentMonth)
  {
    Calendar.GridSegments(year, month);
  }

  /** Columns are weekdays: cell `i` is a weekend exactly in the Sunday and Saturday columns. */
  lemma CalendarWeekends(s: AttendanceState, year: int, month: int, today: Calendar.Date, i: nat)
    requires 1 <= month <= 12 && GridYear(year) && i < 42
    ensures MonthGrid(s, year, month, today)[i].isWeekend <==> (i % 7 == 0 || i % 7 == 6)
  {
    Calendar.GridWeekdays(year, month, i);
  }

  /** A cell's record is the selected employee's record of the cell's date: the one the
      day lookup finds, and nothing without a selected employee. */
  lemma CalendarAttendance(s: AttendanceState, year: int, month: int, today: Calendar.Date, i: nat)
    requires 1 <= month <= 12 && GridYear(year) && i < 42
    ensures var c := MonthGrid(s, year, month, today)[i];
            && (!Truthy(s.selectedEmployeeId) ==> c.attendance.None?)
            && (Truthy(s.selectedEmployeeId) ==> c.attendance == RecordOn(s, s.selectedEmployeeId.value, c.date))
            && (c.attendance.Some? ==>
                  c.attendance.value.employeeId == s.selectedEmployeeId.value && c.attendance.value.date == c.date)
  {
  }

  function IsTodayCell(c: CalendarDay): bool { c.isToday }

  /** Exactly one cell is marked today when today falls in the shown month, and none otherwise. */
  lemma CalendarTodayCount(s: AttendanceState, year: int, month: int, today: Calendar.Date)
    requires 1 <= month <= 12 && GridYear(year)
    ensures |Filter(MonthGrid(s, year, month, today), IsTodayCell)|
              == if today.year == year && today.month == month && 1 <= today.day <= Calendar.DaysInMonth(year, month)
                 then 1 else 0
  {
    var r := MonthGrid(s, year, month, today);
    var lead := Calendar.LeadingDays(year, month);
    var dim := Calendar.DaysInMonth(year, month);
    Calendar.GridSegments(year, month);
    if today.year == year && today.month == month && 1 <= today.day <= dim {
      var j := lead + today.day - 1;
      assert IsTodayCell(r[j]);
      FilterSingle(r, IsTodayCell, j);
    } else {
      FilterDropsAll(r, IsTodayCell);
    }
  }
}

=== FILE: auth.dfy ===
/** The mock authentication store of `src/lib/stores/auth.ts`: a fixed table of two accounts
    keyed by e-mail, `login`, `logout` and `clearError`. The session kept in local storage and
    the simulated network delay are outside the model. */
module Auth {
  import opened Wrappers
  import opened Text

  datatype Role = AdminRole | ManagerRole | EmployeeRole

  datatype User = User(id: string, email: string, name: string, role: Role, avatar: Option<string>, department: string)

  datatype AuthState = AuthState(user: Option<User>, isAuthenticated: bool, isLoading: bool, error: Option<string>)

  /** One entry of the accounts table. */
  datatype Account = Account(password: string, user: User)

  const SignedOut: AuthState := AuthState(None, false, false, None)

  const LoginFailedMessage: string := "Invalid email or password. Try admin@company.com / admin123"

  const AdminEmail: string := "admin@company.com"
  const ManagerEmail: string := "manager@company.com"

  /** `MOCK_USERS[key]`: the account stored under an exact key. Keys the table does not hold,
      inherited object properties included, give no account with a string password. */
  function MockUser(key: string): (r: Option<Account>)
    ensures r.Some? ==> r.value.user.email == key
    ensures r.Some? <==> key == AdminEmail || key == ManagerEmail
  {
    if key == AdminEmail then
      Some(Account("admin123", User("1", AdminEmail, "Nada Harby", AdminRole, Some(""), "Management")))
    else if key == ManagerEmail then
      Some(Account("manager123", User("2", ManagerEmail, "Sarah Manager", ManagerRole, Some(""), "Human Resources")))
    else None
  }

  /** The password matches the account stored under the lowercased e-mail. */
  predicate Credentials(email: string, password: string) {
    MockUser(Lower(email)).Some? && MockUser(Lower(email)).value.password == password
  }

  /** `login`: on a match the state becomes that account's session; otherwise the current
      session is kept and the error message is set. Either way loading ends. */
  function Login(s: AuthState, email: string, password: string): (r: (AuthState, bool))
    ensures r.1 <==> Credentials(email, password)
    ensures r.1 ==> r.0.isAuthenticated && r.0.user.Some? && r.0.user.value.email == Lower(email)
    ensures r.1 ==> r.0.user == Some(MockUser(Lower(email)).value.user)
    ensures r.1 ==> r.0.error.None?
    ensures !r.1 ==> r.0.user == s.user && r.0.isAuthenticated == s.isAuthenticated
    ensures !r.1 ==> r.0.error == Some(LoginFailedMessage)
    ensures !r.0.isLoading
  {
    var pending := s.(isLoading := true, error := None);
    var account := MockUser(Lower(email));
    if account.Some? && account.value.password == password then
      (AuthState(Some(account.value.user), true, false, None), true)
    else
      (pending.(isLoading := false, error := Some(LoginFailedMessage)), false)
  }

  /** `logout`: back to the signed-out state, whatever the state was. */
  function Logout(s: AuthState): (r: AuthState)
    ensures r.user.None? && !r.isAuthenticated && !r.isLoading && r.error.None?
  {
    SignedOut
  }

  /** `clearError`: drops the error and nothing else. */
  function ClearError(s: AuthState): (r: AuthState)
    ensures r.error.None?
    ensures r.user == s.user && r.isAuthenticated == s.isAuthenticated && r.isLoading == s.isLoading
  {
    s.(error := None)
  }

  /** A session is consistent when it is authenticated exactly when a user is signed in. */
  predicate SessionConsistent(s: AuthState) {
    s.isAuthenticated <==> s.user.Some?
  }

  lemma ActionsKeepSessionConsistent(s: AuthState, email: string, password: string)
    requires SessionConsistent(s)
    ensures SessionConsistent(Login(s, email, password).0)
    ensures SessionConsistent(Logout(s))
    ensures SessionConsistent(ClearError(s))
  {
  }

  /** Two e-mails that lowercase alike sign in alike. */
  lemma LoginIgnoresEmailCase(s: AuthState, e1: string, e2: string, password: string)
    requires Lower(e1) == Lower(e2)
    ensures Login(s, e1, password) == Login(s, e2, password)
  {
  }

  /** Signing in does not depend on the session before it, and signing in again with the same
      credentials changes nothing. */
  lemma LoginReplacesSession(s: AuthState, t: AuthState, email: string, password: string)
    requires Credentials(email, password)
    ensures Login(s, email, password) == Login(t, email, password)
    ensures Login(Login(s, email, password).0, email, password) == Login(s, email, password)
  {
  }

  /** Logging out after any login leaves the same state as logging out directly. */
  lemma LogoutUndoesLogin(s: AuthState, email: string, password: string)
    ensures Logout(Login(s, email, password).0) == Logout(s) == SignedOut
  {
  }

  /** Clearing the error after a failed attempt restores the previous session, with loading ended. */
  lemma ClearErrorAfterFailure(s: AuthState, email: string, password: string)
    requires !Credentials(email, password)
    ensures ClearError(Login(s, email, password).0) == s.(isLoading := false, error := None)
  {
  }

  /** The e-mail is matched case-insensitively, the password exactly. */
  lemma AdminLogin(s: AuthState)
    ensures Login(s, "Admin@Company.COM", "admin123").1
    ensures Login(s, "Admin@Company.COM", "admin123").0.user.value.role == AdminRole
    ensures !Login(s, "admin@company.com", "Admin123").1
    ensures !Login(s, "admin@company.com", "manager123").1
  {
    assert Lower("Admin@Company.COM") == AdminEmail;
    assert Lower("admin@company.com") == AdminEmail;
  }
}

=== FILE: calendar.dfy ===
/** Proleptic Gregorian calendar arithmetic behind the attendance calendar: leap years, month
    lengths, day numbers, weekdays, and the 42-day (six-week) grid shown for a month. */
module Calendar {
  import opened Text

  /** A calendar date; `month` is 1-based. */
  datatype Date = Date(year: int, month: int, day: int)

  predicate IsLeapYear(y: int) {
    y % 4 == 0 && (y % 100 != 0 || y % 400 == 0)
  }

  function YearLength(y: int): int {
    if IsLeapYear(y) then 366 else 365
  }

  /** `new Date(y, m, 0).getDate()`: the number of days of month `m` of year `y`. */
  function DaysInMonth(y: int, m: int): (n: int)
    requires 1 <= m <= 12
    ensures 28 <= n <= 31
  {
    if m == 2 then (if IsLeapYear(y) then 29 else 28)
    else if m == 4 || m == 6 || m == 9 || m == 11 then 30
    else 31
  }

  predicate ValidDate(d: Date) {
    1 <= d.month <= 12 && 1 <= d.day <= DaysInMonth(d.year, d.month)
  }

  /** Days of year `y` before the first of month `m`. */
  function DaysBeforeMonth(y: int, m: int): int
    requires 1 <= m <= 12
  {
    var leap := if IsLeapYear(y) then 1 else 0;
    if m == 1 then 0
    else if m == 2 then 31
    else [59, 90, 120, 151, 181, 212, 243, 273, 304, 334][m - 3] + leap
  }

  /** The month table adds up: each month starts where the previous one ends, and the
      twelve months fill the year. */
  lemma DaysBeforeMonthAccumulates(y: int, m: int)
    requires 1 <= m <= 12
    ensures m < 12 ==> DaysBeforeMonth(y, m + 1) == DaysBeforeMonth(y, m) + DaysInMonth(y, m)
    ensures m == 12 ==> DaysBeforeMonth(y, m) + DaysInMonth(y, m) == YearLength(y)
  {
  }

  /** Days from 0001-01-01 to the first of January of year `y` (negative before year 1). */
  function DaysBeforeYear(y: int): int {
    var p := y - 1;
    365 * p + p / 4 - p / 100 + p / 400
  }

  lemma FloorStep(y: int)
    ensures y / 4 - (y - 1) / 4 == (if y % 4 == 0 then 1 else 0)
    ensures y / 100 - (y - 1) / 100 == (if y % 100 == 0 then 1 else 0)
    ensures y / 400 - (y - 1) / 400 == (if y % 400 == 0 then 1 else 0)
  {
  }

  /** Consecutive years are one year length apart. */
  lemma DaysBeforeYearStep(y: int)
    ensures DaysBeforeYear(y + 1) == DaysBeforeYear(y) + YearLength(y)
  {
    var p := y - 1;
    assert DaysBeforeYear(y + 1) == 365 * y + y / 4 - y / 100 + y / 400;
    assert DaysBeforeYear(y) == 365 * p + p / 4 - p / 100 + p / 400;
    assert 365 * y == 365 * p + 365;
    FloorStep(y);
    if y % 400 == 0 {
      assert y % 100 == 0 && y % 4 == 0;
    } else if y % 100 == 0 {
      assert y % 4 == 0;
    }
  }

  /** Days from 0001-01-01 to `d`. */
  function DayNumber(d: Date): int
    requires 1 <= d.month <= 12
  {
    DaysBeforeYear(d.year) + DaysBeforeMonth(d.year, d.month) + d.day - 1
  }

  /** `getDay()`: 0 for Sunday up to 6 for Saturday (0001-01-01 was a Monday). */
  function DayOfWeek(d: Date): (w: int)
    requires 1 <= d.month <= 12
    ensures 0 <= w < 7
  {
    (DayNumber(d) + 1) % 7
  }

  /** 1970-01-01 was a Thursday; 2024-01-15 was a Monday. */
  lemma DayOfWeekExamples()
    ensures DayOfWeek(Date(1970, 1, 1)) == 4
    ensures DayOfWeek(Date(2024, 1, 15)) == 1
  {
  }

  /** The day after a valid date. */
  function NextDay(d: Date): Date
    requires ValidDate(d)
  {
    if d.day < DaysInMonth(d.year, d.month) then Date(d.year, d.month, d.day + 1)
    else if d.month < 12 then Date(d.year, d.month + 1, 1)
    else Date(d.year + 1, 1, 1)
  }

  /** Day numbers count days: the next day is a valid date one number later. */
  lemma NextDayNumber(d: Date)
    requires ValidDate(d)
    ensures ValidDate(NextDay(d))
    ensures DayNumber(NextDay(d)) == DayNumber(d) + 1
  {
    DaysBeforeMonthAccumulates(d.year, d.month);
    if d.month == 12 && d.day == DaysInMonth(d.year, d.month) {
      DaysBeforeYearStep(d.year);
    }
  }

  // ---------------------------------------------------------------------------
  // Adjacent months
  // ---------------------------------------------------------------------------

  datatype YearMonth = YearMonth(year: int, month: int)

  /** `new Date(y, m - 2, 1)`: the month before, rolling back over the year. */
  function PrevMonth(year: int, month: int): (r: YearMonth)
    requires 1 <= month <= 12
    ensures 1 <= r.month <= 12
  {
    if month == 1 then YearMonth(year - 1, 12) else YearMonth(year, month - 1)
  }

  /** `new Date(y, m, 1)`: the month after, rolling over into the next year. */
  function NextMonth(year: int, month: int): (r: YearMonth)
    requires 1 <= month <= 12
    ensures 1 <= r.month <= 12
  {
    if month == 12 then YearMonth(year + 1, 1) else YearMonth(year, month + 1)
  }

  // ---------------------------------------------------------------------------
  // The six-week grid
  // ---------------------------------------------------------------------------

  /** Every date is valid and each is the day after the one before it. */
  ghost predicate ConsecutiveDays(s: seq<Date>) {
    && (forall i :: 0 <= i < |s| ==> ValidDate(s[i]))
    && (forall i :: 0 <= i < |s| - 1 ==> DayNumber(s[i + 1]) == DayNumber(s[i]) + 1)
  }

  /** Days `from`, `from + 1`, ... of one month. */
  function MonthRun(year: int, month: int, from: int, count: nat): seq<Date> {
    seq(count, k => Date(year, month, from + k))
  }

  lemma MonthRunConsecutive(year: int, month: int, from: int, count: nat)
    requires 1 <= month <= 12 && 1 <= from && from + count - 1 <= DaysInMonth(year, month)
    ensures ConsecutiveDays(MonthRun(year, month, from, count))
  {
  }

  lemma JoinConsecutive(a: seq<Date>, b: seq<Date>)
    requires ConsecutiveDays(a) && ConsecutiveDays(b)
    requires |a| > 0 && |b| > 0 ==> DayNumber(b[0]) == DayNumber(a[|a| - 1]) + 1
    ensures ConsecutiveDays(a + b)
  {
    var s := a + b;
    forall i | 0 <= i < |s|
      ensures ValidDate(s[i])
    {
      if i < |a| {
        assert s[i] == a[i];
      } else {
        assert s[i] == b[i - |a|];
      }
    }
    forall i | 0 <= i < |s| - 1
      ensures DayNumber(s[i + 1]) == DayNumber(s[i]) + 1
    {
      if i + 1 < |a| {
        assert s[i] == a[i] && s[i + 1] == a[i + 1];
      } else if i + 1 == |a| {
        assert s[i] == a[|a| - 1] && s[i + 1] == b[0];
      } else {
        assert s[i] == b[i - |a|] && s[i + 1] == b[i - |a| + 1];
      }
    }
  }

  /** In a run of consecutive days, the `i`-th is `i` days after the first. */
  lemma {:induction false} ConsecutiveOffset(s: seq<Date>, i: nat)
    requires ConsecutiveDays(s) && i < |s|
    ensures DayNumber(s[i]) == DayNumber(s[0]) + i
  {
    if i > 0 {
      ConsecutiveOffset(s, i - 1);
    }
  }

  /** The first of a month follows the last day of the month before, and the first of the
      next month follows its own last day. */
  lemma MonthBoundaries(year: int, month: int)
    requires 1 <= month <= 12
    ensures var prev := PrevMonth(year, month);
      DayNumber(Date(year, month, 1)) == DayNumber(Date(prev.year, prev.month, DaysInMonth(prev.year, prev.month))) + 1
    ensures var next := NextMonth(year, month);
      DayNumber(Date(next.year, next.month, 1)) == DayNumber(Date(year, month, DaysInMonth(year, month))) + 1
  {
    var prev := PrevMonth(year, month);
    var last := Date(prev.year, prev.month, DaysInMonth(prev.year, prev.month));
    NextDayNumber(last);
    assert NextDay(last) == Date(year, month, 1);
    var end := Date(year, month, DaysInMonth(year, month));
    NextDayNumber(end);
    assert NextDay(end) == Date(NextMonth(year, month).year, NextMonth(year, month).month, 1);
  }

  /** Number of days shown before the first of the month: its weekday. */
  function LeadingDays(year: int, month: int): (n: int)
    requires 1 <= month <= 12
    ensures 0 <= n <= 6
  {
    DayOfWeek(Date(year, month, 1))
  }

  /** The 42 dates of the calendar page for `month` of `year`: the tail of the previous month
      filling the first week from Sunday, the whole month, then the head of the next month. */
  function GridDates(year: int, month: int): (r: seq<Date>)
    requires 1 <= month <= 12
    ensures |r| == 42
    ensures ConsecutiveDays(r)
    ensures r[LeadingDays(year, month)] == Date(year, month, 1)
  {
    var lead := LeadingDays(year, month);
    var dim := DaysInMonth(year, month);
    var prev := PrevMonth(year, month);
    var next := NextMonth(year, month);
    var pdim := DaysInMonth(prev.year, prev.month);
    var before := MonthRun(prev.year, prev.month, pdim - lead + 1, lead);
    var during := MonthRun(year, month, 1, dim);
    var after := MonthRun(next.year, next.month, 1, 42 - lead - dim);
    MonthRunConsecutive(prev.year, prev.month, pdim - lead + 1, lead);
    MonthRunConsecutive(year, month, 1, dim);
    MonthRunConsecutive(next.year, next.month, 1, 42 - lead - dim);
    MonthBoundaries(year, month);
    assert |before| > 0 ==> before[|before| - 1] == Date(prev.year, prev.month, pdim);
    JoinConsecutive(before, during);
    var head := before + during;
    assert head[|head| - 1] == during[dim - 1] == Date(year, month, dim);
    JoinConsecutive(head, after);
    assert (head + after)[lead] == during[0];
    before + during + after
  }

  /** The grid's three segments: the previous month's tail, then day 1, 2, ... of the month,
      then day 1, 2, ... of the next month. */
  lemma GridSegments(year: int, month: int)
    requires 1 <= month <= 12
    ensures var r := GridDates(year, month);
            var lead := LeadingDays(year, month);
            var dim := DaysInMonth(year, month);
            var prev := PrevMonth(year, month);
            var next := NextMonth(year, month);
            var pdim := DaysInMonth(prev.year, prev.month);
            && (forall i :: 0 <= i < lead ==> r[i] == Date(prev.year, prev.month, pdim - lead + i + 1))
            && (forall i :: lead <= i < lead + dim ==> r[i] == Date(year, month, i - lead + 1))
            && (forall i :: lead + dim <= i < 42 ==> r[i] == Date(next.year, next.month, i - lead - dim + 1))
            && (forall i :: 0 <= i < 42 ==> year - 1 <= r[i].year <= year + 1)
  {
    var lead := LeadingDays(year, month);
    var dim := DaysInMonth(year, month);
    var prev := PrevMonth(year, month);
    var next := NextMonth(year, month);
    var pdim := DaysInMonth(prev.year, prev.month);
    var before := MonthRun(prev.year, prev.month, pdim - lead + 1, lead);
    var during := MonthRun(year, month, 1, dim);
    var after := MonthRun(next.year, next.month, 1, 42 - lead - dim);
    assert GridDates(year, month) == before + during + after;
  }

  /** Each grid column is one weekday: the date in cell `i` falls on weekday `i % 7`. */
  lemma GridWeekdays(year: int, month: int, i: nat)
    requires 1 <= month <= 12 && i < 42
    ensures DayOfWeek(GridDates(year, month)[i]) == i % 7
  {
    var r := GridDates(year, month);
    var lead := LeadingDays(year, month);
    ConsecutiveOffset(r, i);
    ConsecutiveOffset(r, lead);
    WeekdayShift(DayNumber(r[0]), lead, i);
  }

  lemma WeekdayShift(n: int, lead: int, i: int)
    requires lead == (n + lead + 1) % 7
    ensures (n + i + 1) % 7 == i % 7
  {
    assert (n + 1) % 7 == 0;
  }

  /** `date.toISOString().split('T')[0]` for a date at UTC midnight: "YYYY-MM-DD". */
  function DateString(d: Date): string
    requires d.year >= 0 && d.month >= 0 && d.day >= 0
  {
    ZeroPad(d.year, 4) + "-" + ZeroPad(d.month, 2) + "-" + ZeroPad(d.day, 2)
  }
}

=== FILE: departments_store.dfy ===
/** The departments and positions store of `src/lib/stores/departmentsStore.ts`: department and
    position create / update / delete, the cascade from a department to its positions, the copy
    of a department's positions kept on the department, the filtered list and the statistics.
    Persistence is modelled only where it matters: the departments array an action saves without
    putting it in the state is returned next to the state. */
module DepartmentsStore {
  import opened Wrappers
  import opened Text
  import opened Seqs

  datatype DepartmentStatus = DeptActive | DeptInactive
  datatype PositionLevel = Junior | Mid | Senior | Lead | Manager

  function DepartmentStatusName(s: DepartmentStatus): string {
    match s
    case DeptActive => "active"
    case DeptInactive => "inactive"
  }

  datatype Position = Position(
    id: string,
    departmentId: string,
    title: string,
    level: PositionLevel,
    baseSalary: Option<int>,
    description: Option<string>,
    createdAt: string,
    updatedAt: string)

  datatype Department = Department(
    id: string,
    name: string,
    description: string,
    status: DepartmentStatus,
    managerId: Option<string>,
    managerName: Option<string>,
    location: Option<string>,
    budget: Option<int>,
    positions: seq<Position>,
    employeeCount: int,
    createdAt: string,
    updatedAt: string)

  datatype DepartmentForm = DepartmentForm(
    name: string, description: string, status: DepartmentStatus,
    managerId: Option<string>, location: Option<string>, budget: Option<int>)

  /** A partial department form: only the present fields are merged. */
  datatype DepartmentPatch = DepartmentPatch(
    name: Option<string>, description: Option<string>, status: Option<DepartmentStatus>,
    managerId: Option<string>, location: Option<string>, budget: Option<int>)

  datatype PositionForm = PositionForm(
    title: string, level: PositionLevel, baseSalary: Option<int>, description: Option<string>)

  datatype PositionPatch = PositionPatch(
    title: Option<string>, level: Option<PositionLevel>, baseSalary: Option<int>, description: Option<string>)

  datatype DepartmentsState = DepartmentsState(
    departments: seq<Department>,
    positions: seq<Position>,
    searchQuery: string,
    statusFilter: string,            // "all", "active" or "inactive"
    selectedDepartmentId: Option<string>)

  const AllStatuses: string := "all"

  function DeptWithId(id: string): Department -> bool {
    (d: Department) => d.id == id
  }

  function DeptWithoutId(id: string): Department -> bool {
    (d: Department) => d.id != id
  }

  function PosWithId(id: string): Position -> bool {
    (p: Position) => p.id == id
  }

  function PosWithoutId(id: string): Position -> bool {
    (p: Position) => p.id != id
  }

  function InDepartment(departmentId: string): Position -> bool {
    (p: Position) => p.departmentId == departmentId
  }

  function OutsideDepartment(departmentId: string): Position -> bool {
    (p: Position) => p.departmentId != departmentId
  }

  /** `getPositionsByDepartment`. */
  function PositionsOf(positions: seq<Position>, departmentId: string): (r: seq<Position>)
    ensures Subsequence(r, positions)
    ensures forall i :: 0 <= i < |r| ==> r[i].departmentId == departmentId
    ensures forall j :: 0 <= j < |positions| && positions[j].departmentId == departmentId ==> positions[j] in r
    ensures r == Filter(positions, InDepartment(departmentId))
  {
    FilterIsSubsequence(positions, InDepartment(departmentId));
    Filter(positions, InDepartment(departmentId))
  }

  // ---------------------------------------------------------------------------
  // The store invariant
  // ---------------------------------------------------------------------------

  ghost predicate UniqueDepartmentIds(ds: seq<Department>) {
    forall i, j :: 0 <= i < j < |ds| ==> ds[i].id != ds[j].id
  }

  ghost predicate UniquePositionIds(ps: seq<Position>) {
    forall i, j :: 0 <= i < j < |ps| ==> ps[i].id != ps[j].id
  }

  /** Every department's `positions` copy is exactly the store's positions of that department. */
  ghost predicate PositionsSynced(s: DepartmentsState) {
    forall i :: 0 <= i < |s.departments| ==> s.departments[i].positions == PositionsOf(s.positions, s.departments[i].id)
  }

  ghost predicate Valid(s: DepartmentsState) {
    UniqueDepartmentIds(s.departments) && UniquePositionIds(s.positions) && PositionsSynced(s)
  }

  /** The id is new to the departments and to every position's department reference. */
  predicate FreshDepartmentId(s: DepartmentsState, id: string) {
    && (forall i :: 0 <= i < |s.departments| ==> s.departments[i].id != id)
    && (forall j :: 0 <= j < |s.positions| ==> s.positions[j].departmentId != id)
  }

  predicate FreshPositionId(s: DepartmentsState, id: string) {
    forall j :: 0 <= j < |s.positions| ==> s.positions[j].id != id
  }

  // ---------------------------------------------------------------------------
  // Departments
  // ---------------------------------------------------------------------------

  /** `createDepartment`: appends a department with the form's fields, no positions and no
      employees. */
  function CreateDepartment(s: DepartmentsState, form: DepartmentForm, freshId: string, now: string): (r: (DepartmentsState, Department))
    ensures r.0 == s.(departments := s.departments + [r.1])
    ensures r.1.id == freshId && r.1.positions == [] && r.1.employeeCount == 0
    ensures r.1.name == form.name && r.1.description == form.description && r.1.status == form.status
    ensures r.1.managerName.None? && r.1.managerId == form.managerId && r.1.location == form.location && r.1.budget == form.budget
    ensures r.1.createdAt == now && r.1.updatedAt == now
  {
    var d := Department(freshId, form.name, form.description, form.status, form.managerId, None,
                        form.location, form.budget, [], 0, now, now);
    (s.(departments := s.departments + [d]), d)
  }

  lemma CreateDepartmentKeepsValid(s: DepartmentsState, form: DepartmentForm, freshId: string, now: string)
    requires Valid(s) && FreshDepartmentId(s, freshId)
    ensures Valid(CreateDepartment(s, form, freshId, now).0)
  {
    FilterDropsAll(s.positions, InDepartment(freshId));
  }

  /** `{...department, ...data}` for the fields present in the patch. */
  function MergeDepartment(d: Department, patch: DepartmentPatch, now: string): (r: Department)
    ensures r.id == d.id && r.positions == d.positions && r.employeeCount == d.employeeCount
    ensures r.createdAt == d.createdAt && r.updatedAt == now
    ensures r.managerName == d.managerName
    ensures r.name == (if patch.name.Some? then patch.name.value else d.name)
    ensures r.description == (if patch.description.Some? then patch.description.value else d.description)
    ensures r.status == (if patch.status.Some? then patch.status.value else d.status)
    ensures r.managerId == (if patch.managerId.Some? then patch.managerId else d.managerId)
    ensures r.location == (if patch.location.Some? then patch.location else d.location)
    ensures r.budget == (if patch.budget.Some? then patch.budget else d.budget)
  {
    d.(name := patch.name.GetOr(d.name),
       description := patch.description.GetOr(d.description),
       status := patch.status.GetOr(d.status),
       managerId := patch.managerId.OrElse(d.managerId),
       location := patch.location.OrElse(d.location),
       budget := patch.budget.OrElse(d.budget),
       updatedAt := now)
  }

  /** `updateDepartment`: merges the patch into the first department with the id; `None` and no
      change when there is none. */
  function UpdateDepartment(s: DepartmentsState, id: string, patch: DepartmentPatch, now: string): (r: (DepartmentsState, Option<Department>))
    ensures r.1.None? <==> FindIndex(s.departments, DeptWithId(id)).None?
    ensures r.1.None? ==> r.0 == s
    ensures r.1.Some? ==> var i := FindIndex(s.departments, DeptWithId(id)).value;
              && r.1.value == MergeDepartment(s.departments[i], patch, now)
              && r.0 == s.(departments := s.departments[i := r.1.value])
  {
    match FindIndex(s.departments, DeptWithId(id))
    case None => (s, None)
    case Some(i) =>
      var d := MergeDepartment(s.departments[i], patch, now);
      (s.(departments := s.departments[i := d]), Some(d))
  }

  lemma UpdateDepartmentKeepsValid(s: DepartmentsState, id: string, patch: DepartmentPatch, now: string)
    requires Valid(s)
    ensures Valid(UpdateDepartment(s, id, patch, now).0)
  {
  }

  /** `deleteDepartment`: removes the department and, in cascade, its positions; always true. */
  function DeleteDepartment(s: DepartmentsState, id: string): (r: (DepartmentsState, bool))
    ensures r.1
    ensures r.0.departments == Filter(s.departments, DeptWithoutId(id))
    ensures r.0.positions == Filter(s.positions, OutsideDepartment(id))
    ensures r.0.(departments := s.departments, positions := s.positions) == s
  {
    (s.(departments := Filter(s.departments, DeptWithoutId(id)),
        positions := Filter(s.positions, OutsideDepartment(id))), true)
  }

  /** The cascade removes exactly the department's positions: none of them is left, and every
      position of another department stays, in order. */
  lemma DeleteDepartmentCascade(s: DepartmentsState, id: string)
    ensures var r := DeleteDepartment(s, id).0;
            && (forall j :: 0 <= j < |r.positions| ==> r.positions[j].departmentId != id)
            && (forall j :: 0 <= j < |s.positions| && s.positions[j].departmentId != id ==> s.positions[j] in r.positions)
            && Subsequence(r.positions, s.positions)
            && (forall i :: 0 <= i < |r.departments| ==> r.departments[i].id != id)
  {
    FilterIsSubsequence(s.positions, OutsideDepartment(id));
  }

  /** Sub-lists of unique-id lists keep unique ids. */
  lemma {:induction false} FilterUniqueDepartments(ds: seq<Department>, p: Department -> bool)
    requires UniqueDepartmentIds(ds)
    ensures UniqueDepartmentIds(Filter(ds, p))
  {
    if |ds| > 0 {
      FilterUniqueDepartments(ds[1..], p);
      var rest := Filter(ds[1..], p);
      assert forall k :: 0 <= k < |rest| ==> rest[k] in ds[1..];
    }
  }

  lemma {:induction false} FilterUniquePositions(ps: seq<Position>, p: Position -> bool)
    requires UniquePositionIds(ps)
    ensures UniquePositionIds(Filter(ps, p))
  {
    if |ps| > 0 {
      FilterUniquePositions(ps[1..], p);
      var rest := Filter(ps[1..], p);
      assert forall k :: 0 <= k < |rest| ==> rest[k] in ps[1..];
    }
  }

  lemma DeleteDepartmentKeepsValid(s: DepartmentsState, id: string)
    requires Valid(s)
    ensures Valid(DeleteDepartment(s, id).0)
  {
    var r := DeleteDepartment(s, id).0;
    FilterUniqueDepartments(s.departments, DeptWithoutId(id));
    FilterUniquePositions(s.positions, OutsideDepartment(id));
    forall i | 0 <= i < |r.departments|
      ensures r.departments[i].positions == PositionsOf(r.positions, r.departments[i].id)
    {
      var d := r.departments[i];
      var both := (p: Position) => p.departmentId != id && p.departmentId == d.id;
      FilterFusion(s.positions, OutsideDepartment(id), InDepartment(d.id), both);
      FilterCongruent(s.positions, both, InDepartment(d.id));
    }
  }

  // ---------------------------------------------------------------------------
  // Positions
  // ---------------------------------------------------------------------------

  /** What a position action yields: the state, the departments array it saves when that array
      is not put in the state, and the position it returns. */
  datatype PositionOutcome = PositionOutcome(state: DepartmentsState, persisted: Option<seq<Department>>, position: Option<Position>)

  /** The departments with the first department of `departmentId` given its positions anew. */
  function Resync(departments: seq<Department>, positions: seq<Position>, departmentId: string, now: string): (r: seq<Department>)
    ensures |r| == |departments|
    ensures FindIndex(departments, DeptWithId(departmentId)).None? ==> r == departments
    ensures FindIndex(departments, DeptWithId(departmentId)).Some? ==>
              var k := FindIndex(departments, DeptWithId(departmentId)).value;
              r == departments[k := departments[k].(positions := PositionsOf(positions, departmentId), updatedAt := now)]
  {
    match FindIndex(departments, DeptWithId(departmentId))
    case None => departments
    case Some(k) => departments[k := departments[k].(positions := PositionsOf(positions, departmentId), updatedAt := now)]
  }

  /** `createPosition` as written: appends the position (whether or not its department exists)
      and saves the resynced departments, but leaves the state's departments as they were. */
  function CreatePosition(s: DepartmentsState, departmentId: string, form: PositionForm, freshId: string, now: string): (r: PositionOutcome)
    ensures r.position.Some?
    ensures var p := r.position.value;
            && p.id == freshId && p.departmentId == departmentId && p.title == form.title && p.level == form.level
            && p.baseSalary == form.baseSalary && p.description == form.description
            && p.createdAt == now && p.updatedAt == now
            && r.state == s.(positions := s.positions + [p])
    ensures r.persisted.Some? <==> FindIndex(s.departments, DeptWithId(departmentId)).Some?
    ensures r.persisted.Some? ==> r.persisted.value == Resync(s.departments, r.state.positions, departmentId, now)
  {
    var p := Position(freshId, departmentId, form.title, form.level, form.baseSalary, form.description, now, now);
    var positions := s.positions + [p];
    var persisted := if FindIndex(s.departments, DeptWithId(departmentId)).Some?
                     then Some(Resync(s.departments, positions, departmentId, now)) else None;
    PositionOutcome(s.(positions := positions), persisted, Some(p))
  }

  /** `createPosition` with the resynced departments kept in the state, as `deletePosition` does. */
  function CreatePositionSynced(s: DepartmentsState, departmentId: string, form: PositionForm, freshId: string, now: string): (r: PositionOutcome)
    ensures var w := CreatePosition(s, departmentId, form, freshId, now);
            && r.position == w.position && r.state.positions == w.state.positions
            && r.state.departments == Resync(s.departments, w.state.positions, departmentId, now)
            && (w.persisted.Some? ==> r.state.departments == w.persisted.value)
  {
    var w := CreatePosition(s, departmentId, form, freshId, now);
    PositionOutcome(w.state.(departments := Resync(s.departments, w.state.positions, departmentId, now)), None, w.position)
  }

  /** Resyncing one department after a change that touched only its positions restores the
      invariant. */
  lemma ResyncRestoresSync(s: DepartmentsState, positions: seq<Position>, departmentId: string, now: string)
    requires UniqueDepartmentIds(s.departments)
    requires forall i :: 0 <= i < |s.departments| && s.departments[i].id != departmentId ==>
               s.departments[i].positions == PositionsOf(positions, s.departments[i].id)
    ensures PositionsSynced(s.(departments := Resync(s.departments, positions, departmentId, now), positions := positions))
  {
  }

  /** Positions of a department other than `departmentId` are unchanged by appending a position
      of `departmentId`. */
  lemma AppendOtherDepartment(positions: seq<Position>, p: Position, other: string)
    requires p.departmentId != other
    ensures PositionsOf(positions + [p], other) == PositionsOf(positions, other)
  {
    FilterAppend(positions, [p], InDepartment(other));
  }

  lemma CreatePositionSyncedKeepsValid(s: DepartmentsState, departmentId: string, form: PositionForm, freshId: string, now: string)
    requires Valid(s) && FreshPositionId(s, freshId)
    ensures Valid(CreatePositionSynced(s, departmentId, form, freshId, now).state)
  {
    var r := CreatePositionSynced(s, departmentId, form, freshId, now);
    var p := r.position.value;
    forall i | 0 <= i < |s.departments| && s.departments[i].id != departmentId
      ensures s.departments[i].positions == PositionsOf(r.state.positions, s.departments[i].id)
    {
      AppendOtherDepartment(s.positions, p, s.departments[i].id);
    }
    ResyncRestoresSync(s, r.state.positions, departmentId, now);
  }

  /** As written, creating a position in an existing department leaves that department's
      `positions` copy stale: the new position is in the store but not on the department. */
  lemma CreatePositionLeavesStaleCopy()
    ensures var d := Department("d1", "Ops", "", DeptActive, None, None, None, None, [], 0, "t0", "t0");
            var s := DepartmentsState([d], [], "", AllStatuses, None);
            var form := PositionForm("Clerk", Junior, None, None);
            && Valid(s)
            && !PositionsSynced(CreatePosition(s, "d1", form, "p1", "t1").state)
            && Valid(CreatePositionSynced(s, "d1", form, "p1", "t1").state)
  {
    var d := Department("d1", "Ops", "", DeptActive, None, None, None, None, [], 0, "t0", "t0");
    var s := DepartmentsState([d], [], "", AllStatuses, None);
    var form := PositionForm("Clerk", Junior, None, None);
    var r := CreatePosition(s, "d1", form, "p1", "t1");
    assert |PositionsOf(r.state.positions, "d1")| == 1 by {
      assert r.state.positions[0] in PositionsOf(r.state.positions, "d1");
    }
    CreatePositionSyncedKeepsValid(s, "d1", form, "p1", "t1");
  }

  /** `{...position, ...data}` for the fields present; id and department cannot change. */
  function MergePosition(p: Position, patch: PositionPatch, now: string): (r: Position)
    ensures r.id == p.id && r.departmentId == p.departmentId && r.createdAt == p.createdAt && r.updatedAt == now
    ensures r.title == (if patch.title.Some? then patch.title.value else p.title)
    ensures r.level == (if patch.level.Some? then patch.level.value else p.level)
    ensures r.baseSalary == (if patch.baseSalary.Some? then patch.baseSalary else p.baseSalary)
    ensures r.description == (if patch.description.Some? then patch.description else p.description)
  {
    p.(title := patch.title.GetOr(p.title),
       level := patch.level.GetOr(p.level),
       baseSalary := patch.baseSalary.OrElse(p.baseSalary),
       description := patch.description.OrElse(p.description),
       updatedAt := now)
  }

  /** `updatePosition` as written: merges into the first position with the id and saves the
      resynced departments, but leaves the state's departments as they were. */
  function UpdatePosition(s: DepartmentsState, id: string, patch: PositionPatch, now: string): (r: PositionOutcome)
    ensures r.position.None? <==> FindIndex(s.positions, PosWithId(id)).None?
    ensures r.position.None? ==> r.state == s && r.persisted.None?
    ensures r.position.Some? ==> var i := FindIndex(s.positions, PosWithId(id)).value;
              && r.position.value == MergePosition(s.positions[i], patch, now)
              && r.state == s.(positions := s.positions[i := r.position.value])
              && (r.persisted.Some? <==> FindIndex(s.departments, DeptWithId(r.position.value.departmentId)).Some?)
              && (r.persisted.Some? ==>
                    r.persisted.value == Resync(s.departments, r.state.positions, r.position.value.departmentId, now))
  {
    match FindIndex(s.positions, PosWithId(id))
    case None => PositionOutcome(s, None, None)
    case Some(i) =>
      var p := MergePosition(s.positions[i], patch, now);
      var positions := s.positions[i := p];
      var persisted := if FindIndex(s.departments, DeptWithId(p.departmentId)).Some?
                       then Some(Resync(s.departments, positions, p.departmentId, now)) else None;
      PositionOutcome(s.(positions := positions), persisted, Some(p))
  }

  /** `updatePosition` with the resynced departments kept in the state. */
  function UpdatePositionSynced(s: DepartmentsState, id: string, patch: PositionPatch, now: string): (r: PositionOutcome)
    ensures var w := UpdatePosition(s, id, patch, now);
            && r.position == w.position && r.state.positions == w.state.positions
            && (w.position.None? ==> r.state == s)
            && (w.position.Some? ==>
                  r.state.departments == Resync(s.departments, w.state.positions, w.position.value.departmentId, now))
            && (w.persisted.Some? ==> r.state.departments == w.persisted.value)
  {
    var w := UpdatePosition(s, id, patch, now);
    if w.position.None? then w
    else PositionOutcome(w.state.(departments := Resync(s.departments, w.state.positions, w.position.value.departmentId, now)),
                         None, w.position)
  }

  lemma UpdatePositionSyncedKeepsValid(s: DepartmentsState, id: string, patch: PositionPatch, now: string)
    requires Valid(s)
    ensures Valid(UpdatePositionSynced(s, id, patch, now).state)
  {
    var r := UpdatePositionSynced(s, id, patch, now);
    if r.position.Some? {
      var i := FindIndex(s.positions, PosWithId(id)).value;
      var p := r.position.value;
      forall k | 0 <= k < |s.departments| && s.departments[k].id != p.departmentId
        ensures s.departments[k].positions == PositionsOf(r.state.positions, s.departments[k].id)
      {
        FilterUpdateDropped(s.positions, i, p, InDepartment(s.departments[k].id));
      }
      ResyncRestoresSync(s, r.state.positions, p.departmentId, now);
    }
  }

  /** As written, retitling a position leaves the old title on its department's copy. */
  lemma UpdatePositionLeavesStaleCopy()
    ensures var p := Position("p1", "d1", "Clerk", Junior, None, None, "t0", "t0");
            var d := Department("d1", "Ops", "", DeptActive, None, None, None, None, [p], 0, "t0", "t0");
            var s := DepartmentsState([d], [p], "", AllStatuses, None);
            var patch := PositionPatch(Some("Senior Clerk"), None, None, None);
            && Valid(s)
            && UpdatePosition(s, "p1", patch, "t1").state.departments[0].positions[0].title == "Clerk"
            && !PositionsSynced(UpdatePosition(s, "p1", patch, "t1").state)
  {
    var p := Position("p1", "d1", "Clerk", Junior, None, None, "t0", "t0");
    var d := Department("d1", "Ops", "", DeptActive, None, None, None, None, [p], 0, "t0", "t0");
    var s := DepartmentsState([d], [p], "", AllStatuses, None);
    assert PositionsOf(s.positions, "d1") == [p] by {
      FilterKeepsAll(s.positions, InDepartment("d1"));
    }
    var patch := PositionPatch(Some("Senior Clerk"), None, None, None);
    var r := UpdatePosition(s, "p1", patch, "t1");
    assert PositionsOf(r.state.positions, "d1") == r.state.positions by {
      FilterKeepsAll(r.state.positions, InDepartment("d1"));
    }
  }

  /** `deletePosition`: removes every position with the id; when the position existed and its
      department exists, that department's copy is resynced in the state. Always true. */
  function DeletePosition(s: DepartmentsState, id: string, now: string): (r: (DepartmentsState, bool))
    ensures r.1
    ensures r.0.positions == Filter(s.positions, PosWithoutId(id))
    ensures r.0.(departments := s.departments, positions := s.positions) == s
    ensures Find(s.positions, PosWithId(id)).None? ==> r.0.departments == s.departments
    ensures Find(s.positions, PosWithId(id)).Some? ==>
              r.0.departments == Resync(s.departments, r.0.positions, Find(s.positions, PosWithId(id)).value.departmentId, now)
  {
    var positions := Filter(s.positions, PosWithoutId(id));
    match Find(s.positions, PosWithId(id))
    case None => (s.(positions := positions), true)
    case Some(p) => (s.(departments := Resync(s.departments, positions, p.departmentId, now), positions := positions), true)
  }

  /** With unique position ids, deleting a position keeps every department's copy in sync. */
  lemma DeletePositionKeepsValid(s: DepartmentsState, id: string, now: string)
    requires Valid(s)
    ensures Valid(DeletePosition(s, id, now).0)
  {
    var r := DeletePosition(s, id, now).0;
    FilterUniquePositions(s.positions, PosWithoutId(id));
    match FindIndex(s.positions, PosWithId(id))
    case None =>
      FilterKeepsAll(s.positions, PosWithoutId(id));
    case Some(j) =>
      var p := s.positions[j];
      forall k | 0 <= k < |s.departments| && s.departments[k].id != p.departmentId
        ensures s.departments[k].positions == PositionsOf(r.positions, s.departments[k].id)
      {
        var other := s.departments[k].id;
        var both := (q: Position) => q.id != id && q.departmentId == other;
        FilterFusion(s.positions, PosWithoutId(id), InDepartment(other), both);
        FilterCongruentOn(s.positions, both, InDepartment(other));
      }
      ResyncRestoresSync(s, r.positions, p.departmentId, now);
  }

  /** In a valid store, a department's copy is what `getPositionsByDepartment` returns. */
  lemma CopyMatchesLookup(s: DepartmentsState, i: nat)
    requires Valid(s) && i < |s.departments|
    ensures s.departments[i].positions == PositionsOf(s.positions, s.departments[i].id)
  {
  }

  // ---------------------------------------------------------------------------
  // Filtering and statistics
  // ---------------------------------------------------------------------------

  predicate OptionHit(o: Option<string>, query: string) {
    o.Some? && Includes(Lower(o.value), query)
  }

  /** Name, description, manager name or location contains the (lowercased) query. */
  predicate DepartmentHit(d: Department, query: string) {
    Includes(Lower(d.name), query) || Includes(Lower(d.description), query)
    || OptionHit(d.managerName, query) || OptionHit(d.location, query)
  }

  function StatusFilterStage(statusFilter: string): Department -> bool {
    (d: Department) => statusFilter == AllStatuses || DepartmentStatusName(d.status) == statusFilter
  }

  function SearchFilterStage(query: string): Department -> bool {
    (d: Department) => IsBlank(query) || DepartmentHit(d, Lower(query))
  }

  /** The reference condition: a department is listed when it passes both stages. */
  function KeepDepartment(s: DepartmentsState): Department -> bool {
    (d: Department) => StatusFilterStage(s.statusFilter)(d) && SearchFilterStage(s.searchQuery)(d)
  }

  /** `filteredDepartmentsNew`: the status filter, then the search when the query is not blank. */
  function FilteredDepartments(s: DepartmentsState): (r: seq<Department>)
    ensures Subsequence(r, s.departments)
    ensures forall i :: 0 <= i < |r| ==> KeepDepartment(s)(r[i])
    ensures forall j :: 0 <= j < |s.departments| && KeepDepartment(s)(s.departments[j]) ==> s.departments[j] in r
  {
    var a := if s.statusFilter != AllStatuses then Filter(s.departments, StatusFilterStage(s.statusFilter)) else s.departments;
    var r := if !IsBlank(s.searchQuery) then Filter(a, SearchFilterStage(s.searchQuery)) else a;
    FilteredIsOneFilter(s);
    FilterIsSubsequence(s.departments, KeepDepartment(s));
    r
  }

  /** Skipping a stage is filtering by a condition every department passes. */
  lemma FilteredIsOneFilter(s: DepartmentsState)
    ensures var a := if s.statusFilter != AllStatuses then Filter(s.departments, StatusFilterStage(s.statusFilter)) else s.departments;
            var r := if !IsBlank(s.searchQuery) then Filter(a, SearchFilterStage(s.searchQuery)) else a;
            r == Filter(s.departments, KeepDepartment(s))
  {
    var a := Filter(s.departments, StatusFilterStage(s.statusFilter));
    if s.statusFilter == AllStatuses { FilterKeepsAll(s.departments, StatusFilterStage(s.statusFilter)); }
    if IsBlank(s.searchQuery) { FilterKeepsAll(a, SearchFilterStage(s.searchQuery)); }
    FilterFusion(s.departments, StatusFilterStage(s.statusFilter), SearchFilterStage(s.searchQuery), KeepDepartment(s));
  }

  function SetSearchQuery(s: DepartmentsState, query: string): (r: DepartmentsState)
    ensures r.searchQuery == query && r.(searchQuery := s.searchQuery) == s
  {
    s.(searchQuery := query)
  }

  function SetStatusFilter(s: DepartmentsState, status: string): (r: DepartmentsState)
    ensures r.statusFilter == status && r.(statusFilter := s.statusFilter) == s
  {
    s.(statusFilter := status)
  }

  /** `clearFilters`: empty query, all statuses. */
  function ClearFilters(s: DepartmentsState): (r: DepartmentsState)
    ensures r.searchQuery == "" && r.statusFilter == AllStatuses
    ensures r.(searchQuery := s.searchQuery, statusFilter := s.statusFilter) == s
    ensures FilteredDepartments(r) == s.departments
  {
    BlankIffAllSpace("");
    s.(searchQuery := "", statusFilter := AllStatuses)
  }

  datatype DepartmentStats = DepartmentStats(
    total: nat, active: nat, inactive: int, totalEmployees: int, totalBudget: int, totalPositions: nat)

  function IsActive(d: Department): bool { d.status == DeptActive }
  function IsInactive(d: Department): bool { d.status == DeptInactive }
  function EmployeesOf(d: Department): int { d.employeeCount }
  /** `d.budget || 0`. */
  function BudgetOf(d: Department): int { d.budget.GetOr(0) }

  /** `departmentStatsNew`. */
  function Stats(s: DepartmentsState): (r: DepartmentStats)
    ensures r.total == |s.departments| && r.totalPositions == |s.positions|
    ensures r.active + r.inactive == r.total
    ensures r.active == |Filter(s.departments, IsActive)| && r.inactive == |Filter(s.departments, IsInactive)|
    ensures r.totalEmployees == Sum(s.departments, EmployeesOf) && r.totalBudget == Sum(s.departments, BudgetOf)
  {
    var active := |Filter(s.departments, IsActive)|;
    FilterComplement(s.departments, IsActive, IsInactive);
    DepartmentStats(|s.departments|, active, |s.departments| - active,
                    Sum(s.departments, EmployeesOf), Sum(s.departments, BudgetOf), |s.positions|)
  }

  /** A department without a budget adds nothing to the total budget; one with a budget adds it. */
  lemma BudgetOfNewDepartment(s: DepartmentsState, form: DepartmentForm, freshId: string, now: string)
    ensures var r := CreateDepartment(s, form, freshId, now).0;
            Stats(r).totalBudget == Stats(s).totalBudget + (if form.budget.Some? then form.budget.value else 0)
            && Stats(r).totalEmployees == Stats(s).totalEmployees
            && Stats(r).total == Stats(s).total + 1
  {
    var r := CreateDepartment(s, form, freshId, now);
    SumAppend(s.departments, r.1, BudgetOf);
    SumAppend(s.departments, r.1, EmployeesOf);
  }

  /** No departments give all-zero statistics except for the positions, and one more department
      adds one to the total and to its own status's count, its employee count to the employees,
      and its budget, or nothing without one, to the budget. */
  lemma {:induction false} StatsAppend(s: DepartmentsState, d: Department)
    ensures s.departments == [] ==> Stats(s) == DepartmentStats(0, 0, 0, 0, 0, |s.positions|)
    ensures var a := Stats(s);
            var b := Stats(s.(departments := s.departments + [d]));
            && b.total == a.total + 1
            && b.active == a.active + (if d.status == DeptActive then 1 else 0)
            && b.inactive == a.inactive + (if d.status == DeptInactive then 1 else 0)
            && b.totalEmployees == a.totalEmployees + d.employeeCount
            && b.totalBudget == a.totalBudget + (if d.budget.Some? then d.budget.value else 0)
            && b.totalPositions == a.totalPositions
  {
    FilterAppendOne(s.departments, d, IsActive);
    FilterAppendOne(s.departments, d, IsInactive);
    SumAppend(s.departments, d, EmployeesOf);
    SumAppend(s.departments, d, BudgetOf);
  }

  /** The view settings narrow the list but never touch the data or the statistics. */
  lemma ViewSettingsKeepStats(s: DepartmentsState, query: string, status: string)
    ensures Stats(SetSearchQuery(s, query)) == Stats(s) && Stats(SetStatusFilter(s, status)) == Stats(s)
    ensures Stats(ClearFilters(s)) == Stats(s)
    ensures Subsequence(FilteredDepartments(SetStatusFilter(SetSearchQuery(s, query), status)), s.departments)
  {
  }
}

=== FILE: employees_store.dfy ===
/** The employee list store of `src/lib/stores/employeesStore.ts`: the filter pipeline, slice
    pagination with page clamping, soft delete / restore / permanent delete, document removal,
    and the statistics over the list. Timestamps and fresh ids are parameters. */
module EmployeesStore {
  import opened Wrappers
  import opened Text
  import opened Seqs
  import opened Order

  datatype EmployeeStatus = Active | OnLeave | Resigned
  datatype EmploymentType = FullTime | PartTime | Contract
  datatype DocumentType = IdCard | ContractDoc | Certificate | OtherDoc

  /** The status as the filter compares it. */
  function StatusName(s: EmployeeStatus): string {
    match s
    case Active => "active"
    case OnLeave => "on-leave"
    case Resigned => "resigned"
  }

  datatype EmployeeDocument = EmployeeDocument(
    id: string,
    employeeId: string,
    name: string,
    docType: DocumentType,
    url: string,
    uploadedAt: string,
    fileSize: int,
    mimeType: string)

  datatype Employee = Employee(
    id: string,
    firstName: string,
    lastName: string,
    email: string,
    phone: string,
    address: string,
    dateOfBirth: string,
    profilePicture: Option<string>,
    department: string,
    jobTitle: string,
    employmentType: EmploymentType,
    startDate: string,
    salary: int,
    status: EmployeeStatus,
    createdAt: string,
    updatedAt: string,
    deletedAt: Option<string>,
    isDeleted: bool,
    documents: seq<EmployeeDocument>)

  /** The sentinel for "no department / status filter". */
  const All: string := "all"

  datatype Filters = Filters(searchQuery: string, department: string, status: string, showDeleted: bool)

  const InitialFilters := Filters("", All, All, false)

  /** Page sizes are positive (the store starts at 10). */
  type PageSize = n: int | n > 0 witness 10

  datatype Pagination = Pagination(currentPage: int, pageSize: PageSize, totalItems: int, totalPages: int)

  datatype EmployeesState = EmployeesState(employees: seq<Employee>, filters: Filters, pagination: Pagination)

  // ---------------------------------------------------------------------------
  // Filtering
  // ---------------------------------------------------------------------------

  /** Some name, e-mail, job title or department contains the (already lowercased) query. */
  predicate SearchHit(e: Employee, query: string) {
    || Includes(Lower(e.firstName), query)
    || Includes(Lower(e.lastName), query)
    || Includes(Lower(e.email), query)
    || Includes(Lower(e.jobTitle), query)
    || Includes(Lower(e.department), query)
  }

  function VisibleStage(f: Filters): Employee -> bool {
    (e: Employee) => f.showDeleted || !e.isDeleted
  }

  function SearchStage(f: Filters): Employee -> bool {
    (e: Employee) => IsBlank(f.searchQuery) || SearchHit(e, Lower(f.searchQuery))
  }

  function DepartmentStage(f: Filters): Employee -> bool {
    (e: Employee) => f.department == All || e.department == f.department
  }

  function StatusStage(f: Filters): Employee -> bool {
    (e: Employee) => f.status == All || StatusName(e.status) == f.status
  }

  /** The reference condition: an employee is listed when it passes all four filters. The
      search uses the lowercased query as typed; only the blank test trims it. */
  function Keep(f: Filters): Employee -> bool {
    (e: Employee) => VisibleStage(f)(e) && SearchStage(f)(e) && DepartmentStage(f)(e) && StatusStage(f)(e)
  }

  /** `filteredEmployees`: the four filters applied one after the other, each only when set. */
  function Filtered(employees: seq<Employee>, f: Filters): (r: seq<Employee>)
    ensures Subsequence(r, employees)
    ensures forall i :: 0 <= i < |r| ==> Keep(f)(r[i])
    ensures forall j :: 0 <= j < |employees| && Keep(f)(employees[j]) ==> employees[j] in r
  {
    var a := if !f.showDeleted then Filter(employees, VisibleStage(f)) else employees;
    var b := if !IsBlank(f.searchQuery) then Filter(a, SearchStage(f)) else a;
    var c := if f.department != All then Filter(b, DepartmentStage(f)) else b;
    var r := if f.status != All then Filter(c, StatusStage(f)) else c;
    FilteredIsOneFilter(employees, f);
    FilterIsSubsequence(employees, Keep(f));
    r
  }

  /** Skipping a stage is filtering by a condition every employee passes, so the staged
      pipeline is one filter by the conjunction. */
  lemma FilteredIsOneFilter(employees: seq<Employee>, f: Filters)
    ensures var a := if !f.showDeleted then Filter(employees, VisibleStage(f)) else employees;
            var b := if !IsBlank(f.searchQuery) then Filter(a, SearchStage(f)) else a;
            var c := if f.department != All then Filter(b, DepartmentStage(f)) else b;
            var r := if f.status != All then Filter(c, StatusStage(f)) else c;
            r == Filter(employees, Keep(f))
  {
    var a := Filter(employees, VisibleStage(f));
    if f.showDeleted { FilterKeepsAll(employees, VisibleStage(f)); }
    var b := Filter(a, SearchStage(f));
    if IsBlank(f.searchQuery) { FilterKeepsAll(a, SearchStage(f)); }
    var c := Filter(b, DepartmentStage(f));
    if f.department == All { FilterKeepsAll(b, DepartmentStage(f)); }
    if f.status == All { FilterKeepsAll(c, StatusStage(f)); }
    var vs := (e: Employee) => VisibleStage(f)(e) && SearchStage(f)(e);
    var vsd := (e: Employee) => vs(e) && DepartmentStage(f)(e);
    FilterFusion(employees, VisibleStage(f), SearchStage(f), vs);
    FilterFusion(employees, vs, DepartmentStage(f), vsd);
    FilterFusion(employees, vsd, StatusStage(f), Keep(f));
  }

  /** Without "show deleted", no soft-deleted employee is listed. */
  lemma DeletedHidden(employees: seq<Employee>, f: Filters, i: nat)
    requires !f.showDeleted && i < |Filtered(employees, f)|
    ensures !Filtered(employees, f)[i].isDeleted
  {
  }

  // ---------------------------------------------------------------------------
  // Pagination
  // ---------------------------------------------------------------------------

  /** `Array.prototype.slice` index normalisation: negative counts from the end, then clamp. */
  function SliceIndex(i: int, len: nat): (r: nat)
    ensures r <= len
    ensures 0 <= i ==> r == if i < len then i else len
  {
    if i < 0 then (if len + i < 0 then 0 else len + i) else if i < len then i else len
  }

  /** `s.slice(start, end)`. */
  function Slice<T>(s: seq<T>, start: int, end: int): (r: seq<T>)
    ensures 0 <= start <= end ==> |r| <= end - start
    ensures 0 <= start <= end <= |s| ==> r == s[start..end]
  {
    var a := SliceIndex(start, |s|);
    var b := SliceIndex(end, |s|);
    if a < b then s[a..b] else []
  }

  /** Any slice spans at most `end - start` elements, whatever the signs. */
  lemma SliceLength<T>(s: seq<T>, start: int, end: int)
    requires start <= end
    ensures |Slice(s, start, end)| <= end - start
  {
  }

  /** A slice from a non-negative start is the part of that window the list has. */
  lemma SliceFrom<T>(s: seq<T>, start: int, size: nat)
    requires start >= 0
    ensures var lo := if start < |s| then start else |s|;
            var hi := if start + size < |s| then start + size else |s|;
            Slice(s, start, start + size) == s[lo..hi]
  {
  }

  /** The position of the first employee on the current page: `(currentPage - 1) * pageSize`. */
  function PageStart(p: Pagination): (r: int)
    ensures p.currentPage >= 1 ==> r >= 0
    ensures p.currentPage >= 1 ==> r + p.pageSize == p.currentPage * p.pageSize
  {
    if p.currentPage >= 1 then MulLeftMono(0, p.currentPage - 1, p.pageSize); (p.currentPage - 1) * p.pageSize
    else (p.currentPage - 1) * p.pageSize
  }

  /** `paginatedEmployees`: the current page of the filtered list. From page 1 on it is the
      run of positions `[(page - 1) * size, page * size)` that the list has. */
  function Page(filtered: seq<Employee>, p: Pagination): (r: seq<Employee>)
    ensures |r| <= p.pageSize
    ensures p.currentPage >= 1 ==>
              var lo := if PageStart(p) < |filtered| then PageStart(p) else |filtered|;
              var hi := if PageStart(p) + p.pageSize < |filtered| then PageStart(p) + p.pageSize else |filtered|;
              r == filtered[lo..hi]
  {
    var start := PageStart(p);
    SliceLength(filtered, start, start + p.pageSize);
    if p.currentPage >= 1 then
      SliceFrom(filtered, start, p.pageSize);
      Slice(filtered, start, start + p.pageSize)
    else
      Slice(filtered, start, start + p.pageSize)
  }

  /** `pages` is `Math.ceil(items / size)`: the fewest pages of `size` that hold `items`. */
  ghost predicate IsPageCount(items: int, size: PageSize, pages: int) {
    pages >= 0 && pages * size >= items && (pages > 0 ==> (pages - 1) * size < items)
  }

  /** Some items need at least one page. */
  lemma PageCountPositive(items: int, size: PageSize, pages: int)
    requires IsPageCount(items, size, pages) && items > 0
    ensures pages >= 1
  {
  }

  /** `Math.ceil(items / size)` for non-negative item counts. */
  function PageCount(items: nat, size: PageSize): (n: nat)
    ensures IsPageCount(items, size, n)
  {
    (items + size - 1) / size
  }

  /** Every element of the list is on page `k / size + 1`, at `k % size`. */
  lemma PagesCover(filtered: seq<Employee>, p: Pagination, k: nat)
    requires k < |filtered|
    ensures var q := p.(currentPage := k / p.pageSize + 1);
            var page := Page(filtered, q);
            k % p.pageSize < |page| && page[k % p.pageSize] == filtered[k]
  {
    var size: int := p.pageSize;
    var m := k % size;
    var start := (k / size + 1 - 1) * size;
    assert start + m == k by {
      assert start == (k / size) * size;
    }
    SliceAt(filtered, start, start + size, m);
  }

  /** The `m`-th element of a slice is the `start + m`-th of the list, while both exist. */
  lemma SliceAt<T>(s: seq<T>, start: int, end: int, m: nat)
    requires 0 <= start && start + m < |s| && start + m < end
    ensures m < |Slice(s, start, end)| && Slice(s, start, end)[m] == s[start + m]
  {
  }

  /** `updatePagination`: recounts the filtered list and pulls the current page back to the
      last page (page 1 when there are none). */
  function UpdatePagination(s: EmployeesState): (r: EmployeesState)
    ensures r.employees == s.employees && r.filters == s.filters
    ensures r.pagination.pageSize == s.pagination.pageSize
    ensures r.pagination.totalItems == |Filtered(s.employees, s.filters)|
    ensures IsPageCount(r.pagination.totalItems, r.pagination.pageSize, r.pagination.totalPages)
    ensures r.pagination.currentPage <= s.pagination.currentPage
    ensures r.pagination.currentPage <= if r.pagination.totalPages == 0 then 1 else r.pagination.totalPages
    ensures r.pagination.currentPage == s.pagination.currentPage
            || r.pagination.currentPage == if r.pagination.totalPages == 0 then 1 else r.pagination.totalPages
  {
    var items := |Filtered(s.employees, s.filters)|;
    var pages := PageCount(items, s.pagination.pageSize);
    var last := if pages == 0 then 1 else pages;
    var current := if s.pagination.currentPage < last then s.pagination.currentPage else last;
    s.(pagination := s.pagination.(currentPage := current, totalItems := items, totalPages := pages))
  }

  /** Recounting twice is recounting once. */
  lemma UpdatePaginationIdempotent(s: EmployeesState)
    ensures UpdatePagination(UpdatePagination(s)) == UpdatePagination(s)
  {
  }

  /** From a page of at least 1, recounting leaves a page that shows part of the list whenever
      the list is non-empty. */
  lemma UpdatePaginationShowsItems(s: EmployeesState)
    requires s.pagination.currentPage >= 1 && |Filtered(s.employees, s.filters)| > 0
    ensures var r := UpdatePagination(s);
            |Page(Filtered(r.employees, r.filters), r.pagination)| > 0
  {
    var r := UpdatePagination(s);
    PageCountPositive(r.pagination.totalItems, r.pagination.pageSize, r.pagination.totalPages);
    PageInRangeNotEmpty(Filtered(s.employees, s.filters), r.pagination);
  }

  /** When the page count is the ceiling of items over page size, every page from 1 to the
      last holds at least one item. */
  lemma PageInRangeNotEmpty(list: seq<Employee>, p: Pagination)
    requires 1 <= p.currentPage <= p.totalPages
    requires IsPageCount(|list|, p.pageSize, p.totalPages)
    ensures |Page(list, p)| > 0
  {
    var size: int := p.pageSize;
    var c, pages := p.currentPage, p.totalPages;
    var start := (c - 1) * size;
    assert start < |list| by {
      MulLeftMono(c - 1, pages - 1, size);
    }
    assert 0 <= start by {
      MulLeftMono(0, c - 1, size);
    }
    SliceNonEmpty(list, start, start + size);
  }

  /** A slice starting inside the list with room after its start is not empty. */
  lemma SliceNonEmpty<T>(s: seq<T>, start: int, end: int)
    requires 0 <= start < |s| && start < end
    ensures |Slice(s, start, end)| > 0
  {
  }

  lemma MulLeftMono(a: int, b: int, c: nat)
    requires 0 <= a <= b
    ensures a * c <= b * c
  {
  }

  /** `setPage`: the requested page clamped to the last page and then to at least 1. */
  function SetPage(p: Pagination, page: int): (r: Pagination)
    ensures r.(currentPage := p.currentPage) == p
    ensures 1 <= r.currentPage <= if p.totalPages < 1 then 1 else p.totalPages
    ensures 1 <= page <= p.totalPages ==> r.currentPage == page
    ensures page > p.totalPages ==> r.currentPage == if p.totalPages < 1 then 1 else p.totalPages
    ensures page < 1 ==> r.currentPage == 1
  {
    var clamped := if page < p.totalPages then page else p.totalPages;
    p.(currentPage := if clamped < 1 then 1 else clamped)
  }

  /** `prevPage`: one page back, never below 1. */
  function PrevPage(p: Pagination): (r: Pagination)
    ensures r.(currentPage := p.currentPage) == p
    ensures r.currentPage >= 1
    ensures p.currentPage > 1 ==> r.currentPage == p.currentPage - 1
    ensures p.currentPage <= 1 ==> r.currentPage == 1
  {
    p.(currentPage := if p.currentPage - 1 < 1 then 1 else p.currentPage - 1)
  }

  /** `nextPage` as written: one page on, capped at the page count only, so with no pages it
      moves to page 0. */
  function NextPage(p: Pagination): (r: Pagination)
    ensures r.(currentPage := p.currentPage) == p
    ensures r.currentPage <= p.totalPages
    ensures p.currentPage < p.totalPages ==> r.currentPage == p.currentPage + 1
    ensures p.totalPages <= p.currentPage + 1 ==> r.currentPage == p.totalPages
  {
    p.(currentPage := if p.currentPage + 1 < p.totalPages then p.currentPage + 1 else p.totalPages)
  }

  /** With an empty list, `nextPage` leaves page 1 for page 0, and the page stays 0 after the
      list fills again: a recount only ever lowers the page, so nothing is shown. */
  lemma NextPageLeavesRange(s: EmployeesState, e: Employee)
    requires s.employees == [] && s.filters == InitialFilters
    requires s.pagination == Pagination(1, 10, 0, 0)
    requires !e.isDeleted
    ensures NextPage(s.pagination).currentPage == 0
    ensures var s1 := s.(pagination := NextPage(s.pagination));
            var s2 := UpdatePagination(s1.(employees := [e]));
            |Filtered(s2.employees, s2.filters)| == 1 && Page(Filtered(s2.employees, s2.filters), s2.pagination) == []
  {
    var s1 := s.(pagination := NextPage(s.pagination));
    var s2 := UpdatePagination(s1.(employees := [e]));
    assert Keep(InitialFilters)(e) by { BlankIffAllSpace(""); }
    assert e in Filtered(s2.employees, s2.filters);
  }

  /** `nextPage` with the clamp `setPage` uses: the page stays between 1 and the last page. */
  function NextPageClamped(p: Pagination): (r: Pagination)
    ensures r.(currentPage := p.currentPage) == p
    ensures 1 <= r.currentPage <= if p.totalPages < 1 then 1 else p.totalPages
    ensures 1 <= p.currentPage < p.totalPages ==> r.currentPage == p.currentPage + 1
  {
    SetPage(p, p.currentPage + 1)
  }

  /** The clamped step agrees with the written one whenever there is a page to move to. */
  lemma NextPageClampedAgrees(p: Pagination)
    requires 1 <= p.totalPages && 0 <= p.currentPage
    ensures NextPageClamped(p) == NextPage(p)
  {
  }

  // ---------------------------------------------------------------------------
  // Filter setters
  // ---------------------------------------------------------------------------

  /** Every filter setter: store the new filters, go back to page 1, recount. The setters below
      each change one filter this way. */
  function WithFilters(s: EmployeesState, f: Filters): (r: EmployeesState)
    ensures r.filters == f && r.employees == s.employees
    ensures r.pagination.currentPage == 1
    ensures r.pagination.totalItems == |Filtered(s.employees, f)|
    ensures r.pagination.pageSize == s.pagination.pageSize
    ensures IsPageCount(r.pagination.totalItems, r.pagination.pageSize, r.pagination.totalPages)
    ensures r == UpdatePagination(r.(pagination := s.pagination.(currentPage := 1)))
  {
    UpdatePagination(s.(filters := f, pagination := s.pagination.(currentPage := 1)))
  }

  function SetSearchQuery(s: EmployeesState, query: string): (r: EmployeesState)
    ensures r.filters == s.filters.(searchQuery := query) && r.employees == s.employees
    ensures r.pagination.currentPage == 1
    ensures r == UpdatePagination(r.(pagination := s.pagination.(currentPage := 1)))
  {
    WithFilters(s, s.filters.(searchQuery := query))
  }

  function SetDepartment(s: EmployeesState, department: string): (r: EmployeesState)
    ensures r.filters == s.filters.(department := department) && r.employees == s.employees
    ensures r.pagination.currentPage == 1
    ensures r == UpdatePagination(r.(pagination := s.pagination.(currentPage := 1)))
  {
    WithFilters(s, s.filters.(department := department))
  }

  function SetStatus(s: EmployeesState, status: string): (r: EmployeesState)
    ensures r.filters == s.filters.(status := status) && r.employees == s.employees
    ensures r.pagination.currentPage == 1
    ensures r == UpdatePagination(r.(pagination := s.pagination.(currentPage := 1)))
  {
    WithFilters(s, s.filters.(status := status))
  }

  function ToggleShowDeleted(s: EmployeesState): (r: EmployeesState)
    ensures r.filters == s.filters.(showDeleted := !s.filters.showDeleted) && r.employees == s.employees
    ensures r.pagination.currentPage == 1
    ensures r == UpdatePagination(r.(pagination := s.pagination.(currentPage := 1)))
  {
    WithFilters(s, s.filters.(showDeleted := !s.filters.showDeleted))
  }

  function ResetFilters(s: EmployeesState): (r: EmployeesState)
    ensures r.filters == InitialFilters && r.employees == s.employees
    ensures r.pagination.currentPage == 1
    ensures r == UpdatePagination(r.(pagination := s.pagination.(currentPage := 1)))
  {
    WithFilters(s, InitialFilters)
  }

  /** Toggling "show deleted" twice restores the filters and the listed employees. */
  lemma ToggleTwice(s: EmployeesState)
    ensures ToggleShowDeleted(ToggleShowDeleted(s)).filters == s.filters
    ensures var r := ToggleShowDeleted(ToggleShowDeleted(s));
            Filtered(r.employees, r.filters) == Filtered(s.employees, s.filters)
  {
  }

  /** After a reset every non-deleted employee is listed. */
  lemma ResetListsAllLive(s: EmployeesState)
    ensures var r := ResetFilters(s);
            Filtered(r.employees, r.filters) == Filter(s.employees, VisibleStage(InitialFilters))
  {
    BlankIffAllSpace("");
    FilteredIsOneFilter(s.employees, InitialFilters);
    FilterCongruent(s.employees, Keep(InitialFilters), VisibleStage(InitialFilters));
  }

  // ---------------------------------------------------------------------------
  // Deletion and restoring
  // ---------------------------------------------------------------------------

  function WithId(id: string): Employee -> bool {
    (e: Employee) => e.id == id
  }

  function WithoutId(id: string): Employee -> bool {
    (e: Employee) => e.id != id
  }

  /** `softDelete`: marks the first employee with the id deleted. The pagination is recounted
      whether or not the id was found. */
  function SoftDelete(s: EmployeesState, id: string, now: string): (r: (EmployeesState, bool))
    ensures r.0 == UpdatePagination(r.0.(pagination := s.pagination))
    ensures r.0.filters == s.filters
    ensures r.1 <==> FindIndex(s.employees, WithId(id)).Some?
    ensures !r.1 ==> r.0.employees == s.employees
    ensures r.1 ==> var i := FindIndex(s.employees, WithId(id)).value;
                    r.0.employees == s.employees[i := s.employees[i].(isDeleted := true, deletedAt := Some(now), updatedAt := now)]
  {
    match FindIndex(s.employees, WithId(id))
    case None => (UpdatePagination(s), false)
    case Some(i) =>
      var e := s.employees[i];
      var updated := s.employees[i := e.(isDeleted := true, deletedAt := Some(now), updatedAt := now)];
      (UpdatePagination(s.(employees := updated)), true)
  }

  /** `restore`: clears the deleted mark and date of the first employee with the id. */
  function Restore(s: EmployeesState, id: string, now: string): (r: (EmployeesState, bool))
    ensures r.0 == UpdatePagination(r.0.(pagination := s.pagination))
    ensures r.0.filters == s.filters
    ensures r.1 <==> FindIndex(s.employees, WithId(id)).Some?
    ensures !r.1 ==> r.0.employees == s.employees
    ensures r.1 ==> var i := FindIndex(s.employees, WithId(id)).value;
                    r.0.employees == s.employees[i := s.employees[i].(isDeleted := false, deletedAt := None, updatedAt := now)]
  {
    match FindIndex(s.employees, WithId(id))
    case None => (UpdatePagination(s), false)
    case Some(i) =>
      var e := s.employees[i];
      var updated := s.employees[i := e.(isDeleted := false, deletedAt := None, updatedAt := now)];
      (UpdatePagination(s.(employees := updated)), true)
  }

  /** Restoring a soft-deleted employee gives back the employee as it was before the delete,
      apart from the update time, when it had not been deleted before. */
  lemma SoftDeleteThenRestore(s: EmployeesState, id: string, t1: string, t2: string)
    requires FindIndex(s.employees, WithId(id)).Some?
    requires var i := FindIndex(s.employees, WithId(id)).value;
             !s.employees[i].isDeleted && s.employees[i].deletedAt.None?
    ensures var i := FindIndex(s.employees, WithId(id)).value;
            var r := Restore(SoftDelete(s, id, t1).0, id, t2);
            r.1 && r.0.employees == s.employees[i := s.employees[i].(updatedAt := t2)]
  {
    var i := FindIndex(s.employees, WithId(id)).value;
    var s1 := SoftDelete(s, id, t1).0;
    assert FindIndex(s1.employees, WithId(id)) == Some(i) by {
      assert WithId(id)(s1.employees[i]);
      assert forall j :: 0 <= j < i ==> s1.employees[j] == s.employees[j];
    }
  }

  /** A soft-deleted employee disappears from the list unless deleted ones are shown. */
  lemma SoftDeletedNotListed(s: EmployeesState, id: string, now: string)
    requires FindIndex(s.employees, WithId(id)).Some? && !s.filters.showDeleted
    ensures var i := FindIndex(s.employees, WithId(id)).value;
            var r := SoftDelete(s, id, now).0;
            r.employees[i].isDeleted && r.employees[i] !in Filtered(r.employees, r.filters)
  {
  }

  /** `permanentDelete`: removes every employee with the id and always reports success. */
  function PermanentDelete(s: EmployeesState, id: string): (r: (EmployeesState, bool))
    ensures r.1
    ensures r.0 == UpdatePagination(r.0.(pagination := s.pagination))
    ensures r.0.filters == s.filters
    ensures Subsequence(r.0.employees, s.employees)
    ensures forall i :: 0 <= i < |r.0.employees| ==> r.0.employees[i].id != id
    ensures forall j :: 0 <= j < |s.employees| && s.employees[j].id != id ==> s.employees[j] in r.0.employees
    ensures r.0.employees == Filter(s.employees, WithoutId(id))
  {
    FilterIsSubsequence(s.employees, WithoutId(id));
    (UpdatePagination(s.(employees := Filter(s.employees, WithoutId(id)))), true)
  }

  /** Deleting an id that is not there changes no employee. */
  lemma PermanentDeleteAbsent(s: EmployeesState, id: string)
    requires FindIndex(s.employees, WithId(id)).None?
    ensures PermanentDelete(s, id).0.employees == s.employees
  {
    FilterKeepsAll(s.employees, WithoutId(id));
  }

  /** With unique ids, a permanent delete removes exactly one employee. */
  lemma PermanentDeleteRemovesOne(s: EmployeesState, id: string)
    requires FindIndex(s.employees, WithId(id)).Some?
    requires forall i, j :: 0 <= i < j < |s.employees| ==> s.employees[i].id != s.employees[j].id
    ensures |PermanentDelete(s, id).0.employees| == |s.employees| - 1
  {
    var i := FindIndex(s.employees, WithId(id)).value;
    FilterSingle(s.employees, WithId(id), i);
    FilterComplement(s.employees, WithId(id), WithoutId(id));
  }

  // ---------------------------------------------------------------------------
  // Documents
  // ---------------------------------------------------------------------------

  function DocWithoutId(id: string): EmployeeDocument -> bool {
    (d: EmployeeDocument) => d.id != id
  }

  /** `addDocument`: appends a document to the first employee with the id; `None` when there is
      no such employee. */
  function AddDocument(s: EmployeesState, employeeId: string, name: string, docType: DocumentType, url: string,
                       fileSize: int, mimeType: string, docId: string, now: string): (r: (EmployeesState, Option<EmployeeDocument>))
    ensures r.0.filters == s.filters && r.0.pagination == s.pagination
    ensures r.1.None? <==> FindIndex(s.employees, WithId(employeeId)).None?
    ensures r.1.None? ==> r.0 == s
    ensures r.1.Some? ==> var i := FindIndex(s.employees, WithId(employeeId)).value;
              && r.1.value.id == docId && r.1.value.employeeId == employeeId
              && r.1.value.name == name && r.1.value.docType == docType && r.1.value.url == url
              && r.1.value.fileSize == fileSize && r.1.value.mimeType == mimeType && r.1.value.uploadedAt == now
              && r.0.employees == s.employees[i := s.employees[i].(documents := s.employees[i].documents + [r.1.value], updatedAt := now)]
  {
    match FindIndex(s.employees, WithId(employeeId))
    case None => (s, None)
    case Some(i) =>
      var doc := EmployeeDocument(docId, employeeId, name, docType, url, now, fileSize, mimeType);
      var e := s.employees[i];
      (s.(employees := s.employees[i := e.(documents := e.documents + [doc], updatedAt := now)]), Some(doc))
  }

  /** `removeDocument`: drops every document with the id from the first employee with the id;
      reports whether the employee exists. The pagination is not recounted. */
  function RemoveDocument(s: EmployeesState, employeeId: string, documentId: string, now: string): (r: (EmployeesState, bool))
    ensures r.0.filters == s.filters && r.0.pagination == s.pagination
    ensures r.1 <==> FindIndex(s.employees, WithId(employeeId)).Some?
    ensures !r.1 ==> r.0 == s
    ensures |r.0.employees| == |s.employees|
    ensures r.1 ==> var i := FindIndex(s.employees, WithId(employeeId)).value;
              var docs := r.0.employees[i].documents;
              && (forall j :: 0 <= j < |s.employees| && j != i ==> r.0.employees[j] == s.employees[j])
              && r.0.employees[i] == s.employees[i].(documents := docs, updatedAt := now)
              && Subsequence(docs, s.employees[i].documents)
              && (forall k :: 0 <= k < |docs| ==> docs[k].id != documentId)
              && (forall k :: 0 <= k < |s.employees[i].documents| && s.employees[i].documents[k].id != documentId
                    ==> s.employees[i].documents[k] in docs)
  {
    match FindIndex(s.employees, WithId(employeeId))
    case None => (s, false)
    case Some(i) =>
      var e := s.employees[i];
      FilterIsSubsequence(e.documents, DocWithoutId(documentId));
      (s.(employees := s.employees[i := e.(documents := Filter(e.documents, DocWithoutId(documentId)), updatedAt := now)]), true)
  }

  /** Removing a just-added document with an id new to that employee gives back the documents
      the employee had. */
  lemma AddThenRemoveDocument(s: EmployeesState, employeeId: string, name: string, docType: DocumentType, url: string,
                              fileSize: int, mimeType: string, docId: string, t1: string, t2: string)
    requires FindIndex(s.employees, WithId(employeeId)).Some?
    requires var i := FindIndex(s.employees, WithId(employeeId)).value;
             forall k :: 0 <= k < |s.employees[i].documents| ==> s.employees[i].documents[k].id != docId
    ensures var i := FindIndex(s.employees, WithId(employeeId)).value;
            var s1 := AddDocument(s, employeeId, name, docType, url, fileSize, mimeType, docId, t1).0;
            var r := RemoveDocument(s1, employeeId, docId, t2);
            r.1 && r.0.employees[i].documents == s.employees[i].documents
  {
    var i := FindIndex(s.employees, WithId(employeeId)).value;
    var s1 := AddDocument(s, employeeId, name, docType, url, fileSize, mimeType, docId, t1).0;
    assert FindIndex(s1.employees, WithId(employeeId)) == Some(i) by {
      assert WithId(employeeId)(s1.employees[i]);
      assert forall j :: 0 <= j < i ==> s1.employees[j] == s.employees[j];
    }
    var docs := s.employees[i].documents;
    var added := s1.employees[i].documents;
    assert added == docs + [added[|added| - 1]];
    FilterAppend(docs, [added[|added| - 1]], DocWithoutId(docId));
    FilterKeepsAll(docs, DocWithoutId(docId));
    FilterDropsAll([added[|added| - 1]], DocWithoutId(docId));
  }

  // ---------------------------------------------------------------------------
  // Statistics
  // ---------------------------------------------------------------------------

  datatype EmployeeStats = EmployeeStats(total: nat, active: nat, onLeave: nat, resigned: nat, deleted: nat)

  function NotDeleted(e: Employee): bool { !e.isDeleted }
  function IsDeleted(e: Employee): bool { e.isDeleted }

  function StatusIs(status: EmployeeStatus): Employee -> bool {
    (e: Employee) => e.status == status
  }

  /** The three statuses split any list of employees. */
  lemma {:induction false} EmployeeStatusPartition(es: seq<Employee>)
    ensures |Filter(es, StatusIs(Active))| + |Filter(es, StatusIs(OnLeave))| + |Filter(es, StatusIs(Resigned))| == |es|
  {
    if |es| > 0 {
      EmployeeStatusPartition(es[1..]);
    }
  }

  /** `employeeStats`: counts of the non-deleted employees by status, and of the deleted ones. */
  function Stats(employees: seq<Employee>): (r: EmployeeStats)
    ensures r.active + r.onLeave + r.resigned == r.total
    ensures r.total + r.deleted == |employees|
    ensures r.total == |Filter(employees, NotDeleted)| && r.deleted == |Filter(employees, IsDeleted)|
  {
    var live := Filter(employees, NotDeleted);
    EmployeeStatusPartition(live);
    FilterComplement(employees, NotDeleted, IsDeleted);
    EmployeeStats(|live|, |Filter(live, StatusIs(Active))|, |Filter(live, StatusIs(OnLeave))|,
                  |Filter(live, StatusIs(Resigned))|, |Filter(employees, IsDeleted)|)
  }

  /** An empty list has all counts zero, and adding one employee adds one to exactly the
      counters it falls under: together these fix every count of `Stats`. */
  lemma {:induction false} StatsAppend(employees: seq<Employee>, e: Employee)
    ensures Stats([]) == EmployeeStats(0, 0, 0, 0, 0)
    ensures var a := Stats(employees);
            var b := Stats(employees + [e]);
            && b.total == a.total + (if e.isDeleted then 0 else 1)
            && b.active == a.active + (if !e.isDeleted && e.status == Active then 1 else 0)
            && b.onLeave == a.onLeave + (if !e.isDeleted && e.status == OnLeave then 1 else 0)
            && b.resigned == a.resigned + (if !e.isDeleted && e.status == Resigned then 1 else 0)
            && b.deleted == a.deleted + (if e.isDeleted then 1 else 0)
  {
    FilterAppend(employees, [e], NotDeleted);
    FilterOne(e, NotDeleted);
    FilterAppendOne(employees, e, IsDeleted);
    var live := Filter(employees, NotDeleted);
    if !e.isDeleted {
      FilterAppendOne(live, e, StatusIs(Active));
      FilterAppendOne(live, e, StatusIs(OnLeave));
      FilterAppendOne(live, e, StatusIs(Resigned));
    } else {
      assert live + [] == live;
    }
  }

  /** `uniqueDepartments`: the distinct departments of non-deleted employees, sorted. */
  function UniqueDepartments(employees: seq<Employee>): (r: seq<string>)
    ensures Sorted(r)
    ensures forall k :: 0 <= k < |r| ==>
              exists j :: 0 <= j < |employees| && !employees[j].isDeleted && employees[j].department == r[k]
    ensures forall j :: 0 <= j < |employees| && !employees[j].isDeleted ==> employees[j].department in r
  {
    var live := Filter(employees, NotDeleted);
    var names := seq(|live|, i requires 0 <= i < |live| => live[i].department);
    var r := SortUnique(names);
    assert forall k :: 0 <= k < |r| ==> r[k] in names;
    forall j | 0 <= j < |employees| && !employees[j].isDeleted
      ensures employees[j].department in names
    {
      assert NotDeleted(employees[j]);
      var i :| 0 <= i < |live| && live[i] == employees[j];
      assert names[i] == employees[j].department;
    }
    r
  }

  /** A sorted list of distinct names repeats none. */
  lemma UniqueDepartmentsDistinct(employees: seq<Employee>, i: nat, j: nat)
    requires i < j < |UniqueDepartments(employees)|
    ensures UniqueDepartments(employees)[i] != UniqueDepartments(employees)[j]
  {
    var r := UniqueDepartments(employees);
    LessIrreflexive(r[i]);
  }
}

=== FILE: legacy_departments.dfy ===
/** The earlier departments store of `src/lib/stores/departments.ts`: a fixed department list
    with a search box and totals. */
module LegacyDepartments {
  import opened Text
  import opened Seqs

  datatype Department = Department(
    id: string, name: string, description: string, manager: string,
    employeeCount: int, budget: int, location: string)

  datatype DepartmentsState = DepartmentsState(departments: seq<Department>, searchQuery: string)

  /** Name, description or manager contains the (lowercased) query. */
  predicate SearchHit(d: Department, query: string) {
    Includes(Lower(d.name), query) || Includes(Lower(d.description), query) || Includes(Lower(d.manager), query)
  }

  function Matches(query: string): Department -> bool {
    (d: Department) => SearchHit(d, Lower(query))
  }

  /** `filteredDepartments`: all departments for a blank query, otherwise the matching ones. */
  function Filtered(s: DepartmentsState): (r: seq<Department>)
    ensures IsBlank(s.searchQuery) ==> r == s.departments
    ensures Subsequence(r, s.departments)
    ensures !IsBlank(s.searchQuery) ==>
              && (forall i :: 0 <= i < |r| ==> SearchHit(r[i], Lower(s.searchQuery)))
              && (forall j :: 0 <= j < |s.departments| && SearchHit(s.departments[j], Lower(s.searchQuery)) ==> s.departments[j] in r)
  {
    if IsBlank(s.searchQuery) then
      FilterKeepsAll(s.departments, (d: Department) => true);
      FilterIsSubsequence(s.departments, (d: Department) => true);
      s.departments
    else
      FilterIsSubsequence(s.departments, Matches(s.searchQuery));
      Filter(s.departments, Matches(s.searchQuery))
  }

  function SetSearchQuery(s: DepartmentsState, query: string): (r: DepartmentsState)
    ensures r.departments == s.departments && r.searchQuery == query
  {
    s.(searchQuery := query)
  }

  /** `clearSearch`: the filtered view is the whole list again. */
  function ClearSearch(s: DepartmentsState): (r: DepartmentsState)
    ensures r.departments == s.departments && r.searchQuery == ""
    ensures Filtered(r) == s.departments
  {
    BlankIffAllSpace("");
    s.(searchQuery := "")
  }

  /** A query that is only whitespace shows every department, like no query at all. */
  lemma WhitespaceQueryShowsAll(s: DepartmentsState, query: string)
    requires forall k :: 0 <= k < |query| ==> IsSpace(query[k])
    ensures Filtered(SetSearchQuery(s, query)) == Filtered(ClearSearch(s))
  {
    BlankIffAllSpace(query);
  }

  datatype DepartmentStats = DepartmentStats(total: nat, totalEmployees: int, totalBudget: int)

  function EmployeesOf(d: Department): int { d.employeeCount }
  function BudgetOf(d: Department): int { d.budget }

  /** `departmentStats`: the count and the sums of head-counts and budgets. */
  function Stats(s: DepartmentsState): (r: DepartmentStats)
    ensures r.total == |s.departments|
    ensures r.totalEmployees == Sum(s.departments, EmployeesOf) && r.totalBudget == Sum(s.departments, BudgetOf)
  {
    DepartmentStats(|s.departments|, Sum(s.departments, EmployeesOf), Sum(s.departments, BudgetOf))
  }

  /** Totals of non-negative figures are non-negative. */
  lemma StatsNonNegative(s: DepartmentsState)
    requires forall i :: 0 <= i < |s.departments| ==> s.departments[i].budget >= 0 && s.departments[i].employeeCount >= 0
    ensures Stats(s).totalBudget >= 0 && Stats(s).totalEmployees >= 0
  {
    SumNonNegative(s.departments, BudgetOf);
    SumNonNegative(s.departments, EmployeesOf);
  }

  /** No departments give all-zero statistics, and one more department adds one to the count and
      its figures to the totals. */
  lemma StatsOfAppend(s: DepartmentsState, d: Department)
    ensures s.departments == [] ==> Stats(s) == DepartmentStats(0, 0, 0)
    ensures var r := s.(departments := s.departments + [d]);
            && Stats(r).total == Stats(s).total + 1
            && Stats(r).totalEmployees == Stats(s).totalEmployees + d.employeeCount
            && Stats(r).totalBudget == Stats(s).totalBudget + d.budget
  {
    SumAppend(s.departments, d, EmployeesOf);
    SumAppend(s.departments, d, BudgetOf);
  }

  /** The search does not change the totals: they are over every department. */
  lemma StatsIgnoreSearch(s: DepartmentsState, query: string)
    ensures Stats(SetSearchQuery(s, query)) == Stats(s)
  {
  }
}

=== FILE: legacy_employees.dfy ===
/** The earlier employees store of `src/lib/stores/employees.ts`: a fixed employee list with a
    search box, a department filter and a status filter, its statistics and its department list. */
module LegacyEmployees {
  import opened Wrappers
  import opened Text
  import opened Seqs
  import opened Order

  datatype Status = Active | Inactive | OnLeave

  function StatusName(s: Status): string {
    match s
    case Active => "active"
    case Inactive => "inactive"
    case OnLeave => "on-leave"
  }

  datatype Employee = Employee(
    id: string, name: string, email: string, jobTitle: string, department: string,
    status: Status, avatar: Option<string>, phone: string, hireDate: string, salary: int)

  /** The department and status filters hold `"all"` or a value to match exactly. */
  datatype Filters = Filters(searchQuery: string, department: string, status: string)

  datatype EmployeesState = EmployeesState(employees: seq<Employee>, filters: Filters)

  const All: string := "all"

  const InitialFilters: Filters := Filters("", All, All)

  // ---------------------------------------------------------------------------
  // Filtering
  // ---------------------------------------------------------------------------

  /** Name, e-mail, job title or department contains the (lowercased) query. */
  predicate SearchHit(e: Employee, query: string) {
    || Includes(Lower(e.name), query)
    || Includes(Lower(e.email), query)
    || Includes(Lower(e.jobTitle), query)
    || Includes(Lower(e.department), query)
  }

  function SearchStage(f: Filters): Employee -> bool {
    (e: Employee) => IsBlank(f.searchQuery) || SearchHit(e, Lower(f.searchQuery))
  }

  function DepartmentStage(f: Filters): Employee -> bool {
    (e: Employee) => f.department == All || e.department == f.department
  }

  function StatusStage(f: Filters): Employee -> bool {
    (e: Employee) => f.status == All || StatusName(e.status) == f.status
  }

  /** The reference condition: an employee is listed when it passes all three filters. */
  function Keep(f: Filters): Employee -> bool {
    (e: Employee) => SearchStage(f)(e) && DepartmentStage(f)(e) && StatusStage(f)(e)
  }

  /** `filteredEmployees`: search, then department, then status, each only when set. */
  function Filtered(s: EmployeesState): (r: seq<Employee>)
    ensures Subsequence(r, s.employees)
    ensures forall i :: 0 <= i < |r| ==> Keep(s.filters)(r[i])
    ensures forall j :: 0 <= j < |s.employees| && Keep(s.filters)(s.employees[j]) ==> s.employees[j] in r
  {
    var f := s.filters;
    var a := if !IsBlank(f.searchQuery) then Filter(s.employees, SearchStage(f)) else s.employees;
    var b := if f.department != All then Filter(a, DepartmentStage(f)) else a;
    var r := if f.status != All then Filter(b, StatusStage(f)) else b;
    FilteredIsOneFilter(s);
    FilterIsSubsequence(s.employees, Keep(f));
    r
  }

  /** Skipping a stage is filtering by a condition every employee passes. */
  lemma FilteredIsOneFilter(s: EmployeesState)
    ensures var f := s.filters;
            var a := if !IsBlank(f.searchQuery) then Filter(s.employees, SearchStage(f)) else s.employees;
            var b := if f.department != All then Filter(a, DepartmentStage(f)) else a;
            var r := if f.status != All then Filter(b, StatusStage(f)) else b;
            r == Filter(s.employees, Keep(f))
  {
    var f := s.filters;
    var a := Filter(s.employees, SearchStage(f));
    if IsBlank(f.searchQuery) { FilterKeepsAll(s.employees, SearchStage(f)); }
    var b := Filter(a, DepartmentStage(f));
    if f.department == All { FilterKeepsAll(a, DepartmentStage(f)); }
    if f.status == All { FilterKeepsAll(b, StatusStage(f)); }
    var sd := (e: Employee) => SearchStage(f)(e) && DepartmentStage(f)(e);
    FilterFusion(s.employees, SearchStage(f), DepartmentStage(f), sd);
    FilterFusion(s.employees, sd, StatusStage(f), Keep(f));
  }

  function SetSearchQuery(s: EmployeesState, query: string): (r: EmployeesState)
    ensures r.employees == s.employees && r.filters == s.filters.(searchQuery := query)
  {
    s.(filters := s.filters.(searchQuery := query))
  }

  function SetDepartmentFilter(s: EmployeesState, department: string): (r: EmployeesState)
    ensures r.employees == s.employees && r.filters == s.filters.(department := department)
  {
    s.(filters := s.filters.(department := department))
  }

  function SetStatusFilter(s: EmployeesState, status: string): (r: EmployeesState)
    ensures r.employees == s.employees && r.filters == s.filters.(status := status)
  {
    s.(filters := s.filters.(status := status))
  }

  /** `resetFilters`: the initial filters are back, so every employee is listed again. */
  function ResetFilters(s: EmployeesState): (r: EmployeesState)
    ensures r.employees == s.employees && r.filters == InitialFilters
    ensures Filtered(r) == s.employees
  {
    var r := s.(filters := InitialFilters);
    BlankIffAllSpace("");
    FilteredIsOneFilter(r);
    FilterKeepsAll(s.employees, Keep(InitialFilters));
    r
  }

  /** Setting the three filters in any order gives the same state. */
  lemma SettersCommute(s: EmployeesState, q: string, d: string, st: string)
    ensures SetStatusFilter(SetDepartmentFilter(SetSearchQuery(s, q), d), st)
         == SetSearchQuery(SetDepartmentFilter(SetStatusFilter(s, st), d), q)
  {
  }

  /** Setting a department keeps exactly the listed employees of that department. */
  lemma DepartmentFilterNarrows(s: EmployeesState, d: string)
    requires d != All
    ensures Filtered(SetDepartmentFilter(s, d)) == Filter(Filtered(s.(filters := s.filters.(department := All))), (e: Employee) => e.department == d)
  {
    var f := s.filters.(department := All);
    var g := s.filters.(department := d);
    FilteredIsOneFilter(s.(filters := f));
    FilteredIsOneFilter(s.(filters := g));
    var inD := (e: Employee) => e.department == d;
    forall e: Employee
      ensures Keep(g)(e) == (Keep(f)(e) && inD(e))
    {
      assert DepartmentStage(g)(e) == inD(e);
      assert DepartmentStage(f)(e);
      assert SearchStage(g)(e) == SearchStage(f)(e);
      assert StatusStage(g)(e) == StatusStage(f)(e);
    }
    FilterFusion(s.employees, Keep(f), inD, Keep(g));
  }

  // ---------------------------------------------------------------------------
  // Statistics and the department list
  // ---------------------------------------------------------------------------

  datatype EmployeeStats = EmployeeStats(total: nat, active: nat, inactive: nat, onLeave: nat)

  function StatusIs(st: Status): Employee -> bool {
    (e: Employee) => e.status == st
  }

  lemma {:induction false} StatusPartition(es: seq<Employee>)
    ensures |Filter(es, StatusIs(Active))| + |Filter(es, StatusIs(Inactive))| + |Filter(es, StatusIs(OnLeave))| == |es|
  {
    if |es| > 0 {
      StatusPartition(es[1..]);
    }
  }

  /** `employeeStats`: the three status counts add up to the total. */
  function Stats(s: EmployeesState): (r: EmployeeStats)
    ensures r.total == |s.employees|
    ensures r.active + r.inactive + r.onLeave == r.total
    ensures r.active == |Filter(s.employees, StatusIs(Active))|
    ensures r.inactive == |Filter(s.employees, StatusIs(Inactive))|
    ensures r.onLeave == |Filter(s.employees, StatusIs(OnLeave))|
  {
    StatusPartition(s.employees);
    EmployeeStats(|s.employees|, |Filter(s.employees, StatusIs(Active))|,
                  |Filter(s.employees, StatusIs(Inactive))|, |Filter(s.employees, StatusIs(OnLeave))|)
  }

  /** No employees give all-zero counts, and one more employee adds one to the total and to its
      own status's count only. */
  lemma {:induction false} StatsAppend(s: EmployeesState, e: Employee)
    ensures s.employees == [] ==> Stats(s) == EmployeeStats(0, 0, 0, 0)
    ensures var a := Stats(s);
            var b := Stats(s.(employees := s.employees + [e]));
            && b.total == a.total + 1
            && b.active == a.active + (if e.status == Active then 1 else 0)
            && b.inactive == a.inactive + (if e.status == Inactive then 1 else 0)
            && b.onLeave == a.onLeave + (if e.status == OnLeave then 1 else 0)
  {
    FilterAppendOne(s.employees, e, StatusIs(Active));
    FilterAppendOne(s.employees, e, StatusIs(Inactive));
    FilterAppendOne(s.employees, e, StatusIs(OnLeave));
  }

  /** `uniqueDepartments`: every department that occurs, once, sorted. */
  function UniqueDepartments(s: EmployeesState): (r: seq<string>)
    ensures Sorted(r)
    ensures forall k :: 0 <= k < |r| ==> exists j :: 0 <= j < |s.employees| && s.employees[j].department == r[k]
    ensures forall j :: 0 <= j < |s.employees| ==> s.employees[j].department in r
  {
    var names := seq(|s.employees|, i requires 0 <= i < |s.employees| => s.employees[i].department);
    var r := SortUnique(names);
    assert forall k :: 0 <= k < |r| ==> r[k] in names;
    assert forall j :: 0 <= j < |s.employees| ==> names[j] == s.employees[j].department;
    r
  }

  lemma UniqueDepartmentsDistinct(s: EmployeesState, i: nat, j: nat)
    requires i < j < |UniqueDepartments(s)|
    ensures UniqueDepartments(s)[i] != UniqueDepartments(s)[j]
  {
    LessIrreflexive(UniqueDepartments(s)[i]);
  }
}

=== FILE: order.dfy ===
/** The string order `Array.prototype.sort` uses by default (code-unit lexicographic), and the two
    sorts the stores perform: a duplicate-free ascending sort and a descending sort by a key. */
module Order {

  /** `a` sorts strictly before `b`: a proper prefix, or smaller at the first difference. */
  predicate Less(a: string, b: string)
  {
    if |a| == 0 then |b| > 0
    else if |b| == 0 then false
    else if a[0] != b[0] then a[0] < b[0]
    else Less(a[1..], b[1..])
  }

  lemma {:induction false} LessIrreflexive(a: string)
    ensures !Less(a, a)
  {
    if |a| > 0 {
      LessIrreflexive(a[1..]);
    }
  }

  lemma {:induction false} LessTransitive(a: string, b: string, c: string)
    requires Less(a, b) && Less(b, c)
    ensures Less(a, c)
  {
    if |a| > 0 && |b| > 0 && |c| > 0 && a[0] == b[0] && b[0] == c[0] {
      LessTransitive(a[1..], b[1..], c[1..]);
    }
  }

  lemma {:induction false} LessTotal(a: string, b: string)
    requires a != b
    ensures Less(a, b) || Less(b, a)
  {
    if |a| > 0 && |b| > 0 && a[0] == b[0] {
      assert a == [a[0]] + a[1..] && b == [b[0]] + b[1..];
      LessTotal(a[1..], b[1..]);
    }
  }

  lemma LessAsymmetric(a: string, b: string)
    requires Less(a, b)
    ensures !Less(b, a)
  {
    if Less(b, a) {
      LessTransitive(a, b, a);
      LessIrreflexive(a);
    }
  }

  // ---------------------------------------------------------------------------
  // Ascending, duplicate-free
  // ---------------------------------------------------------------------------

  /** Strictly ascending, hence free of duplicates. */
  ghost predicate Sorted(s: seq<string>) {
    forall i, j :: 0 <= i < j < |s| ==> Less(s[i], s[j])
  }

  /** A strictly ascending list has no repeated element. */
  lemma SortedDistinct(s: seq<string>)
    requires Sorted(s)
    ensures forall i, j :: 0 <= i < j < |s| ==> s[i] != s[j]
  {
    forall i, j | 0 <= i < j < |s|
      ensures s[i] != s[j]
    {
      if s[i] == s[j] {
        LessIrreflexive(s[i]);
      }
    }
  }

  /** Adds `x` to a sorted duplicate-free list, keeping it sorted and duplicate-free. */
  function Insert(x: string, s: seq<string>): (r: seq<string>)
    requires Sorted(s)
    ensures Sorted(r)
    ensures forall y :: y in r <==> y == x || y in s
    ensures |r| > 0 && (|s| > 0 ==> r[0] == x || r[0] == s[0])
  {
    if |s| == 0 then [x]
    else if x == s[0] then s
    else if Less(x, s[0]) then
      assert forall j :: 0 < j < |s| ==> Less(x, s[j]) by {
        forall j | 0 < j < |s| ensures Less(x, s[j]) {
          LessTransitive(x, s[0], s[j]);
        }
      }
      [x] + s
    else
      LessTotal(x, s[0]);
      var t := Insert(x, s[1..]);
      assert forall j :: 0 <= j < |t| ==> Less(s[0], t[j]) by {
        forall j | 0 <= j < |t| ensures Less(s[0], t[j]) {
          assert t[j] in t;
        }
      }
      [s[0]] + t
  }

  /** `Array.from(new Set(s)).sort()`: the distinct elements of `s`, ascending. */
  function SortUnique(s: seq<string>): (r: seq<string>)
    ensures Sorted(r)
    ensures forall y :: y in r <==> y in s
  {
    if |s| == 0 then [] else Insert(s[0], SortUnique(s[1..]))
  }

  // ---------------------------------------------------------------------------
  // Descending by a key
  // ---------------------------------------------------------------------------

  /** `Less` or equal. */
  predicate LessEq(a: string, b: string) { a == b || Less(a, b) }

  lemma LessEqTransitive(a: string, b: string, c: string)
    requires LessEq(a, b) && LessEq(b, c)
    ensures LessEq(a, c)
  {
    if a != b && b != c {
      LessTransitive(a, b, c);
    }
  }

  /** The order is total: not below means at or above. */
  lemma NotLessIsLessEq(a: string, b: string)
    requires !Less(a, b)
    ensures LessEq(b, a)
  {
    if a != b {
      LessTotal(a, b);
    }
  }

  /** Non-increasing by `key`: every earlier element's key is at least every later one's. */
  ghost predicate SortedDescBy<T>(s: seq<T>, key: T -> string) {
    forall i, j :: 0 <= i < j < |s| ==> LessEq(key(s[j]), key(s[i]))
  }

  /** Inserts `x` before the first element whose key is not greater than `x`'s. */
  function InsertDescBy<T>(x: T, s: seq<T>, key: T -> string): (r: seq<T>)
    requires SortedDescBy(s, key)
    ensures SortedDescBy(r, key)
    ensures multiset(r) == multiset(s) + multiset{x}
    ensures |r| > 0 && (|s| > 0 ==> r[0] == x || r[0] == s[0])
  {
    if |s| == 0 then [x]
    else if !Less(key(x), key(s[0])) then
      NotLessIsLessEq(key(x), key(s[0]));
      assert forall j :: 0 <= j < |s| ==> LessEq(key(s[j]), key(x)) by {
        forall j | 0 <= j < |s| ensures LessEq(key(s[j]), key(x)) {
          LessEqTransitive(key(s[j]), key(s[0]), key(x));
        }
      }
      assert s == [s[0]] + s[1..];
      [x] + s
    else
      var t := InsertDescBy(x, s[1..], key);
      assert s == [s[0]] + s[1..];
      assert forall j :: 0 <= j < |t| ==> LessEq(key(t[j]), key(s[0])) by {
        forall j | 0 <= j < |t| ensures LessEq(key(t[j]), key(s[0])) {
          assert t[j] in multiset(t);
          if t[j] != x {
            assert t[j] in multiset(s[1..]);
            var k :| 0 <= k < |s[1..]| && s[1..][k] == t[j];
            assert s[k + 1] == t[j];
          }
        }
      }
      [s[0]] + t
  }

  /** A stable sort of `s` by descending `key`. */
  function SortDescBy<T>(s: seq<T>, key: T -> string): (r: seq<T>)
    ensures SortedDescBy(r, key)
    ensures multiset(r) == multiset(s)
  {
    if |s| == 0 then []
    else
      assert s == [s[0]] + s[1..];
      InsertDescBy(s[0], SortDescBy(s[1..], key), key)
  }
}

=== FILE: seqs.dfy ===
/** Sequence combinators the stores use: `filter`, `find`, `findIndex` and `reduce`. */
module Seqs {
  import opened Wrappers

  /** `s.filter(p)`: the elements of `s` satisfying `p`, in their original order. */
  function Filter<T>(s: seq<T>, p: T -> bool): (r: seq<T>)
    ensures |r| <= |s|
    ensures forall i :: 0 <= i < |r| ==> p(r[i]) && r[i] in s
    ensures forall i :: 0 <= i < |s| && p(s[i]) ==> s[i] in r
  {
    if |s| == 0 then []
    else if p(s[0]) then [s[0]] + Filter(s[1..], p)
    else Filter(s[1..], p)
  }

  /** Permutations have the same elements. */
  lemma PermutationMembers<T>(a: seq<T>, b: seq<T>)
    requires multiset(a) == multiset(b)
    ensures forall x :: x in a <==> x in b
  {
    assert forall x :: x in a <==> x in multiset(a);
    assert forall x :: x in b <==> x in multiset(b);
  }

  /** `a` is obtained from `b` by deleting elements: an order-preserving subsequence. */
  ghost predicate Subsequence<T>(a: seq<T>, b: seq<T>)
    decreases |b|
  {
    if |a| == 0 then true
    else if |b| == 0 then false
    else if a[0] == b[0] then Subsequence(a[1..], b[1..])
    else Subsequence(a, b[1..])
  }

  /** Filtering never reorders: its result is a subsequence of its input. */
  lemma {:induction false} FilterIsSubsequence<T>(s: seq<T>, p: T -> bool)
    ensures Subsequence(Filter(s, p), s)
  {
    if |s| > 0 {
      FilterIsSubsequence(s[1..], p);
      var rest := Filter(s[1..], p);
      if !p(s[0]) && |rest| > 0 {
        assert rest[0] != s[0];
      }
    }
  }

  /** Two filters in a row equal one filter by the conjunction of their predicates. */
  lemma {:induction false} FilterFusion<T>(s: seq<T>, p: T -> bool, q: T -> bool, pq: T -> bool)
    requires forall x :: pq(x) == (p(x) && q(x))
    ensures Filter(Filter(s, p), q) == Filter(s, pq)
  {
    if |s| > 0 {
      FilterFusion(s[1..], p, q, pq);
      if p(s[0]) {
        assert Filter(s, p) == [s[0]] + Filter(s[1..], p);
        assert Filter(s, p)[1..] == Filter(s[1..], p);
      }
    }
  }

  /** Filtering by two pointwise-equal predicates gives the same result. */
  lemma {:induction false} FilterCongruent<T>(s: seq<T>, p: T -> bool, q: T -> bool)
    requires forall x :: p(x) == q(x)
    ensures Filter(s, p) == Filter(s, q)
  {
    if |s| > 0 {
      FilterCongruent(s[1..], p, q);
    }
  }

  /** Filtering by two predicates that agree on the elements of `s` gives the same result. */
  lemma {:induction false} FilterCongruentOn<T>(s: seq<T>, p: T -> bool, q: T -> bool)
    requires forall i :: 0 <= i < |s| ==> p(s[i]) == q(s[i])
    ensures Filter(s, p) == Filter(s, q)
  {
    if |s| > 0 {
      FilterCongruentOn(s[1..], p, q);
    }
  }

  /** Overwriting an element the filter drops with another it drops changes nothing. */
  lemma {:induction false} FilterUpdateDropped<T>(s: seq<T>, i: nat, y: T, p: T -> bool)
    requires i < |s| && !p(s[i]) && !p(y)
    ensures Filter(s[i := y], p) == Filter(s, p)
  {
    if i > 0 {
      assert s[i := y][1..] == s[1..][i - 1 := y];
      FilterUpdateDropped(s[1..], i - 1, y, p);
    } else {
      assert s[i := y][1..] == s[1..];
    }
  }

  /** A filter every element passes returns its input unchanged. */
  lemma {:induction false} FilterKeepsAll<T>(s: seq<T>, p: T -> bool)
    requires forall i :: 0 <= i < |s| ==> p(s[i])
    ensures Filter(s, p) == s
  {
    if |s| > 0 {
      FilterKeepsAll(s[1..], p);
      assert [s[0]] + s[1..] == s;
    }
  }

  /** A filter no element passes returns the empty list. */
  lemma {:induction false} FilterDropsAll<T>(s: seq<T>, p: T -> bool)
    requires forall i :: 0 <= i < |s| ==> !p(s[i])
    ensures Filter(s, p) == []
  {
    if |s| > 0 {
      FilterDropsAll(s[1..], p);
    }
  }

  /** When exactly one position satisfies `p`, the filter has exactly one element. */
  lemma {:induction false} FilterSingle<T>(s: seq<T>, p: T -> bool, j: nat)
    requires j < |s| && p(s[j])
    requires forall i :: 0 <= i < |s| && i != j ==> !p(s[i])
    ensures |Filter(s, p)| == 1
  {
    if j == 0 {
      FilterDropsAll(s[1..], p);
    } else {
      FilterSingle(s[1..], p, j - 1);
    }
  }

  /** Filtering distributes over concatenation. */
  lemma {:induction false} FilterAppend<T>(a: seq<T>, b: seq<T>, p: T -> bool)
    ensures Filter(a + b, p) == Filter(a, p) + Filter(b, p)
  {
    if |a| == 0 {
      assert a + b == b;
    } else {
      assert (a + b)[1..] == a[1..] + b;
      FilterAppend(a[1..], b, p);
    }
  }

  /** Filtering one element keeps it exactly when it passes. */
  lemma FilterOne<T>(x: T, p: T -> bool)
    ensures Filter([x], p) == if p(x) then [x] else []
  {
    assert [x][1..] == [];
  }

  /** Appending one element adds one to a filter's length exactly when the element passes. */
  lemma FilterAppendOne<T>(s: seq<T>, x: T, p: T -> bool)
    ensures |Filter(s + [x], p)| == |Filter(s, p)| + (if p(x) then 1 else 0)
  {
    FilterAppend(s, [x], p);
    FilterOne(x, p);
  }

  /** Splitting by `p` and by its negation accounts for every element exactly once. */
  lemma {:induction false} FilterComplement<T>(s: seq<T>, p: T -> bool, notP: T -> bool)
    requires forall x :: notP(x) == !p(x)
    ensures |Filter(s, p)| + |Filter(s, notP)| == |s|
  {
    if |s| > 0 {
      FilterComplement(s[1..], p, notP);
    }
  }

  /** `s.findIndex(p)`, with `-1` rendered as `None`: the FIRST position satisfying `p`. */
  function FindIndex<T>(s: seq<T>, p: T -> bool): (r: Option<nat>)
    ensures r.Some? ==> r.value < |s| && p(s[r.value])
    ensures r.Some? ==> forall j :: 0 <= j < r.value ==> !p(s[j])
    ensures r.None? ==> forall j :: 0 <= j < |s| ==> !p(s[j])
  {
    if |s| == 0 then None
    else if p(s[0]) then Some(0)
    else
      match FindIndex(s[1..], p)
      case None => None
      case Some(k) => Some(k + 1)
  }

  /** `s.find(p)`: the first element satisfying `p`. */
  function Find<T>(s: seq<T>, p: T -> bool): (r: Option<T>)
    ensures r.Some? <==> exists i :: 0 <= i < |s| && p(s[i])
    ensures r.Some? ==> p(r.value)
    ensures r.Some? ==> exists i :: 0 <= i < |s| && s[i] == r.value && forall j :: 0 <= j < i ==> !p(s[j])
  {
    match FindIndex(s, p)
    case None => None
    case Some(i) => Some(s[i])
  }

  /** `s.reduce((acc, x) => acc + f(x), 0)`. */
  function Sum<T>(s: seq<T>, f: T -> int): int
  {
    if |s| == 0 then 0 else f(s[0]) + Sum(s[1..], f)
  }

  /** A sum of non-negative terms is non-negative. */
  lemma {:induction false} SumNonNegative<T>(s: seq<T>, f: T -> int)
    requires forall i :: 0 <= i < |s| ==> f(s[i]) >= 0
    ensures Sum(s, f) >= 0
  {
    if |s| > 0 {
      SumNonNegative(s[1..], f);
    }
  }

  /** Appending an element adds its term to the sum. */
  lemma {:induction false} SumAppend<T>(s: seq<T>, x: T, f: T -> int)
    ensures Sum(s + [x], f) == Sum(s, f) + f(x)
  {
    if |s| > 0 {
      assert (s + [x])[1..] == s[1..] + [x];
      SumAppend(s[1..], x, f);
    }
  }

  /** `s.map(x => p(x) ? y : x)`: every element satisfying `p` is replaced by `y`. */
  function ReplaceWhere<T>(s: seq<T>, p: T -> bool, y: T): seq<T>
  {
    seq(|s|, i requires 0 <= i < |s| => if p(s[i]) then y else s[i])
  }
}

=== FILE: text.dfy ===
/** String primitives behind the stores' search filters and the duration / month formats:
    ASCII `toLowerCase`, `includes`, `trim`, `startsWith`, decimal rendering and parsing. */
module Text {
  import opened Wrappers

  // ---------------------------------------------------------------------------
  // Case mapping
  // ---------------------------------------------------------------------------

  predicate IsUpper(c: char) { 'A' <= c <= 'Z' }

  /** `toLowerCase` on one character, restricted to ASCII letters. */
  function LowerChar(c: char): char {
    if IsUpper(c) then (c as int - 'A' as int + 'a' as int) as char else c
  }

  function Lower(s: string): string {
    seq(|s|, i requires 0 <= i < |s| => LowerChar(s[i]))
  }

  /** Lower-casing leaves no upper-case letter and changes nothing else. */
  lemma LowerShape(s: string)
    ensures |Lower(s)| == |s|
    ensures forall i :: 0 <= i < |s| ==> !IsUpper(Lower(s)[i])
    ensures forall i :: 0 <= i < |s| && !IsUpper(s[i]) ==> Lower(s)[i] == s[i]
  {
  }

  // ---------------------------------------------------------------------------
  // Substring search
  // ---------------------------------------------------------------------------

  /** `needle` occurs in `hay` starting at offset `k`. */
  ghost predicate OccursAt(hay: string, needle: string, k: int) {
    0 <= k && k + |needle| <= |hay| && hay[k..k + |needle|] == needle
  }

  /** `hay.includes(needle)`. The empty needle occurs everywhere. */
  function Includes(hay: string, needle: string): (b: bool)
    ensures b <==> exists k :: OccursAt(hay, needle, k)
    decreases |hay|
  {
    if |needle| > |hay| then false
    else if hay[..|needle|] == needle then
      assert OccursAt(hay, needle, 0);
      true
    else
      var b := Includes(hay[1..], needle);
      assert b ==> exists k :: OccursAt(hay, needle, k) by {
        if b {
          var k :| OccursAt(hay[1..], needle, k);
          assert hay[k + 1..k + 1 + |needle|] == hay[1..][k..k + |needle|];
          assert OccursAt(hay, needle, k + 1);
        }
      }
      assert (exists k :: OccursAt(hay, needle, k)) ==> b by {
        if exists k :: OccursAt(hay, needle, k) {
          var k :| OccursAt(hay, needle, k);
          assert k != 0;
          assert hay[1..][k - 1..k - 1 + |needle|] == hay[k..k + |needle|];
          assert OccursAt(hay[1..], needle, k - 1);
        }
      }
      b
  }

  /** `text.toLowerCase().includes(query.toLowerCase())`: the case-insensitive match every search box uses. */
  predicate MatchesQuery(text: string, query: string) {
    Includes(Lower(text), Lower(query))
  }

  /** `s.startsWith(prefix)`. */
  predicate StartsWith(s: string, prefix: string) {
    |prefix| <= |s| && s[..|prefix|] == prefix
  }

  // ---------------------------------------------------------------------------
  // Whitespace and trim
  // ---------------------------------------------------------------------------

  /** The characters `String.prototype.trim` strips: ECMAScript WhiteSpace and LineTerminator. */
  predicate IsSpace(c: char) {
    c == '\t' || c == '\n' || c == '\U{000B}' || c == '\U{000C}' || c == '\r' || c == ' '
    || c == '\U{00A0}' || c == '\U{1680}' || ('\U{2000}' <= c <= '\U{200A}')
    || c == '\U{2028}' || c == '\U{2029}' || c == '\U{202F}' || c == '\U{205F}'
    || c == '\U{3000}' || c == '\U{FEFF}'
  }

  /** Length of the run of whitespace at the front of `s`. */
  function LeadingSpace(s: string): (n: nat)
    ensures n <= |s|
    ensures forall i :: 0 <= i < n ==> IsSpace(s[i])
    ensures n < |s| ==> !IsSpace(s[n])
  {
    if |s| == 0 || !IsSpace(s[0]) then 0 else 1 + LeadingSpace(s[1..])
  }

  /** Length of the run of whitespace at the back of `s`. */
  function TrailingSpace(s: string): (n: nat)
    ensures n <= |s|
    ensures forall i :: |s| - n <= i < |s| ==> IsSpace(s[i])
    ensures n < |s| ==> !IsSpace(s[|s| - n - 1])
  {
    if |s| == 0 || !IsSpace(s[|s| - 1]) then 0 else 1 + TrailingSpace(s[..|s| - 1])
  }

  /** `s.trim()`: `s` without its leading and trailing whitespace. */
  function Trim(s: string): (r: string)
    ensures exists i, j ::
              && 0 <= i <= j <= |s| && r == s[i..j]
              && (forall k :: 0 <= k < i ==> IsSpace(s[k]))
              && (forall k :: j <= k < |s| ==> IsSpace(s[k]))
    ensures |r| > 0 ==> !IsSpace(r[0]) && !IsSpace(r[|r| - 1])
  {
    var t := s[LeadingSpace(s)..];
    var r := t[..|t| - TrailingSpace(t)];
    assert r == s[LeadingSpace(s)..|s| - TrailingSpace(t)];
    r
  }

  /** Trimming a string with no whitespace at either end returns it unchanged. */
  lemma TrimUnpadded(s: string)
    requires |s| > 0 ==> !IsSpace(s[0]) && !IsSpace(s[|s| - 1])
    ensures Trim(s) == s
  {
  }

  /** `!s.trim()`: the string is empty or whitespace only. */
  predicate IsBlank(s: string) {
    Trim(s) == ""
  }

  /** A string is blank exactly when every character is whitespace. */
  lemma BlankIffAllSpace(s: string)
    ensures IsBlank(s) <==> forall k :: 0 <= k < |s| ==> IsSpace(s[k])
  {
    if forall k :: 0 <= k < |s| ==> IsSpace(s[k]) {
      assert LeadingSpace(s) == |s|;
    }
  }

  // ---------------------------------------------------------------------------
  // Decimal numerals
  // ---------------------------------------------------------------------------

  predicate IsDigit(c: char) { '0' <= c <= '9' }

  predicate AllDigits(s: string) { forall i :: 0 <= i < |s| ==> IsDigit(s[i]) }

  function DigitChar(d: nat): char
    requires d < 10
  {
    ('0' as int + d) as char
  }

  function DigitValue(c: char): nat
    requires IsDigit(c)
  {
    c as int - '0' as int
  }

  /** `String(n)` for a non-negative integer: its shortest decimal numeral. */
  function NatToString(n: nat): string
  {
    if n < 10 then [DigitChar(n)] else NatToString(n / 10) + [DigitChar(n % 10)]
  }

  /** `String(n)` for any integer. */
  function IntToString(n: int): string
  {
    if n < 0 then "-" + NatToString(-n) else NatToString(n)
  }

  /** The value of a decimal numeral (`Number(s)` on a digits-only string). */
  function ParseDigits(s: string): nat
    requires AllDigits(s)
  {
    if |s| == 0 then 0 else 10 * ParseDigits(s[..|s| - 1]) + DigitValue(s[|s| - 1])
  }

  /** Rendering a number gives a non-empty numeral that parses back to the same number. */
  lemma {:induction false} NatToStringRoundTrip(n: nat)
    ensures |NatToString(n)| > 0 && AllDigits(NatToString(n))
    ensures ParseDigits(NatToString(n)) == n
  {
    if n >= 10 {
      NatToStringRoundTrip(n / 10);
      var s := NatToString(n);
      assert s[..|s| - 1] == NatToString(n / 10);
    }
  }

  /** Leading zeros do not change a numeral's value. */
  lemma {:induction false} ParseDigitsLeadingZero(s: string)
    requires AllDigits(s)
    ensures AllDigits("0" + s) && ParseDigits("0" + s) == ParseDigits(s)
  {
    if |s| > 0 {
      var t := "0" + s;
      assert t[..|t| - 1] == "0" + s[..|s| - 1];
      ParseDigitsLeadingZero(s[..|s| - 1]);
    }
  }

  /** `s.padStart(width, c)`. */
  function PadStart(s: string, width: nat, c: char): (r: string)
    ensures |r| == if |s| < width then width else |s|
    ensures r[|r| - |s|..] == s
    ensures forall i :: 0 <= i < |r| - |s| ==> r[i] == c
  {
    if |s| < width then seq(width - |s|, _ => c) + s else s
  }

  /** Zero-padded numeral of `n` at least `width` digits wide: `String(n).padStart(width, '0')`. */
  function ZeroPad(n: nat, width: nat): string {
    PadStart(NatToString(n), width, '0')
  }

  /** A zero-padded numeral is still a numeral of the same value. */
  lemma {:induction false} ZeroPadRoundTrip(n: nat, width: nat)
    ensures AllDigits(ZeroPad(n, width)) && ParseDigits(ZeroPad(n, width)) == n
  {
    NatToStringRoundTrip(n);
    var s := NatToString(n);
    if |s| < width {
      ZeroPadsParse(s, width - |s|);
      assert ZeroPad(n, width) == seq(width - |s|, _ => '0') + s;
    }
  }

  lemma {:induction false} ZeroPadsParse(s: string, k: nat)
    requires AllDigits(s)
    ensures AllDigits(seq(k, _ => '0') + s)
    ensures ParseDigits(seq(k, _ => '0') + s) == ParseDigits(s)
  {
    if k == 0 {
      assert seq(k, _ => '0') + s == s;
    } else {
      var shorter := seq(k - 1, _ => '0') + s;
      ZeroPadsParse(s, k - 1);
      assert seq(k, _ => '0') + s == "0" + shorter;
      ParseDigitsLeadingZero(shorter);
    }
  }

  // ---------------------------------------------------------------------------
  // Character search
  // ---------------------------------------------------------------------------

  /** `s.indexOf(c)`, `-1` rendered as `None`: the first position of `c`. */
  function IndexOf(s: string, c: char): (r: Option<nat>)
    ensures r.Some? ==> r.value < |s| && s[r.value] == c
    ensures r.Some? ==> forall j :: 0 <= j < r.value ==> s[j] != c
    ensures r.None? ==> forall j :: 0 <= j < |s| ==> s[j] != c
  {
    if |s| == 0 then None
    else if s[0] == c then Some(0)
    else
      match IndexOf(s[1..], c)
      case None => None
      case Some(k) => Some(k + 1)
  }

  /** In `digits + [c] + rest` with `c` not a digit, the first `c` follows the digits. */
  lemma IndexAfterDigits(digits: string, c: char, rest: string)
    requires AllDigits(digits) && !IsDigit(c)
    ensures IndexOf(digits + [c] + rest, c) == Some(|digits|)
  {
    var s := digits + [c] + rest;
    assert s[|digits|] == c;
    assert forall j :: 0 <= j < |digits| ==> s[j] == digits[j];
    match IndexOf(s, c)
    case None =>
    case Some(k) =>
  }
}

=== FILE: wrappers.dfy ===
/** Optional values: the model's rendering of JavaScript's `undefined` / `null`. */
module Wrappers {

  datatype Option<+T> = None | Some(value: T) {

    /** The wrapped value, or `default` when there is none (`x ?? default`). */
    function GetOr(default: T): T {
      match this
      case Some(v) => v
      case None => default
    }

    /** This value when present, otherwise `other`. */
    function OrElse(other: Option<T>): Option<T> {
      match this
      case Some(_) => this
      case None => other
    }
  }
}
